=== FILE: README.md ===
# page2tei inline annotations, modelled in Dafny

`page2tei.py` converts PAGE XML transcriptions into TEI. Each text line of a
PAGE file carries a `@custom` attribute. It lists annotation spans in a small
language, `kind {offset:3; length:2; key:value;}`. The core modelled here turns
a line's text and that attribute into the inline TEI content of the line:

- `CustomParser` reads `@custom` into a list of ops. This covers
  `parse_bool`, `parse_int` and `parse_custom_ops`. An op has a kind, an
  offset, a length and its remaining keys as attributes.
- `Segmentation` cuts a text at the clamped boundaries of a set of labelled
  ranges (`slice_text_nodes`). Each piece gets the sorted labels of the ranges
  that cover it whole.
- `Styling` models an element's mixed content as a sequence of text and element
  nodes. It covers `append_text`, which merges into the trailing text run, and
  `build_styled_nodes`, which turns `textStyle` flags (bold, italic, underline,
  superscript, subscript) into `<hi rend="...">` runs.
- `Handlers` holds the seven per-kind builders:
  - `<choice>` for abbrev/sic/regularised;
  - `<num>`, `<persName>`, `<placeName>`, `<ref>` and `<unclear>`;
  - the `<seg>` fallback for any other kind.

  Each builder rebases the style spans inside the wrapped witness text to the
  witness's own coordinates.
- `Overlay` is `build_inline_nodes_for_line`:
  - it files the ops by kind and stably sorts the wrappers by (offset, −end);
  - it walks them with a cursor, so the first wrapper to claim a position wins
    and later ones starting before the cursor are dropped;
  - it emits the styled gap text, the wrapper element and finally the styled
    tail.
- `Edition` is `detect_edition_type`, the file-name classifier.
- `Strings` holds the Python string operations these rely on: `strip`,
  `lower`, slicing with clamped bounds, and sorting a set of labels.

Python's loops that build lists or dicts are Dafny methods with loop
invariants. Each method is proved equal to a specification function, and the
properties are proved as lemmas about those functions. The pure helpers are
functions.

## Model

| member | source | states |
|---|---|---|
| CustomParser.ParseInt | page2tei.py:54-59 | text that is not an optionally signed decimal integer (after trimming) yields the default |
| CustomParser.ParseIntFormat | page2tei.py:54-59 | every integer written in decimal reads back as itself, whatever the default |
| CustomParser.ParseIntPadding | page2tei.py:54-59 | surrounding whitespace does not change the value read |
| CustomParser.ParseBool | page2tei.py:49-51 | a true answer needs a trimmed text of one to four characters starting with 1, t, T, y or Y; beyond that, which texts read true is the definition's own membership test of the trimmed, lower-cased text in the four spellings. SpellingsTrue and ParseBoolInsensitive give the true side for those spellings up to ASCII case and padding; FalseSpelling gives one false example |
| CustomParser.ParseBoolInsensitive | page2tei.py:49-51 | `parse_bool` ignores surrounding whitespace and letter case |
| CustomParser.SpellingsTrue | page2tei.py:51 | each of "1", "true", "yes" and "y" reads as true |
| CustomParser.TrueSpelling | page2tei.py:49-51 | "true" is read as true |
| CustomParser.FalseSpelling | page2tei.py:49-51 | "false" is read as false |
| CustomParser.NormaliseFlagIdempotent | page2tei.py:129-132 | rewriting a style flag to "true"/"false" keeps its truth and is idempotent |
| CustomParser.FillKV | page2tei.py:110-114 | the `kv` loop stores each `key:value;` pair of the body, value stripped, a later pair overwriting an earlier one |
| CustomParser.NormaliseStyleFlags | page2tei.py:129-132 | the flag loop rewrites exactly the five style flags present |
| CustomParser.ParseGroupBody | page2tei.py:108-134 | one group's op is built from its name and the pairs of its body |
| CustomParser.ParseCustomOps | page2tei.py:95-136 | the loop over group matches yields the specification `CustomOps`: one op per group, in order |
| CustomParser.CustomOpsGroups | page2tei.py:107-134 | there is exactly one op per group the group pattern finds, the j-th op built from the j-th group |
| CustomParser.CustomOpsRender | page2tei.py:107-114 | parsing readable groups written without whitespace recovers one op per group, in order (round trip) |
| CustomParser.CustomOpsLaid | page2tei.py:107-134 | readable groups written with any whitespace before them, before their `{` and after their `}` parse to one op per group, in order, the same ops as without it |
| CustomParser.GroupsLaid | page2tei.py:107 | whitespace before a group, before its `{` and after its `}` is insignificant: the group pattern finds exactly the written groups, in order |
| CustomParser.PairsLaid | page2tei.py:113 | with whitespace before a pair, around its `:`, before its `;` and after it, the pair pattern reads every key exactly, and every value together with the whitespace around it, in order |
| CustomParser.KVIntoLaid | page2tei.py:113-114 | stripping each value removes that whitespace: the filled dict is the one the pairs without it give |
| CustomParser.MakeOpLaid | page2tei.py:108-134 | a group body whose pairs carry whitespace builds the same op as the same pairs written without any |
| CustomParser.GroupsRender | page2tei.py:107 | the group scanner recovers exactly the groups that were written out |
| CustomParser.PairsRender | page2tei.py:113 | the pair scanner recovers exactly the pairs that were written out |
| CustomParser.NoBraceNoOps | page2tei.py:102-107 | a string without `{`, the empty one included, yields no ops |
| CustomParser.KVIntoKeys | page2tei.py:113-114 | the filled dict's keys are exactly the keys of the pairs |
| CustomParser.KVIntoLastWins | page2tei.py:113-114 | the value stored for a key is the stripped value of its last pair |
| CustomParser.KVIntoUntouched | page2tei.py:113-114 | keys no pair names are left as they were |
| CustomParser.NormaliseFlagsSpec | page2tei.py:129-132 | normalising flags keeps the key set and rewrites only the listed flags |
| CustomParser.OpOfAttrs | page2tei.py:120-132 | an op's attributes are every body key except offset and length; style flags are normalised for textStyle only |
| CustomParser.OpOfKind | page2tei.py:120-126 | a body key `kind` overrides the group name as the op's kind |
| CustomParser.OpOfSpan | page2tei.py:116-118 | offset and length are read with `parse_int`, defaulting to 0 |
| CustomParser.IntFieldDefault | page2tei.py:116-117 | a missing key reads as `parse_int("0", 0)` |
| CustomParser.FindAt | page2tei.py:107 | the scan for a closing character stops at its first occurrence |
| CustomParser.FindNone | page2tei.py:107 | the scan fails when the character does not occur |
| Segmentation.Clamp | page2tei.py:152-153 | a clamped cut point lies within the text |
| Segmentation.SliceTextNodes | page2tei.py:144-166 | the loops compute the specification `Segments`: sorted cut points, non-empty pieces, covering labels |
| Segmentation.CutPointsSpec | page2tei.py:150-153 | the cut points are 0, the text length and the clamped ends of every range |
| Segmentation.AscendingSpec | page2tei.py:155 | sorting the cut points lists each exactly once in increasing order |
| Segmentation.SegmentsConcat | page2tei.py:158-164 | the segments concatenate to the whole text |
| Segmentation.SegmentsInText | page2tei.py:159-162 | each segment is non-empty and is the text between its bounds |
| Segmentation.SegmentsContiguous | page2tei.py:158-164 | each segment starts where the previous one ends |
| Segmentation.SegmentsRespectRanges | page2tei.py:150-155 | no range boundary falls strictly inside a segment |
| Segmentation.SegmentLabels | page2tei.py:158-164 | a segment's labels are sorted, unique and exactly those of the ranges covering it whole, the same at every position in it |
| Segmentation.CoverIffContains | page2tei.py:163 | between adjacent cut points, covering the segment and containing one of its positions coincide |
| Strings.Slice | page2tei.py:508 | Python slicing clamps both bounds to the text and yields "" for an empty or inverted range |
| Strings.SliceConcat | page2tei.py:556-558 | adjacent slices concatenate |
| Strings.StripSpec | page2tei.py:114 | `strip` removes exactly the leading and trailing whitespace |
| Strings.Lower | page2tei.py:51 | lower-casing maps each character and keeps the length |
| Strings.LowerForgetsCase | page2tei.py:82 | lower-casing is idempotent and forgets upper-casing |
| Strings.SortedUnique | page2tei.py:211 | `sorted(set)` is strictly increasing with the same members |
| Strings.StrictlySortedUnique | page2tei.py:211 | two strictly sorted lists with the same members are equal |
| Styling.AppendText | page2tei.py:169-180 | appending adds at most one node and keeps every node but the last; non-empty text ends up at the end of a trailing text run (AppendTextFlat and AppendTextNormalized state the rest) |
| Styling.AppendTextFlat | page2tei.py:169-180 | appending adds exactly the string to the content's text; "" changes nothing |
| Styling.AppendTextChildren | page2tei.py:169-180 | appending text adds no child element |
| Styling.AppendTextRends | page2tei.py:169-180 | appended text is unstyled |
| Styling.AppendTextNormalized | page2tei.py:169-180 | appending keeps content free of empty and adjacent text runs |
| Styling.StyleFlagTests | page2tei.py:187-197 | the rend labels are the true flags in bold, italic, underline, superscript, subscript order |
| Styling.TrueFlagsSpec | page2tei.py:187-197 | a label is present iff its flag reads "true" |
| Styling.StyleRangesSpec | page2tei.py:185-200 | a range comes from each style op with at least one true flag, and none from any other |
| Styling.NoFlagsNoRanges | page2tei.py:198-199 | ops without a true flag give no range |
| Styling.StyledPlain | page2tei.py:202-204 | with no range the text is appended plainly |
| Styling.BuildStyledNodes | page2tei.py:183-213 | the loops compute the specification `StyledInto` |
| Styling.StyledText | page2tei.py:183-213 | styling appends exactly the text, in order |
| Styling.StyledNormalized | page2tei.py:183-213 | styling keeps content free of empty and adjacent text runs |
| Styling.StyledChildren | page2tei.py:206-213 | the new children are exactly one `hi` per labelled segment |
| Styling.StyledRends | page2tei.py:206-213 | each character gets as rend the sorted, space-joined labels of the ranges covering it |
| Styling.RendsLength | page2tei.py:206-213 | there is one rend per character |
| Styling.LiteralText | page2tei.py:264-270 | a literal child holds exactly its text |
| Handlers.Pick | page2tei.py:283-286 | an attribute is copied iff it is present and named; its value is unchanged |
| Handlers.RebaseStyles | page2tei.py:252-260 | the loop computes `Rebased`, the inner style ops shifted to the witness |
| Handlers.InsideOpsSpec | page2tei.py:254-256 | a style op is kept iff it lies within the witness span |
| Handlers.RebasedSpec | page2tei.py:252-260 | each kept op is shifted by the span start and lies within `[0, len(witness)]` |
| Handlers.RebasedRanges | page2tei.py:252-260 | the ranges of rebased ops are the shifted ranges of the kept ops |
| Handlers.ShiftedPointLabels | page2tei.py:252-260 | shifting ranges by g moves their labels from position g+p to p |
| Handlers.WitnessRends | page2tei.py:252-266 | the witness's styling is the line's styling restricted to spans inside the witness |
| Handlers.WitnessStyling | page2tei.py:252-266 | the styled witness holds exactly the witness text, is normalised, and its character p carries the rend of line position g+p from the inner spans |
| Handlers.BuildChoice | page2tei.py:216-272 | the builder computes `ChoiceNode` |
| Handlers.ChoiceShape | page2tei.py:224-272 | the tag pairs per kind; the styled witness goes in the first child, except for regularised, where the literal original comes first |
| Handlers.BuildNum | page2tei.py:275-299 | the builder computes `NumNode` |
| Handlers.BuildPersName | page2tei.py:302-331 | the builder computes `PersNameNode` |
| Handlers.PersNameAttrs | page2tei.py:311-318 | `type` is copied when present; `ref` is present iff wikiData is, and is the Wikidata URL; nothing else |
| Handlers.BuildPlaceName | page2tei.py:334-366 | the builder computes `PlaceNameNode` |
| Handlers.PlaceNameShape | page2tei.py:341-366 | with any nested field the content is the nested children, otherwise the styled witness |
| Handlers.NestedChildrenShape | page2tei.py:347-351 | each nested child is a present field holding its value as text |
| Handlers.NestedChildrenComplete | page2tei.py:347-351 | every present field has a child |
| Handlers.NestedChildrenOrdered | page2tei.py:344-351 | the children follow the order country, region, settlement, district |
| Handlers.BuildRef | page2tei.py:369-394 | the builder computes `RefNode` |
| Handlers.BuildUnclear | page2tei.py:397-420 | the builder computes `UnclearNode` |
| Handlers.BuildFallbackSeg | page2tei.py:423-450 | the builder computes `SegNode` |
| Handlers.EchoStep | page2tei.py:434-437 | one echo step adds `data-k` unless k is a bookkeeping key |
| Handlers.SegAttrs | page2tei.py:430-437 | `type` is the kind; every non-bookkeeping key k appears as `data-k` with its value; nothing else |
| Handlers.DataKeyInjective | page2tei.py:437 | distinct keys give distinct `data-` names |
| Overlay.Category | page2tei.py:459-483 | ops are filed as other iff their kind is unknown, and as style iff textStyle |
| Overlay.OfCategorySpec | page2tei.py:459-483 | each list holds exactly the positive-length ops of its kind |
| Overlay.WrappersMembers | page2tei.py:459-493 | the wrappers are exactly the positive-length ops that are not textStyle |
| Overlay.StyleOpsMembers | page2tei.py:469 | `style_ops` holds exactly the positive-length textStyle ops |
| Overlay.WrappersPermutation | page2tei.py:486-493 | the concatenated lists are a permutation of the wrapper ops in input order |
| Overlay.SortPermutes | page2tei.py:486-495 | sorting is a permutation |
| Overlay.SortMembers | page2tei.py:486-495 | sorting keeps the members |
| Overlay.SortSorted | page2tei.py:486-495 | sorted wrappers are ordered by offset, then by decreasing end |
| Overlay.SortStable | page2tei.py:486-495 | wrappers with equal keys keep their relative order |
| Overlay.InsertSorted | page2tei.py:486-495 | inserting into a sorted list keeps it sorted |
| Overlay.InsertStable | page2tei.py:486-495 | insertion places an element after every equal key |
| Overlay.SortedWrappersPositive | page2tei.py:459-495 | every sorted wrapper has positive length |
| Overlay.Wrap | page2tei.py:524-551 | the wrapper element is an element, never a `hi`; WrapKinds and WrapAlternative state which one |
| Overlay.BuildWrapper | page2tei.py:524-551 | the dispatch computes `Wrap`, the element stated per kind by WrapKinds and WrapAlternative |
| Overlay.WrapKinds | page2tei.py:530-551 | the three choice kinds give `choice`, num `num`, person `persName`, place `placeName`, ref `ref`, unclear `unclear`, any other kind a `seg` typed by the kind; num, persName, ref and unclear carry their picked keys, a seg its type plus the `data-*` echo of every non-bookkeeping key, choice and placeName no attributes; all but choices and nested places hold the styled witness |
| Overlay.WrapAlternative | page2tei.py:530-539 | a choice holds the styled witness and, as text, the `expansion`, `correction` or `original` value, or "" when that key is missing |
| Overlay.EmitWrapper | page2tei.py:508-553 | one accepted wrapper emits its styled gap, then its element |
| Overlay.BuildInlineNodesForLine | page2tei.py:453-572 | the method computes the specification `LineNodes` |
| Overlay.WalkAccept | page2tei.py:504-554 | unfolding step of the walk: a wrapper at or after the cursor emits its gap and element and moves the cursor to its end |
| Overlay.WalkSkip | page2tei.py:504-505 | unfolding step of the walk: a wrapper starting before the cursor is dropped |
| Overlay.WalkEnd | page2tei.py:557-570 | unfolding step of the walk: the tail is emitted iff the cursor is before the end of the text |
| Overlay.Accepted | page2tei.py:500-554 | the accepted wrappers are drawn from the sorted list and claim successive spans |
| Overlay.ClaimsDisjoint | page2tei.py:504-554 | accepted spans are non-empty, start at or after the cursor and do not overlap |
| Overlay.FirstClaimWins | page2tei.py:503-505 | a dropped wrapper starts before the initial cursor or inside an accepted span |
| Overlay.WalkEmits | page2tei.py:500-570 | the output is gaps, wrapper elements and tail for exactly the accepted wrappers |
| Overlay.CoverSpec | page2tei.py:500-570 | gaps, witnesses and tail concatenate to the text from the cursor on |
| Overlay.LineCoverage | page2tei.py:497-572 | gaps, witnesses and tail concatenate to exactly the line text |
| Overlay.ReadingAppend | page2tei.py:497-572 | the reading of concatenated nodes is the concatenation of readings |
| Overlay.ReadingFlat | page2tei.py:497-572 | without choices the reading is the flat text |
| Overlay.StyledReading | page2tei.py:183-213 | styled text reads back as the text |
| Overlay.GapReading | page2tei.py:508-521 | the gap nodes read as `text[cursor:start]` |
| Overlay.TailReading | page2tei.py:557-570 | the tail nodes read as `text[cursor:]` |
| Overlay.ChoiceReading | page2tei.py:263-270 | a choice of any of the three kinds reads as its witness, whichever child holds it |
| Overlay.WrapReading | page2tei.py:524-551 | a wrapper element reads as its witness (the witness side of a choice), except a place with nested fields |
| Overlay.EmitReading | page2tei.py:500-570 | the emitted nodes read as the covered text |
| Overlay.LineReading | page2tei.py:453-572 | without nested places, the line's nodes read back as exactly the line text |
| Overlay.NormalizedAround | page2tei.py:515-521 | text runs separated by an element stay normalised |
| Overlay.EmitNormalized | page2tei.py:500-570 | the emitted nodes have no empty text and no two adjacent text nodes |
| Overlay.LineNormalized | page2tei.py:453-572 | the line's nodes have no empty text and no two adjacent text nodes |
| Overlay.WithinTwice | page2tei.py:525-527 | filtering to the wrapper and then to the witness equals filtering to the witness |
| Overlay.WrapperStyling | page2tei.py:524-551 | inside a wrapper, each character carries the rend of its own line position, counting only spans inside the witness |
| Overlay.GapStyling | page2tei.py:510-514 | the gap is styled with the spans within it, in line coordinates, applied to gap positions |
| Overlay.TailStyling | page2tei.py:559-563 | the tail is styled with the spans within it, in line coordinates, applied to tail positions |
| Overlay.TailStyleOffset | page2tei.py:557-563 | in "ab" with a bold span on "b", the tail from cursor 1 is left plain |
| Overlay.BoldSecondRanges | page2tei.py:185-200 | a bold span of length 1 at offset 1 gives the range [1, 2) labelled bold |
| Edition.Basename | page2tei.py:82 | the basename is a slash-free suffix of the path |
| Edition.DetectEditionType | page2tei.py:77-87 | the answer is diplomatic, translation or none; EditionCases states which |
| Edition.EditionCases | page2tei.py:82-87 | diplomatic iff `_dip` or `diplomatic`; else translation iff `_trad` or `trans`; else none |
| Edition.DirectoryIgnored | page2tei.py:82 | only the last path component counts |
| Edition.BasenameUnder | page2tei.py:82 | the basename of `dir/name` is `name` |
| Edition.CaseIgnored | page2tei.py:82-87 | the classification ignores letter case |
| Edition.NameIgnoresCase | page2tei.py:82 | the lower-cased basename does not depend on the path's case |

## Left out

- XML serialisation, namespaces (`qn`), `prettify`, the command line, file
  I/O and the TEI header/metadata code are not part of this model.
- Elements are immutable values. Python's `text`/`tail` bookkeeping becomes
  a sequence of text and element nodes. Clearing `ch.tail` after moving it
  into the node list (page2tei.py:519-521, 568-570) is therefore implicit.
  Attributes are maps, so their insertion order is not modelled.
- The `tmp` element that the line builder fills and then empties is
  modelled by its content.
- An op's end is always offset + length here; there is no stored `end`.
  In the source a body key `end` overwrites the computed end with a string
  (page2tei.py:120 vs 123-126). Python then raises TypeError as soon as
  that end is negated, compared or clamped: in the sort key for a wrapper
  (page2tei.py:494), or in the style filters and `slice_text_nodes` for a
  style op (page2tei.py:512, 526, 561, 153). Nothing catches the exception
  around page2tei.py:983-984, so the conversion of the whole file stops.
  The model instead keeps the numeric end, files such a key among the
  attributes and returns the line's nodes.
- The model treats `\w` as the ASCII word characters and `str.lower` as
  ASCII lower-casing. Python's Unicode letters and digits in `\w`, its
  `int()` forms with underscores or non-ASCII digits, and Unicode case
  mapping are not modelled. Whitespace, for `\s`, `str.strip()` and `int()`,
  is Python's full set.
- Overlay.LineReading excludes places with nested fields: `build_placeName`
  drops their witness text, so such a line does not read back as its text.
- The early `if not custom_str` return (page2tei.py:103-104) is not a
  separate branch. The empty string has no group (CustomParser.NoBraceNoOps).
- The `s == e` skip in `slice_text_nodes` (page2tei.py:160-161) is kept in
  Segmentation.SegmentsFrom and Segmentation.SliceTextNodes, though it cannot
  fire: the sorted cut points are strictly increasing
  (Segmentation.AscendingSpec).
- The `else` branch of `build_choice_with_styles` (page2tei.py:243-247) is in
  Handlers.ChoiceNode. The overlay never reaches it, since it passes only the
  three choice kinds.
- `build_fallback_seg` reads `op.get("kind", "custom")`. Every op has a kind,
  so the "custom" default is never used.
- Edition.Basename models `os.path.basename` for POSIX `/` separators only.
- The gap and tail text are styled with line-offset spans applied to
  positions in the gap (page2tei.py:510-514, 559-563). The model keeps this
  as written: Overlay.GapStyling, Overlay.TailStyling and
  Overlay.TailStyleOffset state it.

=== FILE: edition.dfy ===
/** `detect_edition_type`: the edition a file name announces
    (page2tei.py:77-87). */

module Edition {
  import opened Strings

  /** `os.path.basename` of a POSIX path: the text after the last `/`. */
  function Basename(path: string): (b: string)
    ensures '/' !in b
    ensures |b| <= |path| && b == path[|path| - |b|..]
  {
    if path == [] then []
    else if path[|path| - 1] == '/' then []
    else
      var front := path[..|path| - 1];
      assert path == front + [path[|path| - 1]];
      Basename(front) + [path[|path| - 1]]
  }

  /** The lower-cased basename that the substring tests of
      `detect_edition_type` look at. */
  function NameOf(filename: string): string {
    Lower(Basename(filename))
  }

  predicate MarksDiplomatic(name: string) {
    Contains(name, "_dip") || Contains(name, "diplomatic")
  }

  predicate MarksTranslation(name: string) {
    Contains(name, "_trad") || Contains(name, "translation") || Contains(name, "trans")
  }

  /** `detect_edition_type`. */
  function DetectEditionType(filename: string): (r: Option<string>)
    ensures r == None || r == Some("diplomatic") || r == Some("translation")
  {
    var name := NameOf(filename);
    if MarksDiplomatic(name) then Some("diplomatic")
    else if MarksTranslation(name) then Some("translation")
    else None
  }

  // ---------------------------------------------------------------------
  // Properties
  // ---------------------------------------------------------------------

  /** The three outcomes: diplomatic markers win over translation
      markers, and the `translation` test adds nothing to the `trans`
      test. */
  lemma EditionCases(filename: string)
    ensures var name := NameOf(filename);
      (DetectEditionType(filename) == Some("diplomatic") <==> MarksDiplomatic(name))
      && (DetectEditionType(filename) == Some("translation")
          <==> !MarksDiplomatic(name) && (Contains(name, "_trad") || Contains(name, "trans")))
      && (DetectEditionType(filename) == None
          <==> !MarksDiplomatic(name) && !Contains(name, "_trad") && !Contains(name, "trans"))
  {
    var name := NameOf(filename);
    if Contains(name, "translation") {
      assert OccursAt("translation", "trans", 0);
      ContainsTrans(name, "translation", "trans");
    }
  }

  lemma {:induction false} BasenameUnder(dir: string, name: string)
    requires '/' !in name
    ensures Basename(dir + "/" + name) == name
  {
    if name != [] {
      var front := name[..|name| - 1];
      assert name == front + [name[|name| - 1]];
      BasenameUnder(dir, front);
      assert (dir + "/" + name)[..|dir + "/" + name| - 1] == dir + "/" + front;
    } else {
      assert dir + "/" + name == dir + "/";
    }
  }

  /** Only the last path component counts: any directory gives the same
      answer. */
  lemma DirectoryIgnored(dir: string, name: string)
    requires '/' !in name
    ensures DetectEditionType(dir + "/" + name) == DetectEditionType(name)
  {
    BasenameUnder(dir, name);
    BasenameOfPlain(name);
  }

  lemma {:induction false} BasenameOfPlain(name: string)
    requires '/' !in name
    ensures Basename(name) == name
  {
    if name != [] {
      var front := name[..|name| - 1];
      assert name == front + [name[|name| - 1]];
      BasenameOfPlain(front);
    }
  }

  lemma LowerSnoc(s: string, c: char)
    ensures Lower(s + [c]) == Lower(s) + [LowerChar(c)]
  {
    var l, r := Lower(s + [c]), Lower(s) + [LowerChar(c)];
    assert |l| == |r|;
    forall i | 0 <= i < |l| ensures l[i] == r[i] {
      if i < |s| {
        assert (s + [c])[i] == s[i];
      }
    }
  }

  lemma BasenameSnoc(s: string, c: char)
    ensures Basename(s + [c]) == if c == '/' then [] else Basename(s) + [c]
  {
    assert (s + [c])[..|s|] == s;
  }

  lemma {:induction false} BasenameLower(path: string)
    ensures Basename(Lower(path)) == Lower(Basename(path))
  {
    if path != [] {
      var front, c := path[..|path| - 1], path[|path| - 1];
      assert path == front + [c];
      BasenameLower(front);
      LowerSnoc(front, c);
      BasenameSnoc(Lower(front), LowerChar(c));
      BasenameSnoc(front, c);
      assert LowerChar(c) == '/' <==> c == '/';
      if c != '/' {
        LowerSnoc(Basename(front), c);
      }
    }
  }

  /** The lower-cased basename, the only thing the substring tests of
      `detect_edition_type` look at, does not depend on the letter case of
      the path. */
  lemma NameIgnoresCase(filename: string)
    ensures NameOf(Lower(filename)) == NameOf(filename)
  {
    BasenameLower(filename);
    LowerForgetsCase(Basename(filename));
  }

  /** The classification ignores letter case. */
  lemma CaseIgnored(filename: string)
    ensures DetectEditionType(Lower(filename)) == DetectEditionType(filename)
  {
    NameIgnoresCase(filename);
  }
}

=== FILE: handlers.dfy ===
/** The per-kind wrapper builders (page2tei.py:216-450) and the rebasing of
    style ops into a wrapper's own coordinates that each of them repeats. */
module Handlers {
  import opened Strings
  import opened CustomParser
  import opened Segmentation
  import opened Styling

  // ---------------------------------------------------------------------
  // Rebasing (`adj_styles`)
  // ---------------------------------------------------------------------

  /** The style op lies inside the span of length `n` starting at `g`. */
  predicate Inside(op: Op, g: int, n: int) {
    op.offset >= g && op.End() <= g + n
  }

  /** The style op moved by `-g`: offset and end both shift, the length
      stays. */
  function Shift(op: Op, g: int): Op {
    op.(offset := op.offset - g)
  }

  /** The style ops inside the span, unshifted, in order. */
  function InsideOps(ops: seq<Op>, g: int, n: int): seq<Op> {
    if ops == [] then []
    else InsideOps(ops[..|ops| - 1], g, n) + (if Inside(ops[|ops| - 1], g, n) then [ops[|ops| - 1]] else [])
  }

  /** `adj_styles`: the style ops inside the span, rebased to its start. */
  function Rebased(ops: seq<Op>, g: int, n: int): seq<Op> {
    if ops == [] then []
    else Rebased(ops[..|ops| - 1], g, n) + (if Inside(ops[|ops| - 1], g, n) then [Shift(ops[|ops| - 1], g)] else [])
  }

  /** The loop that computes `adj_styles` for a witness of length `n` at
      line offset `g`. */
  method RebaseStyles(ops: seq<Op>, g: int, n: int) returns (adj: seq<Op>)
    ensures adj == Rebased(ops, g, n)
  {
    adj := [];
    for k := 0 to |ops|
      invariant adj == Rebased(ops[..k], g, n)
    {
      assert ops[..k + 1][..k] == ops[..k];
      var op := ops[k];
      if op.offset >= g && op.End() <= g + n {
        adj := adj + [op.(offset := op.offset - g)];
      }
    }
    assert ops[..|ops|] == ops;
  }

  /** The styled content of a witness: its text styled by the rebased
      style ops. */
  function WitnessContent(witnessText: string, styles: seq<Op>, g: int): seq<Node> {
    StyledInto([], witnessText, Rebased(styles, g, |witnessText|))
  }

  // ---------------------------------------------------------------------
  // Attribute helpers
  // ---------------------------------------------------------------------

  /** The entries of `attrs` under the keys `ks`. */
  function Pick(attrs: map<string, string>, ks: set<string>): (r: map<string, string>)
    ensures forall k :: k in r <==> k in attrs && k in ks
    ensures forall k :: k in r ==> r[k] == attrs[k]
  {
    map k | k in attrs && k in ks :: attrs[k]
  }

  const WikidataPrefix: string := "https://www.wikidata.org/wiki/"

  /** The nested fields of a place, in the order they become children. */
  const PlaceFields: seq<string> := ["country", "region", "settlement", "district"]

  /** The keys the fallback does not echo as `data-*`. */
  predicate Bookkeeping(k: string) {
    k == "kind" || k == "offset" || k == "length" || k == "end"
  }

  // ---------------------------------------------------------------------
  // The builders, as specification functions
  // ---------------------------------------------------------------------

  /** `build_choice_with_styles`. */
  function ChoiceNode(kind: string, witnessText: string, alt: string, styles: seq<Op>, g: int): Node {
    var styled := WitnessContent(witnessText, styles, g);
    if kind == "abbrev" then
      Elem("choice", map[], [Elem("abbr", map[], styled), Elem("expan", map[], Literal(alt))])
    else if kind == "sic" then
      Elem("choice", map[], [Elem("sic", map[], styled), Elem("corr", map[], Literal(alt))])
    else if kind == "regularised" then
      Elem("choice", map[], [Elem("orig", map[], Literal(alt)), Elem("reg", map[], styled)])
    else
      Elem("choice", map[], [Elem("orig", map[], styled), Elem("reg", map[], Literal(alt))])
  }

  /** `build_num_with_styles`. */
  function NumNode(witnessText: string, op: Op, styles: seq<Op>, g: int): Node {
    Elem("num", Pick(op.attrs, {"type", "value"}), WitnessContent(witnessText, styles, g))
  }

  function PersAttrs(attrs: map<string, string>): map<string, string> {
    var typed := Pick(attrs, {"type"});
    if "wikiData" in attrs then typed["ref" := WikidataPrefix + attrs["wikiData"]] else typed
  }

  /** `build_persName`. */
  function PersNameNode(witnessText: string, op: Op, styles: seq<Op>, g: int): Node {
    Elem("persName", PersAttrs(op.attrs), WitnessContent(witnessText, styles, g))
  }

  /** One child per nested field present among `fs`, in the order of `fs`. */
  function NestedChildren(attrs: map<string, string>, fs: seq<string>): seq<Node> {
    if fs == [] then []
    else
      var f := fs[|fs| - 1];
      NestedChildren(attrs, fs[..|fs| - 1]) + (if f in attrs then [Elem(f, map[], Literal(attrs[f]))] else [])
  }

  /** `build_placeName`. */
  function PlaceNameNode(witnessText: string, op: Op, styles: seq<Op>, g: int): Node {
    var nested := NestedChildren(op.attrs, PlaceFields);
    if nested != [] then Elem("placeName", map[], nested)
    else Elem("placeName", map[], WitnessContent(witnessText, styles, g))
  }

  /** `build_ref`. */
  function RefNode(witnessText: string, op: Op, styles: seq<Op>, g: int): Node {
    Elem("ref", Pick(op.attrs, {"type", "target"}), WitnessContent(witnessText, styles, g))
  }

  /** `build_unclear`. */
  function UnclearNode(witnessText: string, op: Op, styles: seq<Op>, g: int): Node {
    Elem("unclear", Pick(op.attrs, {"reason"}), WitnessContent(witnessText, styles, g))
  }

  /** The attribute name under which the fallback echoes the key `k`. */
  function DataKey(k: string): string {
    "data-" + k
  }

  lemma DataKeyInjective()
    ensures forall k1, k2 :: DataKey(k1) == DataKey(k2) ==> k1 == k2
  {
    forall k1, k2 | DataKey(k1) == DataKey(k2) ensures k1 == k2 {
      assert k1 == DataKey(k1)[5..] && k2 == DataKey(k2)[5..];
    }
  }

  /** The `data-*` echo of the keys `keys` of `attrs`, bookkeeping keys
      excepted. */
  function Echo(attrs: map<string, string>, keys: set<string>): map<string, string> {
    DataKeyInjective();
    map k | k in keys && k in attrs && !Bookkeeping(k) :: DataKey(k) := attrs[k]
  }

  /** The `data-*` echo of the fallback: every key but the bookkeeping ones. */
  function DataAttrs(attrs: map<string, string>): map<string, string> {
    Echo(attrs, attrs.Keys)
  }

  /** `build_fallback_seg`. The op always has a kind, so the `"custom"`
      default of the source never applies. */
  function SegNode(witnessText: string, op: Op, styles: seq<Op>, g: int): Node {
    Elem("seg", DataAttrs(op.attrs)["type" := op.kind], WitnessContent(witnessText, styles, g))
  }

  // ---------------------------------------------------------------------
  // The builders as the source runs them
  // ---------------------------------------------------------------------

  /** `build_choice_with_styles`. */
  method BuildChoice(kind: string, witnessText: string, alt: string, styles: seq<Op>, g: int) returns (el: Node)
    ensures el == ChoiceNode(kind, witnessText, alt, styles, g)
  {
    var aTag, bTag, firstText, secondText;
    if kind == "abbrev" {
      aTag, bTag, firstText, secondText := "abbr", "expan", witnessText, alt;
    } else if kind == "sic" {
      aTag, bTag, firstText, secondText := "sic", "corr", witnessText, alt;
    } else if kind == "regularised" {
      aTag, bTag, firstText, secondText := "orig", "reg", alt, witnessText;
    } else {
      aTag, bTag, firstText, secondText := "orig", "reg", witnessText, alt;
    }
    var adj := RebaseStyles(styles, g, |witnessText|);
    var a, b;
    if kind == "regularised" {
      a := Elem(aTag, map[], Literal(firstText));
      var content := BuildStyledNodes([], secondText, adj);
      b := Elem(bTag, map[], content);
    } else {
      var content := BuildStyledNodes([], firstText, adj);
      a := Elem(aTag, map[], content);
      b := Elem(bTag, map[], Literal(secondText));
    }
    el := Elem("choice", map[], [a, b]);
  }

  /** `build_num_with_styles`. */
  method BuildNum(witnessText: string, op: Op, styles: seq<Op>, g: int) returns (el: Node)
    ensures el == NumNode(witnessText, op, styles, g)
  {
    var attrs: map<string, string> := map[];
    if "type" in op.attrs {
      attrs := attrs["type" := op.attrs["type"]];
    }
    if "value" in op.attrs {
      attrs := attrs["value" := op.attrs["value"]];
    }
    assert attrs == Pick(op.attrs, {"type", "value"});
    var adj := RebaseStyles(styles, g, |witnessText|);
    var content := BuildStyledNodes([], witnessText, adj);
    el := Elem("num", attrs, content);
  }

  /** `build_persName`. */
  method BuildPersName(witnessText: string, op: Op, styles: seq<Op>, g: int) returns (el: Node)
    ensures el == PersNameNode(witnessText, op, styles, g)
  {
    var attrs: map<string, string> := map[];
    if "type" in op.attrs {
      attrs := attrs["type" := op.attrs["type"]];
    }
    assert attrs == Pick(op.attrs, {"type"});
    if "wikiData" in op.attrs {
      attrs := attrs["ref" := WikidataPrefix + op.attrs["wikiData"]];
    }
    var adj := RebaseStyles(styles, g, |witnessText|);
    var content := BuildStyledNodes([], witnessText, adj);
    el := Elem("persName", attrs, content);
  }

  /** `build_placeName`. */
  method BuildPlaceName(witnessText: string, op: Op, styles: seq<Op>, g: int) returns (el: Node)
    ensures el == PlaceNameNode(witnessText, op, styles, g)
  {
    var content: seq<Node> := [];
    var hasNested := false;
    for k := 0 to |PlaceFields|
      invariant content == NestedChildren(op.attrs, PlaceFields[..k])
      invariant hasNested <==> content != []
    {
      assert PlaceFields[..k + 1][..k] == PlaceFields[..k];
      var f := PlaceFields[k];
      if f in op.attrs {
        content := content + [Elem(f, map[], Literal(op.attrs[f]))];
        hasNested := true;
      }
    }
    assert PlaceFields[..|PlaceFields|] == PlaceFields;
    if !hasNested {
      var adj := RebaseStyles(styles, g, |witnessText|);
      content := BuildStyledNodes(content, witnessText, adj);
    }
    el := Elem("placeName", map[], content);
  }

  /** `build_ref`. */
  method BuildRef(witnessText: string, op: Op, styles: seq<Op>, g: int) returns (el: Node)
    ensures el == RefNode(witnessText, op, styles, g)
  {
    var attrs: map<string, string> := map[];
    if "type" in op.attrs {
      attrs := attrs["type" := op.attrs["type"]];
    }
    if "target" in op.attrs {
      attrs := attrs["target" := op.attrs["target"]];
    }
    assert attrs == Pick(op.attrs, {"type", "target"});
    var adj := RebaseStyles(styles, g, |witnessText|);
    var content := BuildStyledNodes([], witnessText, adj);
    el := Elem("ref", attrs, content);
  }

  /** `build_unclear`. */
  method BuildUnclear(witnessText: string, op: Op, styles: seq<Op>, g: int) returns (el: Node)
    ensures el == UnclearNode(witnessText, op, styles, g)
  {
    var attrs: map<string, string> := map[];
    if "reason" in op.attrs {
      attrs := attrs["reason" := op.attrs["reason"]];
    }
    assert attrs == Pick(op.attrs, {"reason"});
    var adj := RebaseStyles(styles, g, |witnessText|);
    var content := BuildStyledNodes([], witnessText, adj);
    el := Elem("unclear", attrs, content);
  }

  /** Echoing one more key of `attrs`. */
  lemma EchoStep(attrs: map<string, string>, done: set<string>, k: string, kind: string)
    requires k in attrs && k !in done
    ensures Echo(attrs, done + {k})["type" := kind] ==
      if Bookkeeping(k) then Echo(attrs, done)["type" := kind]
      else Echo(attrs, done)["type" := kind][DataKey(k) := attrs[k]]
  {
    DataKeyInjective();
    assert DataKey(k) != "type" by {
      assert |DataKey(k)| >= 5;
    }
  }

  /** `build_fallback_seg`. */
  method BuildFallbackSeg(witnessText: string, op: Op, styles: seq<Op>, g: int) returns (el: Node)
    ensures el == SegNode(witnessText, op, styles, g)
  {
    var attrs: map<string, string> := map["type" := op.kind];
    var todo := op.attrs.Keys;
    while todo != {}
      invariant todo <= op.attrs.Keys
      invariant attrs == Echo(op.attrs, op.attrs.Keys - todo)["type" := op.kind]
      decreases todo
    {
      var k :| k in todo;
      EchoStep(op.attrs, op.attrs.Keys - todo, k, op.kind);
      assert op.attrs.Keys - (todo - {k}) == (op.attrs.Keys - todo) + {k};
      if !Bookkeeping(k) {
        attrs := attrs[DataKey(k) := op.attrs[k]];
      }
      todo := todo - {k};
    }
    assert op.attrs.Keys - todo == op.attrs.Keys;
    var adj := RebaseStyles(styles, g, |witnessText|);
    var content := BuildStyledNodes([], witnessText, adj);
    el := Elem("seg", attrs, content);
  }

  // ---------------------------------------------------------------------
  // Rebasing: properties
  // ---------------------------------------------------------------------

  /** A style op is kept exactly when it lies inside the span: one
      straddling a boundary is dropped. */
  lemma {:induction false} InsideOpsSpec(ops: seq<Op>, g: int, n: int)
    ensures forall op :: op in InsideOps(ops, g, n) <==> op in ops && Inside(op, g, n)
  {
    if ops != [] {
      var front, last := ops[..|ops| - 1], ops[|ops| - 1];
      InsideOpsSpec(front, g, n);
      assert ops == front + [last];
      forall op ensures op in ops <==> op in front || op == last {
      }
    }
  }

  /** `adj_styles` holds the inside ops, in order, each shifted by `-g`;
      every one of them lies within the witness `[0, n)`. */
  lemma {:induction false} RebasedSpec(ops: seq<Op>, g: int, n: int)
    ensures |Rebased(ops, g, n)| == |InsideOps(ops, g, n)|
    ensures forall i :: 0 <= i < |Rebased(ops, g, n)| ==> Rebased(ops, g, n)[i] == Shift(InsideOps(ops, g, n)[i], g)
    ensures forall op :: op in Rebased(ops, g, n) ==> 0 <= op.offset && op.End() <= n && op.length == op.End() - op.offset
  {
    if ops != [] {
      RebasedSpec(ops[..|ops| - 1], g, n);
    }
  }

  /** The ranges `r` shifted by `-g`. */
  function ShiftRanges(rs: seq<Range>, g: int): seq<Range> {
    if rs == [] then []
    else
      var r := rs[|rs| - 1];
      ShiftRanges(rs[..|rs| - 1], g) + [Range(r.start - g, r.end - g, r.rend)]
  }

  lemma StyleRangesSnoc(ops: seq<Op>, op: Op)
    ensures StyleRanges(ops + [op]) == StyleRanges(ops) + OpRange(op)
  {
    assert (ops + [op])[..|ops|] == ops;
  }

  lemma ShiftOpRange(op: Op, g: int)
    ensures OpRange(Shift(op, g)) == ShiftRanges(OpRange(op), g)
  {
    if OpRange(op) != [] {
      assert OpRange(op)[..0] == [];
    }
  }

  lemma {:induction false} RebasedRanges(ops: seq<Op>, g: int, n: int)
    ensures StyleRanges(Rebased(ops, g, n)) == ShiftRanges(StyleRanges(InsideOps(ops, g, n)), g)
  {
    if ops != [] {
      var front, last := ops[..|ops| - 1], ops[|ops| - 1];
      RebasedRanges(front, g, n);
      var rb, io := Rebased(front, g, n), InsideOps(front, g, n);
      if Inside(last, g, n) {
        assert Rebased(ops, g, n) == rb + [Shift(last, g)];
        assert InsideOps(ops, g, n) == io + [last];
        StyleRangesSnoc(rb, Shift(last, g));
        StyleRangesSnoc(io, last);
        ShiftOpRange(last, g);
        ShiftRangesAppend(StyleRanges(io), OpRange(last), g);
      } else {
        assert Rebased(ops, g, n) == rb;
        assert InsideOps(ops, g, n) == io;
      }
    }
  }

  lemma {:induction false} ShiftRangesAppend(a: seq<Range>, b: seq<Range>, g: int)
    requires |b| <= 1
    ensures ShiftRanges(a + b, g) == ShiftRanges(a, g) + ShiftRanges(b, g)
  {
    if b != [] {
      assert (a + b)[..|a + b| - 1] == a;
      assert b[..0] == [];
    } else {
      assert a + b == a;
    }
  }

  lemma {:induction false} ShiftedPointLabels(rs: seq<Range>, g: int, p: int)
    ensures PointLabels(ShiftRanges(rs, g), p) == PointLabels(rs, g + p)
  {
    if rs != [] {
      var front := rs[..|rs| - 1];
      ShiftedPointLabels(front, g, p);
      var sr := ShiftRanges(rs, g);
      assert sr[..|sr| - 1] == ShiftRanges(front, g);
    }
  }

  /** Rebasing is correct: the rend at witness position `p` is the rend,
      among the style ops inside the span, at line position `g + p`. */
  lemma RebasedRends(ops: seq<Op>, g: int, n: int, p: int)
    ensures RendAt(StyleRanges(Rebased(ops, g, n)), p) == RendAt(StyleRanges(InsideOps(ops, g, n)), g + p)
  {
    RebasedRanges(ops, g, n);
    ShiftedPointLabels(StyleRanges(InsideOps(ops, g, n)), g, p);
  }

  /** Two sequences built from functions that agree below `n` are equal. */
  lemma SeqPointwise(n: nat, f: int -> string, h: int -> string)
    requires forall p :: 0 <= p < n ==> f(p) == h(p)
    ensures seq(n, f) == seq(n, h)
  {
  }

  /** The rend of each witness character is the rend of its line position
      among the style ops inside the span. */
  lemma WitnessRends(witnessText: string, styles: seq<Op>, g: int)
    ensures Rends(WitnessContent(witnessText, styles, g))
      == seq(|witnessText|, p => RendAt(StyleRanges(InsideOps(styles, g, |witnessText|)), g + p))
  {
    var n := |witnessText|;
    var adj := Rebased(styles, g, n);
    StyledRends([], witnessText, adj);
    assert Rends([]) == [];
    RebasedRanges(styles, g, n);
    ShiftedRends(n, StyleRanges(InsideOps(styles, g, n)), g);
  }

  lemma ShiftedRends(n: nat, rs: seq<Range>, g: int)
    ensures seq(n, p => RendAt(ShiftRanges(rs, g), p)) == seq(n, p => RendAt(rs, g + p))
  {
    forall p | 0 <= p < n
      ensures RendAt(ShiftRanges(rs, g), p) == RendAt(rs, g + p)
    {
      ShiftedPointLabels(rs, g, p);
    }
    SeqPointwise(n, p => RendAt(ShiftRanges(rs, g), p), p => RendAt(rs, g + p));
  }

  /** The styled witness spells the witness, has no empty or adjacent text
      runs, and styles each character as the inside style ops style its
      line position. */
  lemma WitnessStyling(witnessText: string, styles: seq<Op>, g: int)
    ensures FlatText(WitnessContent(witnessText, styles, g)) == witnessText
    ensures Normalized(WitnessContent(witnessText, styles, g))
    ensures Rends(WitnessContent(witnessText, styles, g))
      == seq(|witnessText|, p => RendAt(StyleRanges(InsideOps(styles, g, |witnessText|)), g + p))
  {
    var adj := Rebased(styles, g, |witnessText|);
    StyledText([], witnessText, adj);
    StyledNormalized([], witnessText, adj);
    WitnessRends(witnessText, styles, g);
  }

  // ---------------------------------------------------------------------
  // Builder shapes
  // ---------------------------------------------------------------------

  /** The witness child of a choice: `reg` for regularised, the first
      child otherwise. */
  function WitnessIndex(kind: string): nat {
    if kind == "regularised" then 1 else 0
  }

  /** A choice has two children: abbrev gives `abbr`/`expan`, sic gives
      `sic`/`corr`, regularised gives `orig`/`reg`. The styled witness goes
      in the first child and the literal alternative in the second, except
      for regularised, where the literal original comes first and the
      styled witness second. */
  lemma ChoiceShape(kind: string, witnessText: string, alt: string, styles: seq<Op>, g: int)
    ensures var c := ChoiceNode(kind, witnessText, alt, styles, g);
      c.Elem? && c.tag == "choice" && c.attrs == map[] && |c.content| == 2
      && (kind == "abbrev" ==> c.content[0].tag == "abbr" && c.content[1].tag == "expan")
      && (kind == "sic" ==> c.content[0].tag == "sic" && c.content[1].tag == "corr")
      && (kind == "regularised" ==> c.content[0].tag == "orig" && c.content[1].tag == "reg")
      && c.content[WitnessIndex(kind)].Elem? && c.content[1 - WitnessIndex(kind)].Elem?
      && c.content[WitnessIndex(kind)].content == WitnessContent(witnessText, styles, g)
      && FlatText(c.content[WitnessIndex(kind)].content) == witnessText
      && c.content[1 - WitnessIndex(kind)].content == Literal(alt)
      && FlatText(c.content[1 - WitnessIndex(kind)].content) == alt
  {
    WitnessStyling(witnessText, styles, g);
    LiteralText(alt);
  }

  /** persName copies `type` and, when `wikiData` is given, sets `ref` to
      the Wikidata URL of that id; nothing else. */
  lemma PersNameAttrs(attrs: map<string, string>)
    ensures var pa := PersAttrs(attrs);
      ("type" in pa <==> "type" in attrs) && ("type" in attrs ==> pa["type"] == attrs["type"])
      && ("ref" in pa <==> "wikiData" in attrs)
      && ("wikiData" in attrs ==> pa["ref"] == WikidataPrefix + attrs["wikiData"])
      && (forall k :: k in pa ==> k == "type" || k == "ref")
  {
  }

  /** The tag of an element, "" for text. */
  function TagOf(node: Node): string {
    if node.Elem? then node.tag else ""
  }

  /** Each nested child of a place is a present field, as an element
      holding the field's value as its text. */
  lemma {:induction false} NestedChildrenShape(attrs: map<string, string>, fs: seq<string>)
    ensures forall i :: 0 <= i < |NestedChildren(attrs, fs)| ==>
      var c := NestedChildren(attrs, fs)[i];
      TagOf(c) in fs && TagOf(c) in attrs && c == Elem(TagOf(c), map[], Literal(attrs[TagOf(c)]))
  {
    if fs != [] {
      var front := fs[..|fs| - 1];
      NestedChildrenShape(attrs, front);
      assert fs == front + [fs[|fs| - 1]];
    }
  }

  /** Some node of `ns` has the tag `t`. */
  predicate HasTag(ns: seq<Node>, t: string) {
    exists i :: 0 <= i < |ns| && TagOf(ns[i]) == t
  }

  /** Every field present in the attributes has a nested child. */
  lemma {:induction false} NestedChildrenComplete(attrs: map<string, string>, fs: seq<string>)
    ensures forall f :: f in fs && f in attrs ==> HasTag(NestedChildren(attrs, fs), f)
  {
    if fs != [] {
      var front, last := fs[..|fs| - 1], fs[|fs| - 1];
      NestedChildrenComplete(attrs, front);
      var prev, ns := NestedChildren(attrs, front), NestedChildren(attrs, fs);
      assert fs == front + [last];
      forall f | f in fs && f in attrs ensures HasTag(ns, f) {
        if f in front {
          var i :| 0 <= i < |prev| && TagOf(prev[i]) == f;
          assert ns[i] == prev[i];
        } else {
          assert TagOf(ns[|ns| - 1]) == f;
        }
      }
    }
  }

  /** `a` occurs before `b` in `fs`. */
  predicate Precedes(fs: seq<string>, a: string, b: string) {
    exists x, y :: 0 <= x < y < |fs| && fs[x] == a && fs[y] == b
  }

  /** The nested children follow the order of the fields. */
  lemma {:induction false} NestedChildrenOrdered(attrs: map<string, string>, fs: seq<string>)
    ensures forall i, j :: 0 <= i < j < |NestedChildren(attrs, fs)| ==>
      Precedes(fs, TagOf(NestedChildren(attrs, fs)[i]), TagOf(NestedChildren(attrs, fs)[j]))
  {
    if fs != [] {
      var front, last := fs[..|fs| - 1], fs[|fs| - 1];
      NestedChildrenOrdered(attrs, front);
      NestedChildrenShape(attrs, front);
      var prev, ns := NestedChildren(attrs, front), NestedChildren(attrs, fs);
      assert fs == front + [last];
      forall i, j | 0 <= i < j < |ns| ensures Precedes(fs, TagOf(ns[i]), TagOf(ns[j])) {
        assert ns[i] == prev[i];
        if j < |prev| {
          assert ns[j] == prev[j];
          assert Precedes(front, TagOf(prev[i]), TagOf(prev[j]));
          var x, y :| 0 <= x < y < |front| && front[x] == TagOf(prev[i]) && front[y] == TagOf(prev[j]);
          assert fs[x] == TagOf(ns[i]) && fs[y] == TagOf(ns[j]);
        } else {
          assert TagOf(prev[i]) in front;
          var x :| 0 <= x < |front| && front[x] == TagOf(prev[i]);
          assert fs[x] == TagOf(ns[i]) && fs[|fs| - 1] == TagOf(ns[j]);
        }
      }
    }
  }

  /** A place with any nested field emits those children and no witness
      text; without one it holds the styled witness. */
  lemma PlaceNameShape(witnessText: string, op: Op, styles: seq<Op>, g: int)
    ensures var node := PlaceNameNode(witnessText, op, styles, g);
      node.Elem? && node.tag == "placeName" && node.attrs == map[]
      && ((exists f :: f in PlaceFields && f in op.attrs) ==> node.content == NestedChildren(op.attrs, PlaceFields))
      && (!(exists f :: f in PlaceFields && f in op.attrs) ==> node.content == WitnessContent(witnessText, styles, g))
  {
    NestedChildrenShape(op.attrs, PlaceFields);
    NestedChildrenComplete(op.attrs, PlaceFields);
    var ns := NestedChildren(op.attrs, PlaceFields);
    if ns != [] {
      assert TagOf(ns[0]) in PlaceFields && TagOf(ns[0]) in op.attrs;
    }
  }

  /** The fallback `seg` has `type` set to the op's kind and echoes every
      other non-bookkeeping key as `data-<key>`, and has no other
      attribute. */
  lemma SegAttrs(witnessText: string, op: Op, styles: seq<Op>, g: int)
    ensures var at := SegNode(witnessText, op, styles, g).attrs;
      "type" in at && at["type"] == op.kind
      && (forall k :: k in op.attrs && !Bookkeeping(k) ==> DataKey(k) in at && at[DataKey(k)] == op.attrs[k])
      && (forall key :: key in at ==> key == "type" || exists k :: k in op.attrs && !Bookkeeping(k) && key == DataKey(k))
  {
    DataKeyInjective();
    forall k | k in op.attrs && !Bookkeeping(k) ensures DataKey(k) != "type" {
      assert |DataKey(k)| >= 5;
    }
  }
}

=== FILE: overlay.dfy ===
/** `build_inline_nodes_for_line`: the wrapper overlay of one line of text
    (page2tei.py:453-572). */

module Overlay {
  import opened Strings
  import opened CustomParser
  import opened Segmentation
  import opened Styling
  import opened Handlers

  // ---------------------------------------------------------------------
  // Categories
  // ---------------------------------------------------------------------

  predicate IsChoiceKind(k: string) {
    k == "abbrev" || k == "sic" || k == "regularised"
  }

  /** The kinds the overlay knows; any other kind becomes a `seg`. */
  const KnownKinds: set<string> :=
    {"abbrev", "sic", "regularised", "num", "person", "place", "ref", "unclear", "textStyle"}

  /** The list an op is filed in: 0 choice, 1 num, 2 person, 3 place,
      4 ref, 5 unclear, 6 other, 7 textStyle. */
  function Category(o: Op): (c: nat)
    ensures c <= 7
    ensures c == 6 <==> o.kind !in KnownKinds
    ensures c == 7 <==> o.kind == "textStyle"
  {
    if IsChoiceKind(o.kind) then 0
    else if o.kind == "num" then 1
    else if o.kind == "person" then 2
    else if o.kind == "place" then 3
    else if o.kind == "ref" then 4
    else if o.kind == "unclear" then 5
    else if o.kind == "textStyle" then 7
    else 6
  }

  /** The ops of category `c` with a positive length, in input order. */
  function OfCategory(ops: seq<Op>, c: nat): seq<Op> {
    if ops == [] then []
    else
      var o := ops[|ops| - 1];
      OfCategory(ops[..|ops| - 1], c) + (if Category(o) == c && o.length > 0 then [o] else [])
  }

  /** The wrapper list before sorting: the category lists concatenated. */
  function Wrappers(ops: seq<Op>): seq<Op> {
    OfCategory(ops, 0) + OfCategory(ops, 1) + OfCategory(ops, 2) + OfCategory(ops, 3)
    + OfCategory(ops, 4) + OfCategory(ops, 5) + OfCategory(ops, 6)
  }

  /** `style_ops`. */
  function StyleOps(ops: seq<Op>): seq<Op> {
    OfCategory(ops, 7)
  }

  /** An op that wraps a span: any kind but textStyle, positive length. */
  predicate IsWrapper(o: Op) {
    o.kind != "textStyle" && o.length > 0
  }

  /** The wrapper ops in input order, as a reference for `Wrappers`. */
  function WrapperOps(ops: seq<Op>): seq<Op> {
    if ops == [] then []
    else WrapperOps(ops[..|ops| - 1]) + (if IsWrapper(ops[|ops| - 1]) then [ops[|ops| - 1]] else [])
  }

  // ---------------------------------------------------------------------
  // Stable sort by (offset, -end)
  // ---------------------------------------------------------------------

  /** `a` sorts strictly before `b`: smaller offset, or the same offset
      and a larger end. */
  predicate Before(a: Op, b: Op) {
    a.offset < b.offset || (a.offset == b.offset && a.End() > b.End())
  }

  predicate SortedByKey(s: seq<Op>) {
    forall i, j :: 0 <= i < j < |s| ==> !Before(s[j], s[i])
  }

  /** `x` placed after every element of the sorted `s` that does not sort
      strictly after it. */
  function Insert(s: seq<Op>, x: Op): seq<Op> {
    if s == [] then [x]
    else if Before(x, s[|s| - 1]) then Insert(s[..|s| - 1], x) + [s[|s| - 1]]
    else s + [x]
  }

  /** Python's stable `sorted` with key `(offset, -end)`. */
  function SortWrappers(ws: seq<Op>): seq<Op> {
    if ws == [] then [] else Insert(SortWrappers(ws[..|ws| - 1]), ws[|ws| - 1])
  }

  /** The elements of `s` whose key is `(off, end)`, in order. */
  function WithKey(s: seq<Op>, off: int, end: int): seq<Op> {
    if s == [] then []
    else
      var o := s[|s| - 1];
      WithKey(s[..|s| - 1], off, end) + (if o.offset == off && o.End() == end then [o] else [])
  }

  // ---------------------------------------------------------------------
  // The walk
  // ---------------------------------------------------------------------

  /** The style ops lying within `[lo, hi)` of the line. */
  function Within(styles: seq<Op>, lo: int, hi: int): seq<Op> {
    InsideOps(styles, lo, hi - lo)
  }

  /** The key holding a choice's alternative reading. */
  function AltKey(kind: string): string {
    if kind == "abbrev" then "expansion" else if kind == "sic" then "correction" else "original"
  }

  predicate Positive(ws: seq<Op>) {
    forall k :: 0 <= k < |ws| ==> ws[k].length > 0
  }

  /** The element built for the wrapper `w`. */
  function Wrap(text: string, styles: seq<Op>, w: Op): (el: Node)
    requires 0 <= w.offset && 0 < w.length
    ensures el.Elem? && el.tag != "hi"
  {
    var start, end := w.offset, w.End();
    var witnessText := Slice(text, start, end);
    var inner := Within(styles, start, end);
    if IsChoiceKind(w.kind) then ChoiceNode(w.kind, witnessText, Get(w.attrs, AltKey(w.kind), ""), inner, start)
    else if w.kind == "num" then NumNode(witnessText, w, inner, start)
    else if w.kind == "person" then PersNameNode(witnessText, w, inner, start)
    else if w.kind == "place" then PlaceNameNode(witnessText, w, inner, start)
    else if w.kind == "ref" then RefNode(witnessText, w, inner, start)
    else if w.kind == "unclear" then UnclearNode(witnessText, w, inner, start)
    else SegNode(witnessText, w, inner, start)
  }

  /** The styled text between the cursor and a wrapper, with the style ops
      of that stretch in line coordinates. */
  function GapNodes(text: string, styles: seq<Op>, cursor: nat, start: nat): seq<Node> {
    var pre := Slice(text, cursor, start);
    if pre == "" then [] else StyledInto([], pre, Within(styles, cursor, start))
  }

  /** The styled text after the last wrapper, likewise in line
      coordinates. */
  function TailNodes(text: string, styles: seq<Op>, cursor: nat): seq<Node> {
    if cursor < |text| then StyledInto([], Slice(text, cursor, |text|), Within(styles, cursor, |text|))
    else []
  }

  /** The nodes the loop emits for the wrappers `ws` from `cursor` on,
      followed by the tail. */
  function WalkFrom(text: string, styles: seq<Op>, ws: seq<Op>, cursor: nat): seq<Node>
    requires Positive(ws)
    decreases |ws|
  {
    if ws == [] then TailNodes(text, styles, cursor)
    else
      var w := ws[0];
      if w.offset < cursor then WalkFrom(text, styles, ws[1..], cursor)
      else GapNodes(text, styles, cursor, w.offset) + [Wrap(text, styles, w)] + WalkFrom(text, styles, ws[1..], w.End())
  }

  /** The wrappers claim disjoint spans in increasing order from
      `cursor` on: each starts at or after the end of the one before. */
  predicate Claims(a: seq<Op>, cursor: int)
    decreases |a|
  {
    a == [] || (cursor <= a[0].offset && 0 < a[0].length && Claims(a[1..], a[0].End()))
  }

  /** The wrappers the loop accepts from `cursor` on: a wrapper starting
      before the cursor is dropped, and an accepted one moves the cursor to
      its end. */
  function Accepted(ws: seq<Op>, cursor: int): (a: seq<Op>)
    requires Positive(ws)
    ensures Claims(a, cursor)
    ensures forall o :: o in a ==> o in ws
    decreases |ws|
  {
    if ws == [] then []
    else if ws[0].offset < cursor then Accepted(ws[1..], cursor)
    else [ws[0]] + Accepted(ws[1..], ws[0].End())
  }

  /** The nodes for a list of accepted wrappers: gap, element, and so on,
      then the tail. */
  function Emit(text: string, styles: seq<Op>, a: seq<Op>, cursor: nat): seq<Node>
    requires Claims(a, cursor)
    decreases |a|
  {
    if a == [] then TailNodes(text, styles, cursor)
    else GapNodes(text, styles, cursor, a[0].offset) + [Wrap(text, styles, a[0])] + Emit(text, styles, a[1..], a[0].End())
  }

  /** The text pieces of a walk: each gap, each witness, then the tail. */
  function Cover(text: string, a: seq<Op>, cursor: nat): string
    requires Claims(a, cursor)
    decreases |a|
  {
    if a == [] then Slice(text, cursor, |text|)
    else Slice(text, cursor, a[0].offset) + Slice(text, a[0].offset, a[0].End()) + Cover(text, a[1..], a[0].End())
  }

  /** The sorted wrapper list of a line. */
  function SortedWrappers(ops: seq<Op>): (ws: seq<Op>)
    ensures Positive(ws)
  {
    SortedWrappersPositive(ops);
    SortWrappers(Wrappers(ops))
  }

  /** `build_inline_nodes_for_line`. */
  function LineNodes(text: string, ops: seq<Op>): seq<Node> {
    WalkFrom(text, StyleOps(ops), SortedWrappers(ops), 0)
  }

  /** The dispatch on the wrapper's kind. */
  method BuildWrapper(text: string, styles: seq<Op>, w: Op) returns (el: Node)
    requires 0 <= w.offset && 0 < w.length
    ensures el == Wrap(text, styles, w)
  {
    var start, end := w.offset, w.End();
    var witnessText := Slice(text, start, end);
    var inner := Within(styles, start, end);
    if IsChoiceKind(w.kind) {
      var alt := Get(w.attrs, AltKey(w.kind), "");
      el := BuildChoice(w.kind, witnessText, alt, inner, start);
    } else if w.kind == "num" {
      el := BuildNum(witnessText, w, inner, start);
    } else if w.kind == "person" {
      el := BuildPersName(witnessText, w, inner, start);
    } else if w.kind == "place" {
      el := BuildPlaceName(witnessText, w, inner, start);
    } else if w.kind == "ref" {
      el := BuildRef(witnessText, w, inner, start);
    } else if w.kind == "unclear" {
      el := BuildUnclear(witnessText, w, inner, start);
    } else {
      el := BuildFallbackSeg(witnessText, w, inner, start);
    }
  }

  /** One accepted wrapper: the styled gap before it, then its element. */
  method EmitWrapper(text: string, styles: seq<Op>, w: Op, cursor: nat) returns (piece: seq<Node>)
    requires cursor <= w.offset && 0 < w.length
    ensures piece == GapNodes(text, styles, cursor, w.offset) + [Wrap(text, styles, w)]
  {
    var start := w.offset;
    var pre := Slice(text, cursor, start);
    piece := [];
    if pre != "" {
      piece := BuildStyledNodes([], pre, Within(styles, cursor, start));
    }
    var el := BuildWrapper(text, styles, w);
    piece := piece + [el];
  }

  /** `build_inline_nodes_for_line`: the cursor loop over the sorted
      wrappers, then the tail. */
  method BuildInlineNodesForLine(text: string, ops: seq<Op>) returns (nodes: seq<Node>)
    ensures nodes == LineNodes(text, ops)
  {
    var styleOps := StyleOps(ops);
    var wrappers := SortedWrappers(ops);
    nodes := [];
    var cursor: nat := 0;
    var i := 0;
    while i < |wrappers|
      invariant 0 <= i <= |wrappers|
      invariant nodes + WalkFrom(text, styleOps, wrappers[i..], cursor) == WalkFrom(text, styleOps, wrappers, 0)
    {
      var w := wrappers[i];
      ghost var rest := wrappers[i + 1..];
      assert wrappers[i..][1..] == rest;
      if w.offset >= cursor {
        var piece := EmitWrapper(text, styleOps, w, cursor);
        WalkAccept(text, styleOps, wrappers[i..], cursor);
        nodes := nodes + piece;
        cursor := w.End();
      } else {
        WalkSkip(text, styleOps, wrappers[i..], cursor);
      }
      i := i + 1;
    }
    assert wrappers[i..] == [];
    var tail: seq<Node> := [];
    if cursor < |text| {
      tail := BuildStyledNodes([], Slice(text, cursor, |text|), Within(styleOps, cursor, |text|));
    }
    WalkEnd(text, styleOps, cursor);
    nodes := nodes + tail;
  }

  lemma WalkAccept(text: string, styles: seq<Op>, ws: seq<Op>, cursor: nat)
    requires Positive(ws) && ws != [] && ws[0].offset >= cursor
    ensures WalkFrom(text, styles, ws, cursor)
      == GapNodes(text, styles, cursor, ws[0].offset) + [Wrap(text, styles, ws[0])] + WalkFrom(text, styles, ws[1..], ws[0].End())
  {
  }

  lemma WalkEnd(text: string, styles: seq<Op>, cursor: nat)
    ensures cursor < |text| ==>
      WalkFrom(text, styles, [], cursor) == StyledInto([], Slice(text, cursor, |text|), Within(styles, cursor, |text|))
    ensures cursor >= |text| ==> WalkFrom(text, styles, [], cursor) == []
  {
  }

  lemma WalkSkip(text: string, styles: seq<Op>, ws: seq<Op>, cursor: nat)
    requires Positive(ws) && ws != [] && ws[0].offset < cursor
    ensures WalkFrom(text, styles, ws, cursor) == WalkFrom(text, styles, ws[1..], cursor)
  {
  }

  // ---------------------------------------------------------------------
  // Wrapper selection
  // ---------------------------------------------------------------------

  lemma {:induction false} OfCategorySpec(ops: seq<Op>, c: nat)
    ensures forall o :: o in OfCategory(ops, c) <==> o in ops && Category(o) == c && o.length > 0
  {
    if ops != [] {
      var front, last := ops[..|ops| - 1], ops[|ops| - 1];
      OfCategorySpec(front, c);
      assert ops == front + [last];
    }
  }

  lemma WrappersMembers(ops: seq<Op>)
    ensures forall o :: o in Wrappers(ops) <==> o in ops && IsWrapper(o)
  {
    forall c: nat | c <= 7 {
      OfCategorySpec(ops, c);
    }
  }

  /** The style ops are the textStyle ops of positive length. */
  lemma StyleOpsMembers(ops: seq<Op>)
    ensures forall o :: o in StyleOps(ops) <==> o in ops && o.kind == "textStyle" && o.length > 0
  {
    OfCategorySpec(ops, 7);
  }

  lemma SortedWrappersPositive(ops: seq<Op>)
    ensures Positive(SortWrappers(Wrappers(ops)))
  {
    var ws := Wrappers(ops);
    WrappersMembers(ops);
    SortMembers(ws);
    var s := SortWrappers(ws);
    forall k | 0 <= k < |s| ensures s[k].length > 0 {
      assert s[k] in ws;
    }
  }

  lemma SortMembers(ws: seq<Op>)
    ensures forall o :: o in SortWrappers(ws) <==> o in ws
  {
    SortPermutes(ws);
    forall o ensures o in SortWrappers(ws) <==> o in ws {
      assert o in SortWrappers(ws) <==> o in multiset(SortWrappers(ws));
      assert o in ws <==> o in multiset(ws);
    }
  }

  lemma {:induction false} InsertPermutes(s: seq<Op>, x: Op)
    ensures multiset(Insert(s, x)) == multiset(s) + multiset{x}
  {
    if s != [] && Before(x, s[|s| - 1]) {
      var front, last := s[..|s| - 1], s[|s| - 1];
      InsertPermutes(front, x);
      assert s == front + [last];
    }
  }

  lemma {:induction false} SortPermutes(ws: seq<Op>)
    ensures multiset(SortWrappers(ws)) == multiset(ws)
  {
    if ws != [] {
      var front, last := ws[..|ws| - 1], ws[|ws| - 1];
      SortPermutes(front);
      InsertPermutes(SortWrappers(front), last);
      assert ws == front + [last];
    }
  }

  lemma {:induction false} OfCategoryCount(ops: seq<Op>, c: nat, o: Op)
    ensures multiset(OfCategory(ops, c))[o] == if Category(o) == c && o.length > 0 then multiset(ops)[o] else 0
  {
    if ops != [] {
      OfCategoryCount(ops[..|ops| - 1], c, o);
      assert ops == ops[..|ops| - 1] + [ops[|ops| - 1]];
    }
  }

  lemma {:induction false} WrapperOpsCount(ops: seq<Op>, o: Op)
    ensures multiset(WrapperOps(ops))[o] == if IsWrapper(o) then multiset(ops)[o] else 0
  {
    if ops != [] {
      WrapperOpsCount(ops[..|ops| - 1], o);
      assert ops == ops[..|ops| - 1] + [ops[|ops| - 1]];
    }
  }

  /** The concatenated category lists hold every wrapper op exactly as
      often as the input does, and nothing else. */
  lemma WrappersPermutation(ops: seq<Op>)
    ensures multiset(Wrappers(ops)) == multiset(WrapperOps(ops))
  {
    forall o ensures multiset(Wrappers(ops))[o] == multiset(WrapperOps(ops))[o] {
      forall c: nat | c <= 6 {
        OfCategoryCount(ops, c, o);
      }
      WrapperOpsCount(ops, o);
    }
  }

  // ---------------------------------------------------------------------
  // Sorting: order, permutation, stability
  // ---------------------------------------------------------------------

  lemma InsertMembers(s: seq<Op>, x: Op)
    ensures forall y :: y in Insert(s, x) <==> y in s || y == x
  {
    InsertPermutes(s, x);
    forall y ensures y in Insert(s, x) <==> y in s || y == x {
      assert y in Insert(s, x) <==> y in multiset(Insert(s, x));
      assert y in s <==> y in multiset(s);
    }
  }

  lemma {:induction false} InsertSorted(s: seq<Op>, x: Op)
    requires SortedByKey(s)
    ensures SortedByKey(Insert(s, x))
  {
    if s != [] {
      var front, last := s[..|s| - 1], s[|s| - 1];
      assert s == front + [last];
      if Before(x, last) {
        assert SortedByKey(front);
        InsertSorted(front, x);
        InsertMembers(front, x);
        var r := Insert(front, x);
        forall i | 0 <= i < |r| ensures !Before(last, r[i]) {
          if r[i] != x {
            assert r[i] in front;
            var j :| 0 <= j < |front| && front[j] == r[i];
            assert s[j] == r[i];
          }
        }
        assert Insert(s, x) == r + [last];
      } else {
        forall i | 0 <= i < |s| ensures !Before(x, s[i]) {
          if i < |s| - 1 {
            assert !Before(s[|s| - 1], s[i]);
          }
        }
      }
    }
  }

  /** The sort orders the wrappers by offset, the longer first on a tie. */
  lemma {:induction false} SortSorted(ws: seq<Op>)
    ensures SortedByKey(SortWrappers(ws))
  {
    if ws != [] {
      SortSorted(ws[..|ws| - 1]);
      InsertSorted(SortWrappers(ws[..|ws| - 1]), ws[|ws| - 1]);
    }
  }

  lemma WithKeySnoc(s: seq<Op>, y: Op, off: int, end: int)
    ensures WithKey(s + [y], off, end) == WithKey(s, off, end) + (if y.offset == off && y.End() == end then [y] else [])
  {
    assert (s + [y])[..|s|] == s;
  }

  lemma {:induction false} InsertStable(s: seq<Op>, x: Op, off: int, end: int)
    ensures WithKey(Insert(s, x), off, end) == WithKey(s, off, end) + (if x.offset == off && x.End() == end then [x] else [])
  {
    if s == [] {
      WithKeySnoc([], x, off, end);
      assert [x] == [] + [x];
    } else {
      var front, last := s[..|s| - 1], s[|s| - 1];
      assert s == front + [last];
      WithKeySnoc(front, last, off, end);
      if Before(x, last) {
        InsertStable(front, x, off, end);
        WithKeySnoc(Insert(front, x), last, off, end);
      } else {
        WithKeySnoc(s, x, off, end);
      }
    }
  }

  /** Stability: among wrappers with the same offset and end, the sort
      keeps the order of its input. */
  lemma {:induction false} SortStable(ws: seq<Op>, off: int, end: int)
    ensures WithKey(SortWrappers(ws), off, end) == WithKey(ws, off, end)
  {
    if ws != [] {
      var front, last := ws[..|ws| - 1], ws[|ws| - 1];
      SortStable(front, off, end);
      InsertStable(SortWrappers(front), last, off, end);
      assert ws == front + [last];
      WithKeySnoc(front, last, off, end);
    }
  }

  // ---------------------------------------------------------------------
  // Selection: first claim wins
  // ---------------------------------------------------------------------

  /** Accepted wrappers lie at or after the starting cursor, are disjoint
      and come in increasing offset order. */
  lemma {:induction false} ClaimsDisjoint(a: seq<Op>, cursor: int)
    requires Claims(a, cursor)
    ensures forall k :: 0 <= k < |a| ==> cursor <= a[k].offset < a[k].End()
    ensures forall i, j :: 0 <= i < j < |a| ==> a[i].End() <= a[j].offset
  {
    if a != [] {
      ClaimsDisjoint(a[1..], a[0].End());
      forall k | 0 < k < |a| ensures a[0].End() <= a[k].offset {
        assert a[k] == a[1..][k - 1];
      }
      forall i, j | 0 < i < j < |a| ensures a[i].End() <= a[j].offset {
        assert a[i] == a[1..][i - 1] && a[j] == a[1..][j - 1];
      }
    }
  }

  /** A sorted wrapper that is not accepted starts before the starting
      cursor or inside the span of an accepted wrapper. */
  lemma {:induction false} FirstClaimWins(ws: seq<Op>, cursor: int)
    requires Positive(ws) && SortedByKey(ws)
    ensures forall w :: w in ws && w !in Accepted(ws, cursor) ==>
      w.offset < cursor || exists a :: a in Accepted(ws, cursor) && a.offset <= w.offset < a.End()
  {
    if ws != [] {
      var x, rest := ws[0], ws[1..];
      assert ws == [x] + rest;
      assert SortedByKey(rest) by {
        forall i, j | 0 <= i < j < |rest| ensures !Before(rest[j], rest[i]) {
          assert rest[i] == ws[i + 1] && rest[j] == ws[j + 1];
        }
      }
      forall w | w in rest ensures !Before(w, x) {
        var k :| 0 <= k < |rest| && rest[k] == w;
        assert ws[k + 1] == w;
      }
      if x.offset < cursor {
        FirstClaimWins(rest, cursor);
      } else {
        FirstClaimWins(rest, x.End());
        var acc := Accepted(ws, cursor);
        assert acc == [x] + Accepted(rest, x.End());
        forall w | w in ws && w !in acc
          ensures w.offset < cursor || exists a :: a in acc && a.offset <= w.offset < a.End()
        {
          assert w in rest && w !in Accepted(rest, x.End());
          if w.offset < x.End() {
            assert x in acc && x.offset <= w.offset;
          } else {
            var a :| a in Accepted(rest, x.End()) && a.offset <= w.offset < a.End();
            assert a in acc;
          }
        }
      }
    }
  }

  /** The loop's output depends only on the accepted wrappers: a dropped
      wrapper emits nothing and leaves the cursor where it was. */
  lemma {:induction false} WalkEmits(text: string, styles: seq<Op>, ws: seq<Op>, cursor: nat)
    requires Positive(ws)
    ensures WalkFrom(text, styles, ws, cursor) == Emit(text, styles, Accepted(ws, cursor), cursor)
    decreases |ws|
  {
    if ws != [] {
      var x, rest := ws[0], ws[1..];
      if x.offset < cursor {
        WalkEmits(text, styles, rest, cursor);
      } else {
        WalkEmits(text, styles, rest, x.End());
        var a := Accepted(ws, cursor);
        assert a == [x] + Accepted(rest, x.End());
        assert a[1..] == Accepted(rest, x.End());
      }
    }
  }

  // ---------------------------------------------------------------------
  // Coverage
  // ---------------------------------------------------------------------

  /** The gaps, the witnesses and the tail concatenate to the text from
      the cursor on. */
  lemma {:induction false} CoverSpec(text: string, a: seq<Op>, cursor: nat)
    requires Claims(a, cursor)
    ensures Cover(text, a, cursor) == Slice(text, cursor, |text|)
    decreases |a|
  {
    if a != [] {
      var start, end := a[0].offset, a[0].End();
      CoverSpec(text, a[1..], end);
      SliceConcat(text, cursor, start, end);
      if end <= |text| {
        SliceConcat(text, cursor, end, |text|);
      }
    }
  }

  /** The pieces of a whole line concatenate to exactly the line. */
  lemma LineCoverage(text: string, ops: seq<Op>)
    ensures Cover(text, Accepted(SortedWrappers(ops), 0), 0) == text
  {
    CoverSpec(text, Accepted(SortedWrappers(ops), 0), 0);
  }

  // ---------------------------------------------------------------------
  // Reading the text back
  // ---------------------------------------------------------------------

  /** The text a node stands for in the line: a choice contributes the
      reading that holds the witness (`reg` when the first child is
      `orig`, else the first child), any other element its character
      data. */
  function NodeReading(n: Node): string {
    match n
    case Text(t) => t
    case Elem(tag, _, cs) =>
      if tag == "choice" && |cs| == 2 then (if TagOf(cs[0]) == "orig" then NodeText(cs[1]) else NodeText(cs[0]))
      else FlatText(cs)
  }

  function Reading(ns: seq<Node>): string {
    if ns == [] then "" else Reading(ns[..|ns| - 1]) + NodeReading(ns[|ns| - 1])
  }

  predicate NoChoice(ns: seq<Node>) {
    forall i :: 0 <= i < |ns| ==> TagOf(ns[i]) != "choice"
  }

  /** A place span whose fields replace its witness. */
  predicate NestedPlace(o: Op) {
    o.kind == "place" && exists f :: f in PlaceFields && f in o.attrs
  }

  lemma ReadingSnoc(ns: seq<Node>, n: Node)
    ensures Reading(ns + [n]) == Reading(ns) + NodeReading(n)
  {
    assert (ns + [n])[..|ns|] == ns;
  }

  lemma {:induction false} ReadingAppend(a: seq<Node>, b: seq<Node>)
    ensures Reading(a + b) == Reading(a) + Reading(b)
    decreases |b|
  {
    if b == [] {
      assert a + b == a;
    } else {
      var front, last := b[..|b| - 1], b[|b| - 1];
      assert b == front + [last];
      calc {
        Reading(a + b);
        { assert a + b == (a + front) + [last]; }
        Reading((a + front) + [last]);
        { ReadingSnoc(a + front, last); }
        Reading(a + front) + NodeReading(last);
        { ReadingAppend(a, front); }
        Reading(a) + Reading(front) + NodeReading(last);
        { ReadingSnoc(front, last); }
        Reading(a) + Reading(b);
      }
    }
  }

  lemma {:induction false} ReadingFlat(ns: seq<Node>)
    requires NoChoice(ns)
    ensures Reading(ns) == FlatText(ns)
  {
    if ns != [] {
      var front := ns[..|ns| - 1];
      assert NoChoice(front);
      ReadingFlat(front);
    }
  }

  lemma AppendTextNoChoice(content: seq<Node>, s: string)
    requires NoChoice(content)
    ensures NoChoice(AppendText(content, s))
  {
  }

  lemma {:induction false} SegmentNodesNoChoice(content: seq<Node>, segs: seq<Segment>)
    requires NoChoice(content)
    ensures NoChoice(SegmentNodes(content, segs))
    decreases |segs|
  {
    if segs != [] {
      var next := SegmentNode(content, segs[0]);
      if segs[0].labels == [] {
        AppendTextNoChoice(content, segs[0].text);
      }
      SegmentNodesNoChoice(next, segs[1..]);
    }
  }

  /** Styled text reads back as the text. */
  lemma StyledReading(text: string, ops: seq<Op>)
    ensures Reading(StyledInto([], text, ops)) == text
  {
    var rs := StyleRanges(ops);
    if rs == [] {
      AppendTextNoChoice([], text);
    } else {
      SegmentNodesNoChoice([], Segments(text, rs));
    }
    ReadingFlat(StyledInto([], text, ops));
    StyledText([], text, ops);
  }

  lemma GapReading(text: string, styles: seq<Op>, cursor: nat, start: nat)
    ensures Reading(GapNodes(text, styles, cursor, start)) == Slice(text, cursor, start)
  {
    if Slice(text, cursor, start) != "" {
      StyledReading(Slice(text, cursor, start), Within(styles, cursor, start));
    }
  }

  lemma TailReading(text: string, styles: seq<Op>, cursor: nat)
    ensures Reading(TailNodes(text, styles, cursor)) == Slice(text, cursor, |text|)
  {
    if cursor < |text| {
      StyledReading(Slice(text, cursor, |text|), Within(styles, cursor, |text|));
    }
  }

  /** A choice reads as its witness, whichever child holds it. */
  lemma ChoiceReading(kind: string, witnessText: string, alt: string, inner: seq<Op>, g: int)
    requires IsChoiceKind(kind)
    ensures NodeReading(ChoiceNode(kind, witnessText, alt, inner, g)) == witnessText
  {
    ChoiceShape(kind, witnessText, alt, inner, g);
  }

  lemma ChoiceWrap(text: string, styles: seq<Op>, w: Op)
    requires 0 <= w.offset && 0 < w.length && IsChoiceKind(w.kind)
    ensures Wrap(text, styles, w) == ChoiceNode(w.kind, Slice(text, w.offset, w.End()),
      Get(w.attrs, AltKey(w.kind), ""), Within(styles, w.offset, w.End()), w.offset)
  {
  }

  /** Every element but a place with nested fields reads back as its
      witness. */
  lemma WrapReading(text: string, styles: seq<Op>, w: Op)
    requires 0 <= w.offset && 0 < w.length && !NestedPlace(w)
    ensures NodeReading(Wrap(text, styles, w)) == Slice(text, w.offset, w.End())
  {
    var witnessText := Slice(text, w.offset, w.End());
    var inner := Within(styles, w.offset, w.End());
    if IsChoiceKind(w.kind) {
      ChoiceWrap(text, styles, w);
      ChoiceReading(w.kind, witnessText, Get(w.attrs, AltKey(w.kind), ""), inner, w.offset);
    } else {
      WrapKinds(text, styles, w);
      WitnessStyling(witnessText, inner, w.offset);
    }
  }

  /** The element each kind of wrapper becomes: a choice for the three
      choice kinds, `num`, `persName`, `placeName`, `ref` and `unclear`
      for theirs, and a `seg` typed by the kind and echoing the other keys
      as `data-*` for any other kind; choices and places carry no
      attributes. All but
      choices and places with nested fields hold the styled witness. */
  lemma WrapKinds(text: string, styles: seq<Op>, w: Op)
    requires 0 <= w.offset && 0 < w.length
    ensures var el := Wrap(text, styles, w);
      (el.tag == "choice" <==> IsChoiceKind(w.kind))
      && (el.tag == "num" <==> w.kind == "num")
      && (el.tag == "persName" <==> w.kind == "person")
      && (el.tag == "placeName" <==> w.kind == "place")
      && (el.tag == "ref" <==> w.kind == "ref")
      && (el.tag == "unclear" <==> w.kind == "unclear")
      && (el.tag == "seg" <==> !IsChoiceKind(w.kind) && w.kind != "num" && w.kind != "person"
                                && w.kind != "place" && w.kind != "ref" && w.kind != "unclear")
      && (el.tag == "num" ==> el.attrs == Pick(w.attrs, {"type", "value"}))
      && (el.tag == "persName" ==> el.attrs == PersAttrs(w.attrs))
      && (el.tag == "ref" ==> el.attrs == Pick(w.attrs, {"type", "target"}))
      && (el.tag == "unclear" ==> el.attrs == Pick(w.attrs, {"reason"}))
      && (el.tag == "seg" ==> el.attrs == DataAttrs(w.attrs)["type" := w.kind])
      && (el.tag == "choice" ==> el.attrs == map[])
      && (el.tag == "placeName" ==> el.attrs == map[])
      && (!IsChoiceKind(w.kind) && !NestedPlace(w) ==>
            el.content == WitnessContent(Slice(text, w.offset, w.End()), Within(styles, w.offset, w.End()), w.offset))
  {
    var witnessText := Slice(text, w.offset, w.End());
    var inner := Within(styles, w.offset, w.End());
    if IsChoiceKind(w.kind) {
      ChoiceShape(w.kind, witnessText, Get(w.attrs, AltKey(w.kind), ""), inner, w.offset);
    } else if w.kind == "place" {
      PlaceNameShape(witnessText, w, inner, w.offset);
    } else if w.kind !in {"num", "person", "ref", "unclear"} {
      SegAttrs(witnessText, w, inner, w.offset);
    }
  }

  /** A choice holds the styled witness and, as literal text, the value of
      its alternative key (`expansion` for abbrev, `correction` for sic,
      `original` for regularised), or "" when that key is missing. */
  lemma WrapAlternative(text: string, styles: seq<Op>, w: Op)
    requires 0 <= w.offset && 0 < w.length && IsChoiceKind(w.kind)
    ensures var el := Wrap(text, styles, w);
      var witnessText := Slice(text, w.offset, w.End());
      var i := WitnessIndex(w.kind);
      el.Elem? && |el.content| == 2 && el.content[i].Elem? && el.content[1 - i].Elem?
      && el.content[i].content == WitnessContent(witnessText, Within(styles, w.offset, w.End()), w.offset)
      && FlatText(el.content[i].content) == witnessText
      && (w.kind == "abbrev" ==> FlatText(el.content[1 - i].content) == Get(w.attrs, "expansion", ""))
      && (w.kind == "sic" ==> FlatText(el.content[1 - i].content) == Get(w.attrs, "correction", ""))
      && (w.kind == "regularised" ==> FlatText(el.content[1 - i].content) == Get(w.attrs, "original", ""))
      && (AltKey(w.kind) !in w.attrs ==> el.content[1 - i].content == [])
  {
    var witnessText := Slice(text, w.offset, w.End());
    var alt := Get(w.attrs, AltKey(w.kind), "");
    ChoiceShape(w.kind, witnessText, alt, Within(styles, w.offset, w.End()), w.offset);
  }

  lemma {:induction false} EmitReading(text: string, styles: seq<Op>, a: seq<Op>, cursor: nat)
    requires Claims(a, cursor)
    requires forall k :: 0 <= k < |a| ==> !NestedPlace(a[k])
    ensures Reading(Emit(text, styles, a, cursor)) == Cover(text, a, cursor)
    decreases |a|
  {
    if a == [] {
      TailReading(text, styles, cursor);
    } else {
      var gap := GapNodes(text, styles, cursor, a[0].offset);
      var el := Wrap(text, styles, a[0]);
      var rest := Emit(text, styles, a[1..], a[0].End());
      EmitReading(text, styles, a[1..], a[0].End());
      ReadingAppend(gap + [el], rest);
      ReadingAppend(gap, [el]);
      assert Reading([el]) == NodeReading(el) by {
        assert [el][..0] == [];
      }
      GapReading(text, styles, cursor, a[0].offset);
      WrapReading(text, styles, a[0]);
    }
  }

  /** Round trip: unless a place span has nested fields, reading the nodes
      of a line gives back the line. */
  lemma LineReading(text: string, ops: seq<Op>)
    requires forall o :: o in ops ==> !NestedPlace(o)
    ensures Reading(LineNodes(text, ops)) == text
  {
    var ws := SortedWrappers(ops);
    var a := Accepted(ws, 0);
    WalkEmits(text, StyleOps(ops), ws, 0);
    WrappersMembers(ops);
    SortMembers(Wrappers(ops));
    forall k | 0 <= k < |a| ensures !NestedPlace(a[k]) {
      assert a[k] in ws;
    }
    EmitReading(text, StyleOps(ops), a, 0);
    LineCoverage(text, ops);
  }

  // ---------------------------------------------------------------------
  // Text runs
  // ---------------------------------------------------------------------

  lemma NormalizedAround(x: seq<Node>, e: Node, y: seq<Node>)
    requires Normalized(x) && Normalized(y) && e.Elem?
    ensures Normalized(x + [e] + y)
  {
    var r := x + [e] + y;
    forall i | 0 <= i < |r| - 1 ensures !(r[i].Text? && r[i + 1].Text?) {
      if i < |x| - 1 {
        assert r[i] == x[i] && r[i + 1] == x[i + 1];
      } else if i >= |x| + 1 {
        assert r[i] == y[i - |x| - 1] && r[i + 1] == y[i - |x|];
      }
    }
  }

  lemma {:induction false} EmitNormalized(text: string, styles: seq<Op>, a: seq<Op>, cursor: nat)
    requires Claims(a, cursor)
    ensures Normalized(Emit(text, styles, a, cursor))
    decreases |a|
  {
    if a == [] {
      if cursor < |text| {
        StyledNormalized([], Slice(text, cursor, |text|), Within(styles, cursor, |text|));
      }
    } else {
      var start := a[0].offset;
      if Slice(text, cursor, start) != "" {
        StyledNormalized([], Slice(text, cursor, start), Within(styles, cursor, start));
      }
      EmitNormalized(text, styles, a[1..], a[0].End());
      NormalizedAround(GapNodes(text, styles, cursor, start), Wrap(text, styles, a[0]), Emit(text, styles, a[1..], a[0].End()));
    }
  }

  /** The node list of a line has no empty text run and no two text runs
      side by side. */
  lemma LineNormalized(text: string, ops: seq<Op>)
    ensures Normalized(LineNodes(text, ops))
  {
    WalkEmits(text, StyleOps(ops), SortedWrappers(ops), 0);
    EmitNormalized(text, StyleOps(ops), Accepted(SortedWrappers(ops), 0), 0);
  }

  // ---------------------------------------------------------------------
  // Styling of witnesses and gaps
  // ---------------------------------------------------------------------

  lemma InsideOpsSnoc(xs: seq<Op>, y: Op, g: int, n: int)
    ensures InsideOps(xs + [y], g, n) == InsideOps(xs, g, n) + (if Inside(y, g, n) then [y] else [])
  {
    assert (xs + [y])[..|xs|] == xs;
  }

  lemma {:induction false} WithinTwice(styles: seq<Op>, start: int, end: int, n: int)
    requires n <= end - start
    ensures InsideOps(Within(styles, start, end), start, n) == InsideOps(styles, start, n)
  {
    if styles != [] {
      var front, last := styles[..|styles| - 1], styles[|styles| - 1];
      WithinTwice(front, start, end, n);
      assert styles == front + [last];
      InsideOpsSnoc(front, last, start, end - start);
      InsideOpsSnoc(front, last, start, n);
      var inner := Within(front, start, end);
      if Inside(last, start, end - start) {
        assert Within(styles, start, end) == inner + [last];
        InsideOpsSnoc(inner, last, start, n);
      } else {
        assert Within(styles, start, end) == inner;
        assert !Inside(last, start, n);
      }
    }
  }

  /** Inside a wrapper, each witness character carries the labels of the
      line's style ops that lie within the witness, at its line position;
      a style op straddling the wrapper's boundary contributes none. */
  lemma WrapperStyling(text: string, styles: seq<Op>, w: Op)
    requires 0 <= w.offset && 0 < w.length
    ensures var witnessText := Slice(text, w.offset, w.End());
      Rends(WitnessContent(witnessText, Within(styles, w.offset, w.End()), w.offset))
      == seq(|witnessText|, p => RendAt(StyleRanges(InsideOps(styles, w.offset, |witnessText|)), w.offset + p))
  {
    var witnessText := Slice(text, w.offset, w.End());
    WitnessRends(witnessText, Within(styles, w.offset, w.End()), w.offset);
    WithinTwice(styles, w.offset, w.End(), |witnessText|);
  }

  /** Gap text is styled by the style ops within the gap, but at positions
      counted from the start of the gap while the ops keep their line
      offsets. */
  lemma GapStyling(text: string, styles: seq<Op>, cursor: nat, start: nat)
    ensures Rends(GapNodes(text, styles, cursor, start))
      == seq(|Slice(text, cursor, start)|, p => RendAt(StyleRanges(Within(styles, cursor, start)), p))
  {
    var pre := Slice(text, cursor, start);
    StyledRends([], pre, Within(styles, cursor, start));
    assert Rends([]) == [];
  }

  /** Likewise for the tail. */
  lemma TailStyling(text: string, styles: seq<Op>, cursor: nat)
    ensures Rends(TailNodes(text, styles, cursor))
      == seq(|Slice(text, cursor, |text|)|, p => RendAt(StyleRanges(Within(styles, cursor, |text|)), p))
  {
    var tail := Slice(text, cursor, |text|);
    StyledRends([], tail, Within(styles, cursor, |text|));
    assert Rends([]) == [];
  }

  /** A bold span over the second character of a line. */
  const BoldSecond: Op := Op("textStyle", 1, 1, map["bold" := "true"])

  /** The gap and tail styling in line coordinates lands correctly only
      from cursor 0: in the line "ab" whose first character is a wrapper,
      the tail "b" is left plain although the bold span covers it, because
      the span's offset 1 is read as a position in the tail, which has
      only position 0. */
  lemma TailStyleOffset()
    ensures RendAt(StyleRanges([BoldSecond]), 1) == "bold"
    ensures Rends(TailNodes("ab", [BoldSecond], 1)) == [""]
  {
    var rs := StyleRanges([BoldSecond]);
    BoldSecondRanges();
    assert PointLabels(rs, 1) == ["bold"] by {
      assert rs[..0] == [];
    }
    assert SortedUnique(["bold"]) == ["bold"] by {
      assert ["bold"][..0] == [];
    }
    assert PointLabels(rs, 0) == [] by {
      assert rs[..0] == [];
    }
    assert RendAt(rs, 0) == "";
    assert Within([BoldSecond], 1, 2) == [BoldSecond] by {
      assert [BoldSecond][..0] == [];
      assert Inside(BoldSecond, 1, 1);
      assert InsideOps([BoldSecond], 1, 1) == InsideOps([], 1, 1) + [BoldSecond];
    }
    TailStyling("ab", [BoldSecond], 1);
    assert Slice("ab", 1, 2) == "b";
    assert seq(1, p => RendAt(rs, p)) == [""];
  }

  lemma BoldSecondRanges()
    ensures StyleRanges([BoldSecond]) == [Range(1, 2, "bold")]
  {
    assert TrueFlags(BoldSecond.attrs, StyleFlags) == ["bold"] by {
      StyleFlagTests(BoldSecond.attrs);
    }
    assert RangeOf(BoldSecond) == Range(1, 2, "bold") by {
      assert Join(" ", ["bold"]) == "bold";
    }
    assert [BoldSecond][..0] == [];
    assert OpRange(BoldSecond) == [RangeOf(BoldSecond)];
    assert StyleRanges([BoldSecond]) == StyleRanges([]) + OpRange(BoldSecond);
  }
}

=== FILE: parser.dfy ===
/** The PAGE `@custom` mini-language: `kind {key:value; key:value; ...}`
    groups, each becoming one annotation span (page2tei.py:49-136). */
module CustomParser {
  import opened Strings

  /** One parsed annotation. `kind` is the kind used for dispatch: the group's
      name, unless its body has a `kind` key, whose value then replaces it.
      `attrs` holds every body key except `offset` and `length`. The end of the
      span is always `offset + length`. */
  datatype Op = Op(kind: string, offset: int, length: int, attrs: map<string, string>) {
    function End(): int {
      offset + length
    }
  }

  /** The five `textStyle` flags, in the order the builder reads them. */
  const StyleFlags: seq<string> := ["bold", "italic", "underline", "superscript", "subscript"]

  /** The spellings `parse_bool` accepts as true once trimmed and lower-cased. */
  const TrueSpellings: seq<string> := ["1", "true", "yes", "y"]

  // ---------------------------------------------------------------------
  // parse_bool and parse_int
  // ---------------------------------------------------------------------

  function ParseBool(v: string): (b: bool)
    ensures b ==> 1 <= |Strip(v)| <= 4 && Strip(v)[0] in "1tTyY"
  {
    Lower(Strip(v)) in TrueSpellings
  }

  /** What a `textStyle` flag is rewritten to. */
  function NormaliseFlag(v: string): (r: string) {
    if ParseBool(v) then "true" else "false"
  }

  /** Text Python's `int()` accepts here: an optional sign and at least one
      ASCII digit (no underscores, no non-ASCII digits). */
  predicate IsIntLiteral(t: string) {
    (|t| > 0 && AllDigits(t))
    || (|t| > 1 && (t[0] == '-' || t[0] == '+') && AllDigits(t[1..]))
  }

  function IntValue(t: string): int
    requires IsIntLiteral(t)
  {
    if AllDigits(t) then DigitsValue(t)
    else if t[0] == '-' then 0 - DigitsValue(t[1..])
    else DigitsValue(t[1..])
  }

  /** `parse_int(val, default)`: `int(val)`, or `default` when that raises. */
  function ParseInt(v: string, default: int): (r: int)
    ensures !IsIntLiteral(Strip(v)) ==> r == default
  {
    var t := Strip(v);
    if IsIntLiteral(t) then IntValue(t) else default
  }

  // ---------------------------------------------------------------------
  // Scanning (the two regular expressions of parse_custom_ops)
  // ---------------------------------------------------------------------

  /** The end of the run of whitespace starting at `i`. */
  function SpaceEnd(s: string, i: nat): (j: nat)
    requires i <= |s|
    ensures i <= j <= |s|
    decreases |s| - i
  {
    if i < |s| && IsSpace(s[i]) then SpaceEnd(s, i + 1) else i
  }

  /** The first position of `c` at or after `i`. */
  function Find(s: string, c: char, i: nat): (r: Option<nat>)
    requires i <= |s|
    ensures r.Some? ==> i <= r.value < |s|
    decreases |s| - i
  {
    if i == |s| then None
    else if s[i] == c then Some(i)
    else Find(s, c, i + 1)
  }

  datatype Group = Group(name: string, body: string)

  datatype Pair = Pair(key: string, value: string)

  /** `(\w+)\s*\{([^}]*)\}` tried at position `i`, its leading word run read
      up to `k`: the group and the position just after the match. */
  function GroupMatch(s: string, i: nat, k: nat): (r: Option<(Group, nat)>)
    requires i <= k <= |s|
    ensures r.Some? ==> i < r.value.1 <= |s|
    decreases |s| - k
  {
    if k < |s| && IsWordChar(s[k]) then GroupMatch(s, i, k + 1)
    else if k == i then None
    else
      var w := SpaceEnd(s, k);
      if w < |s| && s[w] == '{' then
        match Find(s, '}', w + 1)
        case None => None
        case Some(c) => Some((Group(s[i..k], s[w + 1..c]), c + 1))
      else None
  }

  /** The group pattern matched at position `i`. */
  function GroupAt(s: string, i: nat): (r: Option<(Group, nat)>)
    requires i <= |s|
    ensures r.Some? ==> i < r.value.1 <= |s|
  {
    GroupMatch(s, i, i)
  }

  /** `(\w+)\s*:\s*([^;]+);` tried at position `i`, its leading word run read
      up to `k`: the key, the raw value and the position just after the
      match. */
  function PairMatch(s: string, i: nat, k: nat): (r: Option<(Pair, nat)>)
    requires i <= k <= |s|
    ensures r.Some? ==> i < r.value.1 <= |s|
    decreases |s| - k
  {
    if k < |s| && IsWordChar(s[k]) then PairMatch(s, i, k + 1)
    else if k == i then None
    else
      var w := SpaceEnd(s, k);
      if w < |s| && s[w] == ':' then
        match Find(s, ';', w + 1)
        case None => None
        case Some(t) =>
          if t == w + 1 then None
          else Some((Pair(s[i..k], s[w + 1..t]), t + 1))
      else None
  }

  /** The pair pattern matched at position `i`. */
  function PairAt(s: string, i: nat): (r: Option<(Pair, nat)>)
    requires i <= |s|
    ensures r.Some? ==> i < r.value.1 <= |s|
  {
    PairMatch(s, i, i)
  }

  /** The groups `re.finditer` finds from position `i` on: try a match at the
      current position; on success resume after it, otherwise move on by one
      character. */
  function GroupsFrom(s: string, i: nat): seq<Group>
    requires i <= |s|
    decreases |s| - i
  {
    if i == |s| then []
    else match GroupAt(s, i)
      case Some((g, j)) => [g] + GroupsFrom(s, j)
      case None => GroupsFrom(s, i + 1)
  }

  /** The key/value pairs `re.finditer` finds in a group body from `i` on. */
  function PairsFrom(s: string, i: nat): seq<Pair>
    requires i <= |s|
    decreases |s| - i
  {
    if i == |s| then []
    else match PairAt(s, i)
      case Some((p, j)) => [p] + PairsFrom(s, j)
      case None => PairsFrom(s, i + 1)
  }

  function Groups(s: string): seq<Group> {
    GroupsFrom(s, 0)
  }

  function Pairs(s: string): seq<Pair> {
    PairsFrom(s, 0)
  }

  /** Filling the `kv` dict pair by pair: a later pair overwrites an earlier
      one with the same key. */
  function KVInto(m: map<string, string>, ps: seq<Pair>): map<string, string>
    decreases |ps|
  {
    if ps == [] then m else KVInto(m[ps[0].key := Strip(ps[0].value)], ps[1..])
  }

  function Get(m: map<string, string>, k: string, default: string): string {
    if k in m then m[k] else default
  }

  predicate IsStyleFlag(k: string) {
    k in StyleFlags
  }

  /** `parse_int(kv.get(key, "0"), 0)`. */
  function IntField(kv: map<string, string>, key: string): int {
    if key in kv then ParseInt(kv[key], 0) else 0
  }

  lemma IntFieldDefault(kv: map<string, string>, key: string)
    ensures IntField(kv, key) == ParseInt(Get(kv, key, "0"), 0)
  {
    if key !in kv {
      StripNoop("0");
    }
  }

  /** Every `kv` entry except `offset` and `length`, copied verbatim. */
  function CopyAttrs(kv: map<string, string>): map<string, string> {
    map k | k in kv && k != "offset" && k != "length" :: kv[k]
  }

  /** The `textStyle` rewrite applied to the flags `ks`, in order. */
  function NormaliseFlags(attrs: map<string, string>, ks: seq<string>): map<string, string>
    decreases |ks|
  {
    if ks == [] then attrs
    else
      var k := ks[0];
      NormaliseFlags(if k in attrs then attrs[k := NormaliseFlag(attrs[k])] else attrs, ks[1..])
  }

  /** The op built from a filled `kv` dict (page2tei.py:116-132). */
  function OpOf(name: string, kv: map<string, string>): Op {
    var copied := CopyAttrs(kv);
    var attrs := if name == "textStyle" then NormaliseFlags(copied, StyleFlags) else copied;
    Op(Get(attrs, "kind", name), IntField(kv, "offset"), IntField(kv, "length"), attrs)
  }

  /** The op built from one matched group. */
  function MakeOp(name: string, body: string): Op {
    OpOf(name, KVInto(map[], Pairs(body)))
  }

  /** One op per group, in order. */
  function OpsOf(gs: seq<Group>): seq<Op> {
    if gs == [] then [] else [MakeOp(gs[0].name, gs[0].body)] + OpsOf(gs[1..])
  }

  /** The specification of `parse_custom_ops`: one op per group the group
      pattern finds, in the order the groups appear. */
  function CustomOps(s: string): seq<Op> {
    OpsOf(Groups(s))
  }

  // ---------------------------------------------------------------------
  // parse_custom_ops as the source runs it
  // ---------------------------------------------------------------------

  /** The `kv` loop of `parse_custom_ops`: stores every pair of a group body,
      left to right. */
  method FillKV(body: string) returns (kv: map<string, string>)
    ensures kv == KVInto(map[], Pairs(body))
  {
    kv := map[];
    var p := 0;
    while p < |body|
      invariant 0 <= p <= |body|
      invariant KVInto(kv, PairsFrom(body, p)) == KVInto(map[], Pairs(body))
      decreases |body| - p
    {
      var m := PairAt(body, p);
      if m.Some? {
        var pr, next := m.value.0, m.value.1;
        assert PairsFrom(body, p) == [pr] + PairsFrom(body, next);
        assert ([pr] + PairsFrom(body, next))[1..] == PairsFrom(body, next);
        kv := kv[pr.key := Strip(pr.value)];
        p := next;
      } else {
        p := p + 1;
      }
    }
  }

  /** The `textStyle` rewrite: each of the five flags present is replaced by
      `"true"` or `"false"`. */
  method NormaliseStyleFlags(attrs0: map<string, string>) returns (attrs: map<string, string>)
    ensures attrs == NormaliseFlags(attrs0, StyleFlags)
  {
    attrs := attrs0;
    var f := 0;
    while f < |StyleFlags|
      invariant 0 <= f <= |StyleFlags|
      invariant NormaliseFlags(attrs, StyleFlags[f..]) == NormaliseFlags(attrs0, StyleFlags)
    {
      var k := StyleFlags[f];
      assert StyleFlags[f..][1..] == StyleFlags[f + 1..];
      if k in attrs {
        attrs := attrs[k := NormaliseFlag(attrs[k])];
      }
      f := f + 1;
    }
  }

  /** Builds the op of one group: `offset` and `length` through `parse_int`
      with default 0, every other key copied, flags normalised for
      `textStyle`. */
  method ParseGroupBody(name: string, body: string) returns (op: Op)
    ensures op == MakeOp(name, body)
  {
    var kv := FillKV(body);
    var off := ParseInt(Get(kv, "offset", "0"), 0);
    var length := ParseInt(Get(kv, "length", "0"), 0);
    IntFieldDefault(kv, "offset");
    IntFieldDefault(kv, "length");
    var attrs := CopyAttrs(kv);
    if name == "textStyle" {
      attrs := NormaliseStyleFlags(attrs);
    }
    op := Op(Get(attrs, "kind", name), off, length, attrs);
  }

  /** `parse_custom_ops`: scans the groups left to right and appends one op
      per group. */
  method ParseCustomOps(custom: string) returns (ops: seq<Op>)
    ensures ops == CustomOps(custom)
  {
    ops := [];
    var i := 0;
    while i < |custom|
      invariant 0 <= i <= |custom|
      invariant ops + OpsOf(GroupsFrom(custom, i)) == CustomOps(custom)
      decreases |custom| - i
    {
      var m := GroupAt(custom, i);
      if m.Some? {
        var g, next := m.value.0, m.value.1;
        var op := ParseGroupBody(g.name, g.body);
        var rest := GroupsFrom(custom, next);
        assert GroupsFrom(custom, i) == [g] + rest;
        assert ([g] + rest)[1..] == rest;
        assert ops + OpsOf(GroupsFrom(custom, i)) == (ops + [op]) + OpsOf(rest);
        ops := ops + [op];
        i := next;
      } else {
        i := i + 1;
      }
    }
  }

  // ---------------------------------------------------------------------
  // parse_bool and parse_int
  // ---------------------------------------------------------------------

  /** `parse_bool` ignores whitespace around the value and letter case. */
  lemma ParseBoolInsensitive(a: string, v: string, b: string)
    requires AllSpace(a) && AllSpace(b)
    ensures ParseBool(a + v + b) == ParseBool(v)
    ensures ParseBool(Upper(v)) == ParseBool(v)
    ensures ParseBool(Lower(v)) == ParseBool(v)
  {
    StripPadding(a, v, b);
    StripLower(v);
    StripLower(Upper(v));
    StripLower(Lower(v));
    LowerForgetsCase(v);
    LowerForgetsCase(Strip(v));
  }

  /** The two spellings a normalised flag takes read back as themselves. */
  lemma TrueSpelling()
    ensures ParseBool("true")
  {
    StripNoop("true");
    LowerNoop("true");
  }

  /** Each of the four spellings `1`, `true`, `yes` and `y` reads as true. */
  lemma SpellingsTrue()
    ensures forall t :: t in TrueSpellings ==> ParseBool(t)
  {
    forall t | t in TrueSpellings ensures ParseBool(t) {
      StripNoop(t);
      LowerNoop(t);
    }
  }

  lemma FalseSpelling()
    ensures !ParseBool("false")
  {
    StripNoop("false");
    LowerNoop("false");
  }

  /** Normalising a `textStyle` flag keeps its truth value and is idempotent. */
  lemma NormaliseFlagIdempotent(v: string)
    ensures ParseBool(NormaliseFlag(v)) == ParseBool(v)
    ensures NormaliseFlag(NormaliseFlag(v)) == NormaliseFlag(v)
  {
    TrueSpelling();
    FalseSpelling();
  }

  /** `parse_int` reads back the decimal text `str(n)` of any integer,
      whatever the default. */
  lemma ParseIntFormat(n: int, d: int)
    ensures ParseInt(FormatInt(n), d) == n
  {
    var t := FormatInt(n);
    var m := if n < 0 then -n else n;
    var u := FormatNat(m);
    assert IsDigit(u[0]) && IsDigit(u[|u| - 1]);
    if n < 0 {
      assert t == "-" + u && t[1..] == u && t[|t| - 1] == u[|u| - 1];
    }
    StripNoop(t);
    DigitsValueFormatNat(m);
  }

  /** `parse_int` ignores whitespace around the value. */
  lemma ParseIntPadding(a: string, v: string, b: string, d: int)
    requires AllSpace(a) && AllSpace(b)
    ensures ParseInt(a + v + b, d) == ParseInt(v, d)
  {
    StripPadding(a, v, b);
  }

  // ---------------------------------------------------------------------
  // The scanner reads back what a writer of `@custom` writes
  // ---------------------------------------------------------------------

  predicate AllWord(s: string) {
    forall i :: 0 <= i < |s| ==> IsWordChar(s[i])
  }

  /** Reading on through a run of word characters does not change the
      pair match. */
  lemma {:induction false} PairMatchRun(s: string, i: nat, k0: nat, k: nat)
    requires i <= k0 <= k <= |s|
    requires forall j :: k0 <= j < k ==> IsWordChar(s[j])
    ensures PairMatch(s, i, k0) == PairMatch(s, i, k)
    decreases k - k0
  {
    if k0 < k {
      PairMatchRun(s, i, k0 + 1, k);
    }
  }

  /** Reading on through a run of word characters does not change the
      group match. */
  lemma {:induction false} GroupMatchRun(s: string, i: nat, k0: nat, k: nat)
    requires i <= k0 <= k <= |s|
    requires forall j :: k0 <= j < k ==> IsWordChar(s[j])
    ensures GroupMatch(s, i, k0) == GroupMatch(s, i, k)
    decreases k - k0
  {
    if k0 < k {
      GroupMatchRun(s, i, k0 + 1, k);
    }
  }

  /** A `c` at `t` with none between `i` and `t` is what `Find` finds. */
  lemma {:induction false} FindAt(s: string, c: char, i: nat, t: nat)
    requires i <= t < |s| && s[t] == c
    requires forall j :: i <= j < t ==> s[j] != c
    ensures Find(s, c, i) == Some(t)
    decreases t - i
  {
    if i < t {
      FindAt(s, c, i + 1, t);
    }
  }

  /** `Find` misses only when there is no `c` from `i` on. */
  lemma {:induction false} FindNone(s: string, c: char, i: nat)
    requires i <= |s|
    requires forall j :: i <= j < |s| ==> s[j] != c
    ensures Find(s, c, i).None?
    decreases |s| - i
  {
    if i < |s| {
      FindNone(s, c, i + 1);
    }
  }

  lemma HeadTail<T>(xs: seq<T>)
    requires xs != []
    ensures xs == [xs[0]] + xs[1..]
  {
  }

  /** `a` then `b` from position `i` to the end of `s`: `a` sits at `i`
      and `b` follows it. */
  lemma SplitAt(s: string, i: nat, a: string, b: string) returns (j: nat)
    requires i <= |s| && s[i..] == a + b
    ensures j == i + |a| && j <= |s| && s[i..j] == a && s[j..] == b
  {
    j := i + |a|;
    assert s[i..j] == s[i..][..|a|];
    assert s[j..] == s[i..][|a|..];
  }

  /** The first character of a suffix and the suffix after it. */
  lemma HeadAt(s: string, i: nat, c: char, b: string)
    requires i <= |s| && s[i..] == [c] + b
    ensures i < |s| && s[i] == c && s[i + 1..] == b
  {
    assert s[i] == s[i..][0];
    assert s[i + 1..] == s[i..][1..];
  }

  /** A run of whitespace from `k` up to a character that is not whitespace
      at `w` is exactly what `SpaceEnd` skips. */
  lemma {:induction false} SpaceEndAt(s: string, k: nat, w: nat)
    requires k <= w < |s| && !IsSpace(s[w])
    requires forall j :: k <= j < w ==> IsSpace(s[j])
    ensures SpaceEnd(s, k) == w
    decreases w - k
  {
    if k < w {
      SpaceEndAt(s, k + 1, w);
    }
  }

  /** Where the pieces of a word `a`, whitespace `sp`, a delimiter `c`, a
      text `b`, a delimiter `d` and whatever follows, written at `i`, lie in
      `s`. */
  lemma PiecesAt(s: string, i: nat, a: string, sp: string, c: char, b: string, d: char, after: string, rest: string)
    returns (k: nat, w: nat, t: nat)
    requires i <= |s| && s[i..] == a + sp + [c] + b + [d] + after + rest
    ensures k == i + |a| && w == k + |sp| && t == w + 1 + |b|
    ensures t < |s| && s[i..k] == a && s[k..w] == sp && s[w] == c && s[w + 1..t] == b
    ensures s[t] == d && s[t + 1..] == after + rest
  {
    var tail := [d] + (after + rest);
    assert a + sp + [c] + b + [d] + after + rest == a + (sp + ([c] + (b + tail)));
    k := SplitAt(s, i, a, sp + ([c] + (b + tail)));
    w := SplitAt(s, k, sp, [c] + (b + tail));
    HeadAt(s, w, c, b + tail);
    t := SplitAt(s, w + 1, b, tail);
    HeadAt(s, t, d, after + rest);
  }

  /** What the scanners see over a word `a`, whitespace `sp`, a delimiter
      `c`, a text `b` without `d`, and `d`, written at position `i`: the
      word run ending at `k`, the whitespace run ending at `w`, the
      delimiter at `w` and the first `d` after it at `t`. */
  lemma PiecesScan(s: string, i: nat, a: string, sp: string, c: char, b: string, d: char, after: string, rest: string)
    returns (k: nat, w: nat, t: nat)
    requires i <= |s| && s[i..] == a + sp + [c] + b + [d] + after + rest
    requires |a| > 0 && AllWord(a) && AllSpace(sp) && !IsSpace(c) && !IsWordChar(c) && d !in b
    ensures i < k <= w < t < |s|
    ensures (forall j :: i <= j < k ==> IsWordChar(s[j])) && !IsWordChar(s[k])
    ensures SpaceEnd(s, k) == w && s[w] == c && Find(s, d, w + 1) == Some(t)
    ensures s[i..k] == a && s[w + 1..t] == b && s[t + 1..] == after + rest
  {
    k, w, t := PiecesAt(s, i, a, sp, c, b, d, after, rest);
    forall j | i <= j < k ensures IsWordChar(s[j]) {
      assert s[j] == s[i..k][j - i];
    }
    forall j | k <= j < w ensures IsSpace(s[j]) {
      assert s[j] == s[k..w][j - k];
    }
    forall j | w + 1 <= j < t ensures s[j] != d {
      assert s[j] == s[w + 1..t][j - w - 1];
    }
    SpaceEndAt(s, k, w);
    FindAt(s, d, w + 1, t);
  }

  /** The whitespace a writer may leave around the parts of a pair: before
      and after the colon, before the semicolon and after it. */
  datatype PairLayout = PairLayout(beforeColon: string, afterColon: string, beforeSemi: string, after: string)

  predicate PairSpacing(l: PairLayout) {
    AllSpace(l.beforeColon) && AllSpace(l.afterColon) && AllSpace(l.beforeSemi) && AllSpace(l.after)
  }

  predicate AllPairSpacing(ls: seq<PairLayout>) {
    forall k :: 0 <= k < |ls| ==> PairSpacing(ls[k])
  }

  /** A pair written out with the whitespace of `l`. */
  function LayPair(p: Pair, l: PairLayout): string {
    p.key + l.beforeColon + ":" + (l.afterColon + p.value + l.beforeSemi) + ";" + l.after
  }

  function LayPairs(ps: seq<Pair>, ls: seq<PairLayout>): string
    requires |ps| == |ls|
  {
    if ps == [] then "" else LayPair(ps[0], ls[0]) + LayPairs(ps[1..], ls[1..])
  }

  /** A pair as written with no whitespace at all. */
  function RenderPair(p: Pair): string {
    p.key + ":" + p.value + ";"
  }

  function RenderPairs(ps: seq<Pair>): string {
    if ps == [] then "" else RenderPair(ps[0]) + RenderPairs(ps[1..])
  }

  function TightPairs(n: nat): (ls: seq<PairLayout>)
    ensures |ls| == n
  {
    seq(n, _ => PairLayout("", "", "", ""))
  }

  /** The pair the pair pattern reads from a laid-out pair: its key, and
      the text between the colon's whitespace run and the semicolon. */
  function ReadPair(p: Pair, l: PairLayout): Pair {
    Pair(p.key, l.afterColon + p.value + l.beforeSemi)
  }

  function ReadPairs(ps: seq<Pair>, ls: seq<PairLayout>): (r: seq<Pair>)
    requires |ps| == |ls|
    ensures |r| == |ps|
  {
    if ps == [] then [] else [ReadPair(ps[0], ls[0])] + ReadPairs(ps[1..], ls[1..])
  }

  /** A pair the pair pattern reads back unchanged: a word key and a
      non-empty value with no `;`. */
  predicate ReadablePair(p: Pair) {
    |p.key| > 0 && AllWord(p.key) && |p.value| > 0 && ';' !in p.value
  }

  predicate AllReadablePairs(ps: seq<Pair>) {
    ps == [] || (ReadablePair(ps[0]) && AllReadablePairs(ps[1..]))
  }

  /** `PairAt` once its word run, whitespace run and value are known. */
  lemma PairAtSteps(s: string, i: nat, k: nat, w: nat, t: nat)
    requires i < k < |s| && (forall j :: i <= j < k ==> IsWordChar(s[j])) && !IsWordChar(s[k])
    requires SpaceEnd(s, k) == w && w < |s| && s[w] == ':'
    requires w + 1 < t && Find(s, ';', w + 1) == Some(t)
    ensures PairAt(s, i) == Some((Pair(s[i..k], s[w + 1..t]), t + 1))
  {
    PairMatchRun(s, i, i, k);
  }

  /** Whitespace around a value without `;` leaves it without `;`. */
  lemma NoSemicolon(a: string, v: string, b: string)
    requires AllSpace(a) && AllSpace(b) && ';' !in v
    ensures ';' !in a + v + b
  {
    var x := a + v + b;
    forall j | 0 <= j < |x| ensures x[j] != ';' {
      if j < |a| {
        assert x[j] == a[j];
      } else if j < |a| + |v| {
        assert x[j] == v[j - |a|];
      } else {
        assert x[j] == b[j - |a| - |v|];
      }
    }
  }

  /** A readable pair laid out at position `i` is matched there, up to
      its semicolon at `e - 1`. */
  lemma PairAtLaid(s: string, i: nat, p: Pair, l: PairLayout, rest: string) returns (e: nat)
    requires ReadablePair(p) && PairSpacing(l)
    requires i <= |s| && s[i..] == LayPair(p, l) + rest
    ensures e <= |s| && PairAt(s, i) == Some((ReadPair(p, l), e)) && s[e..] == l.after + rest
  {
    var v := l.afterColon + p.value + l.beforeSemi;
    NoSemicolon(l.afterColon, p.value, l.beforeSemi);
    var k, w, t := PiecesScan(s, i, p.key, l.beforeColon, ':', v, ';', l.after, rest);
    PairAtSteps(s, i, k, w, t);
    e := t + 1;
  }

  /** Whitespace holds no pair: the scan moves over it. */
  lemma {:induction false} PairsSkipSpace(s: string, i: nat, n: nat)
    requires i + n <= |s| && forall j :: i <= j < i + n ==> IsSpace(s[j])
    ensures PairsFrom(s, i) == PairsFrom(s, i + n)
    decreases n
  {
    if n > 0 {
      assert PairAt(s, i).None?;
      PairsSkipSpace(s, i + 1, n - 1);
    }
  }

  lemma PairsFromStep(s: string, i: nat, p: Pair, j: nat)
    requires i < |s| && PairAt(s, i) == Some((p, j))
    ensures PairsFrom(s, i) == [p] + PairsFrom(s, j)
  {
  }

  /** Nothing left to scan holds no pair. */
  lemma EndNoPairs(s: string, i: nat)
    requires i <= |s| && s[i..] == ""
    ensures PairsFrom(s, i) == []
  {
    assert i == |s|;
  }

  /** Leading whitespace from `i` is passed over by the pair scan. */
  lemma PairsAfterLead(s: string, i: nat, lead: string, rest: string) returns (j: nat)
    requires AllSpace(lead) && i <= |s| && s[i..] == lead + rest
    ensures j == i + |lead| && j <= |s| && s[j..] == rest
    ensures PairsFrom(s, i) == PairsFrom(s, j)
  {
    j := SplitAt(s, i, lead, rest);
    forall x | i <= x < j ensures IsSpace(s[x]) {
      assert s[x] == s[i..j][x - i];
    }
    PairsSkipSpace(s, i, |lead|);
  }

  /** At `i` the first laid-out pair is read, and the scan resumes at the
      whitespace after it, at `e`. */
  lemma PairsFirst(s: string, i: nat, ps: seq<Pair>, ls: seq<PairLayout>) returns (e: nat)
    requires ps != [] && AllReadablePairs(ps) && |ps| == |ls| && AllPairSpacing(ls)
    requires i <= |s| && s[i..] == LayPairs(ps, ls)
    ensures e <= |s| && s[e..] == ls[0].after + LayPairs(ps[1..], ls[1..])
    ensures PairsFrom(s, i) == [ReadPair(ps[0], ls[0])] + PairsFrom(s, e)
    ensures AllReadablePairs(ps[1..]) && AllPairSpacing(ls[1..]) && AllSpace(ls[0].after)
  {
    assert PairSpacing(ls[0]);
    e := PairAtLaid(s, i, ps[0], ls[0], LayPairs(ps[1..], ls[1..]));
    PairsFromStep(s, i, ReadPair(ps[0], ls[0]), e);
    forall k | 0 <= k < |ls[1..]| ensures PairSpacing(ls[1..][k]) {
      assert ls[1..][k] == ls[k + 1];
    }
  }

  /** After the leading whitespace the first laid-out pair is read, and
      the scan resumes at the whitespace after it, at `e`. */
  lemma PairsLeadFirst(s: string, i: nat, lead: string, ps: seq<Pair>, ls: seq<PairLayout>) returns (e: nat)
    requires ps != [] && AllReadablePairs(ps) && |ps| == |ls| && AllPairSpacing(ls) && AllSpace(lead)
    requires i <= |s| && s[i..] == lead + LayPairs(ps, ls)
    ensures e <= |s| && s[e..] == ls[0].after + LayPairs(ps[1..], ls[1..])
    ensures PairsFrom(s, i) == [ReadPair(ps[0], ls[0])] + PairsFrom(s, e)
    ensures AllReadablePairs(ps[1..]) && AllPairSpacing(ls[1..]) && AllSpace(ls[0].after)
  {
    var j := PairsAfterLead(s, i, lead, LayPairs(ps, ls));
    e := PairsFirst(s, j, ps, ls);
  }

  /** Whitespace alone to the end holds no pair. */
  lemma PairsLaidEnd(s: string, i: nat, lead: string)
    requires AllSpace(lead) && i <= |s| && s[i..] == lead
    ensures PairsFrom(s, i) == []
  {
    assert s[i..] == lead + "";
    var j := PairsAfterLead(s, i, lead, "");
    EndNoPairs(s, j);
  }

  /** Scanning readable pairs laid out after whitespace from `i` to the end
      gives back, in order, each key with the text around its value. */
  lemma {:induction false} PairsLaidFrom(s: string, i: nat, lead: string, ps: seq<Pair>, ls: seq<PairLayout>)
    requires AllReadablePairs(ps) && |ps| == |ls| && AllPairSpacing(ls) && AllSpace(lead)
    requires i <= |s| && s[i..] == lead + LayPairs(ps, ls)
    ensures PairsFrom(s, i) == ReadPairs(ps, ls)
    decreases |ps|
  {
    if ps != [] {
      var e := PairsLeadFirst(s, i, lead, ps, ls);
      PairsLaidFrom(s, e, ls[0].after, ps[1..], ls[1..]);
      assert ReadPairs(ps, ls) == [ReadPair(ps[0], ls[0])] + ReadPairs(ps[1..], ls[1..]);
    } else {
      assert s[i..] == lead;
      PairsLaidEnd(s, i, lead);
    }
  }

  /** Whitespace before a pair, around its colon, before its semicolon and
      after it is insignificant to the pair pattern: each key is read with
      its value and that whitespace, in order. */
  lemma PairsLaid(lead: string, ps: seq<Pair>, ls: seq<PairLayout>)
    requires AllReadablePairs(ps) && |ps| == |ls| && AllPairSpacing(ls) && AllSpace(lead)
    ensures Pairs(lead + LayPairs(ps, ls)) == ReadPairs(ps, ls)
  {
    var s := lead + LayPairs(ps, ls);
    assert s[0..] == s;
    PairsLaidFrom(s, 0, lead, ps, ls);
  }

  /** Filling `kv` strips each value, so the whitespace around the values
      does not reach the dict. */
  lemma {:induction false} KVIntoLaid(m: map<string, string>, ps: seq<Pair>, ls: seq<PairLayout>)
    requires |ps| == |ls| && AllPairSpacing(ls)
    ensures KVInto(m, ReadPairs(ps, ls)) == KVInto(m, ps)
    decreases |ps|
  {
    if ps != [] {
      var l := ls[0];
      StripPadding(l.afterColon, ps[0].value, l.beforeSemi);
      assert AllPairSpacing(ls[1..]) by {
        forall k | 0 <= k < |ls[1..]| ensures PairSpacing(ls[1..][k]) {
          assert ls[1..][k] == ls[k + 1];
        }
      }
      KVIntoLaid(m[ps[0].key := Strip(ps[0].value)], ps[1..], ls[1..]);
    }
  }

  /** Writing pairs without whitespace is the layout with every run empty. */
  lemma {:induction false} PairsTight(ps: seq<Pair>)
    ensures RenderPairs(ps) == "" + LayPairs(ps, TightPairs(|ps|))
    ensures ReadPairs(ps, TightPairs(|ps|)) == ps
    decreases |ps|
  {
    if ps != [] {
      var ls := TightPairs(|ps|);
      assert ls[1..] == TightPairs(|ps| - 1);
      PairsTight(ps[1..]);
      assert LayPair(ps[0], ls[0]) == RenderPair(ps[0]);
      assert ReadPair(ps[0], ls[0]) == ps[0];
    }
  }

  /** Rendering readable pairs and scanning the result gives them back. */
  lemma PairsRender(ps: seq<Pair>)
    requires AllReadablePairs(ps)
    ensures Pairs(RenderPairs(ps)) == ps
  {
    PairsTight(ps);
    PairsLaid("", ps, TightPairs(|ps|));
  }

  /** A group body laid out with whitespace builds the same op as the same
      pairs written without any. */
  lemma MakeOpLaid(name: string, lead: string, ps: seq<Pair>, ls: seq<PairLayout>)
    requires AllReadablePairs(ps) && |ps| == |ls| && AllPairSpacing(ls) && AllSpace(lead)
    ensures MakeOp(name, lead + LayPairs(ps, ls)) == MakeOp(name, RenderPairs(ps))
  {
    PairsLaid(lead, ps, ls);
    KVIntoLaid(map[], ps, ls);
    PairsRender(ps);
  }

  /** The whitespace a writer may leave before a group's brace and after
      the group. */
  datatype GroupLayout = GroupLayout(beforeBrace: string, after: string)

  predicate GroupSpacing(l: GroupLayout) {
    AllSpace(l.beforeBrace) && AllSpace(l.after)
  }

  predicate AllGroupSpacing(ls: seq<GroupLayout>) {
    forall k :: 0 <= k < |ls| ==> GroupSpacing(ls[k])
  }

  /** A group written out with the whitespace of `l`. */
  function LayGroup(g: Group, l: GroupLayout): string {
    g.name + l.beforeBrace + "{" + g.body + "}" + l.after
  }

  function LayGroups(gs: seq<Group>, ls: seq<GroupLayout>): string
    requires |gs| == |ls|
  {
    if gs == [] then "" else LayGroup(gs[0], ls[0]) + LayGroups(gs[1..], ls[1..])
  }

  /** A group as written with no whitespace at all. */
  function RenderGroup(g: Group): string {
    g.name + "{" + g.body + "}"
  }

  function RenderGroups(gs: seq<Group>): string {
    if gs == [] then "" else RenderGroup(gs[0]) + RenderGroups(gs[1..])
  }

  function TightGroups(n: nat): (ls: seq<GroupLayout>)
    ensures |ls| == n
  {
    seq(n, _ => GroupLayout("", ""))
  }

  /** A group the group pattern reads back unchanged: a word name and a body
      with no `}`. */
  predicate ReadableGroup(g: Group) {
    |g.name| > 0 && AllWord(g.name) && '}' !in g.body
  }

  predicate AllReadableGroups(gs: seq<Group>) {
    gs == [] || (ReadableGroup(gs[0]) && AllReadableGroups(gs[1..]))
  }

  /** `GroupAt` once its word run, whitespace run and body are known. */
  lemma GroupAtSteps(s: string, i: nat, k: nat, w: nat, c: nat)
    requires i < k < |s| && (forall j :: i <= j < k ==> IsWordChar(s[j])) && !IsWordChar(s[k])
    requires SpaceEnd(s, k) == w && w < |s| && s[w] == '{'
    requires Find(s, '}', w + 1) == Some(c)
    ensures GroupAt(s, i) == Some((Group(s[i..k], s[w + 1..c]), c + 1))
  {
    GroupMatchRun(s, i, i, k);
  }

  /** A readable group laid out at position `i` is matched there, up to
      its closing brace at `e - 1`. */
  lemma GroupAtLaid(s: string, i: nat, g: Group, l: GroupLayout, rest: string) returns (e: nat)
    requires ReadableGroup(g) && GroupSpacing(l)
    requires i <= |s| && s[i..] == LayGroup(g, l) + rest
    ensures e <= |s| && GroupAt(s, i) == Some((g, e)) && s[e..] == l.after + rest
  {
    var k, w, c := PiecesScan(s, i, g.name, l.beforeBrace, '{', g.body, '}', l.after, rest);
    GroupAtSteps(s, i, k, w, c);
    e := c + 1;
  }

  /** Whitespace holds no group: the scan moves over it. */
  lemma {:induction false} GroupsSkipSpace(s: string, i: nat, n: nat)
    requires i + n <= |s| && forall j :: i <= j < i + n ==> IsSpace(s[j])
    ensures GroupsFrom(s, i) == GroupsFrom(s, i + n)
    decreases n
  {
    if n > 0 {
      assert GroupAt(s, i).None?;
      GroupsSkipSpace(s, i + 1, n - 1);
    }
  }

  lemma GroupsFromStep(s: string, i: nat, g: Group, j: nat)
    requires i < |s| && GroupAt(s, i) == Some((g, j))
    ensures GroupsFrom(s, i) == [g] + GroupsFrom(s, j)
  {
  }

  /** Nothing left to scan holds no group. */
  lemma EndNoGroups(s: string, i: nat)
    requires i <= |s| && s[i..] == ""
    ensures GroupsFrom(s, i) == []
  {
    assert i == |s|;
  }

  /** Leading whitespace from `i` is passed over by the group scan. */
  lemma GroupsAfterLead(s: string, i: nat, lead: string, rest: string) returns (j: nat)
    requires AllSpace(lead) && i <= |s| && s[i..] == lead + rest
    ensures j == i + |lead| && j <= |s| && s[j..] == rest
    ensures GroupsFrom(s, i) == GroupsFrom(s, j)
  {
    j := SplitAt(s, i, lead, rest);
    forall x | i <= x < j ensures IsSpace(s[x]) {
      assert s[x] == s[i..j][x - i];
    }
    GroupsSkipSpace(s, i, |lead|);
  }

  /** At `i` the first laid-out group is found, and the scan resumes at the
      whitespace after it, at `e`. */
  lemma GroupsFirst(s: string, i: nat, gs: seq<Group>, ls: seq<GroupLayout>) returns (e: nat)
    requires gs != [] && AllReadableGroups(gs) && |gs| == |ls| && AllGroupSpacing(ls)
    requires i <= |s| && s[i..] == LayGroups(gs, ls)
    ensures e <= |s| && s[e..] == ls[0].after + LayGroups(gs[1..], ls[1..])
    ensures GroupsFrom(s, i) == [gs[0]] + GroupsFrom(s, e)
    ensures AllReadableGroups(gs[1..]) && AllGroupSpacing(ls[1..]) && AllSpace(ls[0].after)
  {
    assert GroupSpacing(ls[0]);
    e := GroupAtLaid(s, i, gs[0], ls[0], LayGroups(gs[1..], ls[1..]));
    GroupsFromStep(s, i, gs[0], e);
    forall k | 0 <= k < |ls[1..]| ensures GroupSpacing(ls[1..][k]) {
      assert ls[1..][k] == ls[k + 1];
    }
  }

  /** After the leading whitespace the first laid-out group is found, and
      the scan resumes at the whitespace after it, at `e`. */
  lemma GroupsLeadFirst(s: string, i: nat, lead: string, gs: seq<Group>, ls: seq<GroupLayout>) returns (e: nat)
    requires gs != [] && AllReadableGroups(gs) && |gs| == |ls| && AllGroupSpacing(ls) && AllSpace(lead)
    requires i <= |s| && s[i..] == lead + LayGroups(gs, ls)
    ensures e <= |s| && s[e..] == ls[0].after + LayGroups(gs[1..], ls[1..])
    ensures GroupsFrom(s, i) == [gs[0]] + GroupsFrom(s, e)
    ensures AllReadableGroups(gs[1..]) && AllGroupSpacing(ls[1..]) && AllSpace(ls[0].after)
  {
    var j := GroupsAfterLead(s, i, lead, LayGroups(gs, ls));
    e := GroupsFirst(s, j, gs, ls);
  }

  /** Whitespace alone to the end holds no group. */
  lemma GroupsLaidEnd(s: string, i: nat, lead: string)
    requires AllSpace(lead) && i <= |s| && s[i..] == lead
    ensures GroupsFrom(s, i) == []
  {
    assert s[i..] == lead + "";
    var j := GroupsAfterLead(s, i, lead, "");
    EndNoGroups(s, j);
  }

  /** Scanning readable groups laid out after whitespace from `i` to the end
      gives them back, in order. */
  lemma {:induction false} GroupsLaidFrom(s: string, i: nat, lead: string, gs: seq<Group>, ls: seq<GroupLayout>)
    requires AllReadableGroups(gs) && |gs| == |ls| && AllGroupSpacing(ls) && AllSpace(lead)
    requires i <= |s| && s[i..] == lead + LayGroups(gs, ls)
    ensures GroupsFrom(s, i) == gs
    decreases |gs|
  {
    if gs != [] {
      var e := GroupsLeadFirst(s, i, lead, gs, ls);
      GroupsLaidFrom(s, e, ls[0].after, gs[1..], ls[1..]);
      HeadTail(gs);
    } else {
      assert s[i..] == lead;
      GroupsLaidEnd(s, i, lead);
    }
  }

  /** Whitespace before a group, before its brace and after it is
      insignificant to the group pattern: the groups are found unchanged,
      in order. */
  lemma GroupsLaid(lead: string, gs: seq<Group>, ls: seq<GroupLayout>)
    requires AllReadableGroups(gs) && |gs| == |ls| && AllGroupSpacing(ls) && AllSpace(lead)
    ensures Groups(lead + LayGroups(gs, ls)) == gs
  {
    var s := lead + LayGroups(gs, ls);
    assert s[0..] == s;
    GroupsLaidFrom(s, 0, lead, gs, ls);
  }

  /** Writing groups without whitespace is the layout with every run empty. */
  lemma {:induction false} GroupsTight(gs: seq<Group>)
    ensures RenderGroups(gs) == "" + LayGroups(gs, TightGroups(|gs|))
    decreases |gs|
  {
    if gs != [] {
      var ls := TightGroups(|gs|);
      assert ls[1..] == TightGroups(|gs| - 1);
      GroupsTight(gs[1..]);
      assert LayGroup(gs[0], ls[0]) == RenderGroup(gs[0]);
    }
  }

  /** Rendering readable groups and scanning the result gives them back. */
  lemma GroupsRender(gs: seq<Group>)
    requires AllReadableGroups(gs)
    ensures Groups(RenderGroups(gs)) == gs
  {
    GroupsTight(gs);
    GroupsLaid("", gs, TightGroups(|gs|));
  }

  /** `OpsOf` builds one op per group, each from its own group. */
  lemma {:induction false} OpsOfSpec(gs: seq<Group>)
    ensures |OpsOf(gs)| == |gs|
    ensures forall j :: 0 <= j < |gs| ==> OpsOf(gs)[j] == MakeOp(gs[j].name, gs[j].body)
    decreases |gs|
  {
    if gs != [] {
      OpsOfSpec(gs[1..]);
    }
  }

  /** `parse_custom_ops` yields exactly one op per group the group pattern
      finds, in the same order. */
  lemma CustomOpsGroups(s: string)
    ensures |CustomOps(s)| == |Groups(s)|
    ensures forall j :: 0 <= j < |Groups(s)| ==>
      CustomOps(s)[j] == MakeOp(Groups(s)[j].name, Groups(s)[j].body)
  {
    OpsOfSpec(Groups(s));
  }

  /** Rendering readable groups and parsing the result gives one op per
      group, in order. */
  lemma CustomOpsRender(gs: seq<Group>)
    requires AllReadableGroups(gs)
    ensures CustomOps(RenderGroups(gs)) == OpsOf(gs)
  {
    GroupsRender(gs);
  }

  /** Whitespace around groups and before their braces does not change the
      ops `parse_custom_ops` returns. */
  lemma CustomOpsLaid(lead: string, gs: seq<Group>, ls: seq<GroupLayout>)
    requires AllReadableGroups(gs) && |gs| == |ls| && AllGroupSpacing(ls) && AllSpace(lead)
    ensures CustomOps(lead + LayGroups(gs, ls)) == OpsOf(gs)
  {
    GroupsLaid(lead, gs, ls);
  }

  /** Without a `{` ahead, the group pattern cannot match. */
  lemma {:induction false} GroupMatchNoBrace(s: string, i: nat, k: nat)
    requires i <= k <= |s|
    requires forall j :: k <= j < |s| ==> s[j] != '{'
    ensures GroupMatch(s, i, k).None?
    decreases |s| - k
  {
    if k < |s| && IsWordChar(s[k]) {
      GroupMatchNoBrace(s, i, k + 1);
    }
  }

  lemma {:induction false} NoBraceNoGroups(s: string, i: nat)
    requires i <= |s|
    requires forall j :: i <= j < |s| ==> s[j] != '{'
    ensures GroupsFrom(s, i) == []
    decreases |s| - i
  {
    if i < |s| {
      GroupMatchNoBrace(s, i, i);
      NoBraceNoGroups(s, i + 1);
    }
  }

  /** Text without an opening brace holds no group, so no op; the empty
      `@custom` among them. */
  lemma NoBraceNoOps(s: string)
    requires '{' !in s
    ensures CustomOps(s) == []
  {
    NoBraceNoGroups(s, 0);
  }

  // ---------------------------------------------------------------------
  // What one op holds
  // ---------------------------------------------------------------------

  function PairKeys(ps: seq<Pair>): set<string> {
    set p | p in ps :: p.key
  }

  /** Filling `kv` adds exactly the keys of the pairs. */
  lemma {:induction false} KVIntoKeys(m: map<string, string>, ps: seq<Pair>)
    ensures KVInto(m, ps).Keys == m.Keys + PairKeys(ps)
    decreases |ps|
  {
    if ps != [] {
      KVIntoKeys(m[ps[0].key := Strip(ps[0].value)], ps[1..]);
      assert forall p :: p in ps <==> p == ps[0] || p in ps[1..];
      assert PairKeys(ps) == {ps[0].key} + PairKeys(ps[1..]);
    } else {
      assert PairKeys(ps) == {};
    }
  }

  /** A key no pair mentions keeps its old value. */
  lemma {:induction false} KVIntoUntouched(m: map<string, string>, ps: seq<Pair>, k: string)
    requires forall j :: 0 <= j < |ps| ==> ps[j].key != k
    ensures k in KVInto(m, ps) <==> k in m
    ensures k in m ==> KVInto(m, ps)[k] == m[k]
    decreases |ps|
  {
    if ps != [] {
      assert forall j :: 0 <= j < |ps[1..]| ==> ps[1..][j] == ps[j + 1];
      KVIntoUntouched(m[ps[0].key := Strip(ps[0].value)], ps[1..], k);
    }
  }

  /** Later pairs win: a key ends up with the value of its last pair. */
  lemma {:induction false} KVIntoLastWins(m: map<string, string>, ps: seq<Pair>, j: nat)
    requires j < |ps|
    requires forall l :: j < l < |ps| ==> ps[l].key != ps[j].key
    ensures ps[j].key in KVInto(m, ps) && KVInto(m, ps)[ps[j].key] == Strip(ps[j].value)
    decreases |ps|
  {
    var m' := m[ps[0].key := Strip(ps[0].value)];
    assert forall l :: 0 <= l < |ps[1..]| ==> ps[1..][l] == ps[l + 1];
    if j == 0 {
      KVIntoUntouched(m', ps[1..], ps[0].key);
    } else {
      KVIntoLastWins(m', ps[1..], j - 1);
    }
  }

  /** Normalising the flags `ks` touches no key and only the values of
      those flags, each normalised once however often it is listed. */
  lemma {:induction false} NormaliseFlagsSpec(attrs: map<string, string>, ks: seq<string>)
    ensures NormaliseFlags(attrs, ks).Keys == attrs.Keys
    ensures forall k :: k in attrs ==>
      NormaliseFlags(attrs, ks)[k] == if k in ks then NormaliseFlag(attrs[k]) else attrs[k]
    decreases |ks|
  {
    if ks != [] {
      var key := ks[0];
      var m := if key in attrs then attrs[key := NormaliseFlag(attrs[key])] else attrs;
      NormaliseFlagsSpec(m, ks[1..]);
      if key in attrs {
        NormaliseFlagIdempotent(attrs[key]);
      }
      assert forall k :: k in ks <==> k == key || k in ks[1..];
    }
  }

  /** The attributes of the op built from a filled `kv` dict: every key but
      `offset` and `length`, with its value, the five flags normalised for
      `textStyle`. */
  lemma OpOfAttrs(name: string, kv: map<string, string>)
    ensures OpOf(name, kv).attrs.Keys == kv.Keys - {"offset", "length"}
    ensures forall k :: k in OpOf(name, kv).attrs ==>
      OpOf(name, kv).attrs[k] == if name == "textStyle" && k in StyleFlags then NormaliseFlag(kv[k]) else kv[k]
  {
    var copied := CopyAttrs(kv);
    assert copied.Keys == kv.Keys - {"offset", "length"};
    NormaliseFlagsSpec(copied, StyleFlags);
  }

  /** The kind of the op: a `kind` key in the body overrides the group name. */
  lemma OpOfKind(name: string, kv: map<string, string>)
    ensures OpOf(name, kv).kind == if "kind" in kv then kv["kind"] else name
  {
    var copied := CopyAttrs(kv);
    NormaliseFlagsSpec(copied, StyleFlags);
    assert "kind" !in StyleFlags;
    assert "kind" in kv ==> "kind" in copied && copied["kind"] == kv["kind"];
  }

  /** The span of the op: `offset` and `length` read with `parse_int`,
      default 0 for a missing key or a value that is not an integer. */
  lemma OpOfSpan(name: string, kv: map<string, string>)
    ensures OpOf(name, kv).offset == ParseInt(Get(kv, "offset", "0"), 0)
    ensures OpOf(name, kv).length == ParseInt(Get(kv, "length", "0"), 0)
  {
    IntFieldDefault(kv, "offset");
    IntFieldDefault(kv, "length");
  }
}

=== FILE: segmentation.dfy ===
/** `slice_text_nodes` (page2tei.py:144-166): the cut-point partition of a
    line of text and the label set of each segment. */
module Segmentation {
  import opened Strings

  /** `(start, end, label)`: a label over a span of a text. The bounds are
      whatever the op said and may lie outside the text. */
  datatype Range = Range(start: int, end: int, rend: string)

  /** `(start, end, segment_text, labels)`. The label set is kept as the
      sorted list of its members, the order in which `build_styled_nodes`
      writes it out. */
  datatype Segment = Segment(start: nat, end: nat, text: string, labels: seq<string>)

  /** `max(0, min(n, x))`. */
  function Clamp(x: int, n: nat): (r: nat)
    ensures r <= n
  {
    if x < 0 then 0 else if x > n then n else x
  }

  /** `r` covers the segment `[s, e)`: the filter of the label comprehension. */
  predicate Covers(r: Range, s: int, e: int) {
    r.start <= s && e <= r.end && r.start < r.end
  }

  /** `r` contains the position `p`. */
  predicate Contains(r: Range, p: int) {
    r.start <= p < r.end
  }

  // ---------------------------------------------------------------------
  // Cut points
  // ---------------------------------------------------------------------

  /** The set `cut_points` after the loop over `rs`, for a text of length `n`. */
  function CutPoints(n: nat, rs: seq<Range>): set<nat>
    decreases |rs|
  {
    if rs == [] then {0, n}
    else
      var r := rs[|rs| - 1];
      CutPoints(n, rs[..|rs| - 1]) + {Clamp(r.start, n), Clamp(r.end, n)}
  }

  /** `sorted` applied to the members of `S` below `m`. */
  function Ascending(S: set<nat>, m: nat): seq<nat>
  {
    if m == 0 then [] else Ascending(S, m - 1) + (if m - 1 in S then [m - 1] else [])
  }

  /** `cuts = sorted(cut_points)`. */
  function Cuts(n: nat, rs: seq<Range>): seq<nat> {
    Ascending(CutPoints(n, rs), n + 1)
  }

  predicate Increasing(xs: seq<nat>) {
    forall i, j :: 0 <= i < j < |xs| ==> xs[i] < xs[j]
  }

  /** Each cut is below the next one. */
  predicate Steps(xs: seq<nat>) {
    forall i, j :: 0 <= i < |xs| && 0 <= j < |xs| && j == i + 1 ==> xs[i] < xs[j]
  }

  /** What the segment loop needs of its cut list: increasing from 0 to `n`,
      holding the clamped bounds of every range. */
  predicate CutsFor(cuts: seq<nat>, n: nat, rs: seq<Range>) {
    Increasing(cuts) && |cuts| > 0 && cuts[0] == 0 && cuts[|cuts| - 1] == n
    && (forall k :: 0 <= k < |cuts| ==> cuts[k] <= n)
    && (forall r :: r in rs ==> Clamp(r.start, n) in cuts && Clamp(r.end, n) in cuts)
  }

  // ---------------------------------------------------------------------
  // Labels
  // ---------------------------------------------------------------------

  /** The labels of the ranges covering `[s, e)`, in range order. */
  function CoverLabels(rs: seq<Range>, s: int, e: int): seq<string>
    decreases |rs|
  {
    if rs == [] then []
    else
      var r := rs[|rs| - 1];
      CoverLabels(rs[..|rs| - 1], s, e) + (if Covers(r, s, e) then [r.rend] else [])
  }

  /** The labels of the ranges containing position `p`, in range order. */
  function PointLabels(rs: seq<Range>, p: int): seq<string>
    decreases |rs|
  {
    if rs == [] then []
    else
      var r := rs[|rs| - 1];
      PointLabels(rs[..|rs| - 1], p) + (if Contains(r, p) then [r.rend] else [])
  }

  // ---------------------------------------------------------------------
  // Segments
  // ---------------------------------------------------------------------

  /** The segment `[s, e)` of `text`: its slice and the sorted set of the
      labels of the ranges covering it. */
  function SegmentOf(text: string, rs: seq<Range>, s: nat, e: nat): Segment {
    Segment(s, e, Slice(text, s, e), SortedUnique(CoverLabels(rs, s, e)))
  }

  /** The segments between consecutive cuts from index `i` on; a repeated cut
      gives no segment. */
  function SegmentsFrom(text: string, rs: seq<Range>, cuts: seq<nat>, i: nat): seq<Segment>
    decreases |cuts| - i
  {
    if i + 1 >= |cuts| then []
    else
      var s, e := cuts[i], cuts[i + 1];
      (if s == e then [] else [SegmentOf(text, rs, s, e)]) + SegmentsFrom(text, rs, cuts, i + 1)
  }

  /** The specification of `slice_text_nodes`. */
  function Segments(text: string, rs: seq<Range>): seq<Segment> {
    SegmentsFrom(text, rs, Cuts(|text|, rs), 0)
  }

  /** The segment texts, concatenated. */
  function Concat(segs: seq<Segment>): string {
    if segs == [] then "" else segs[0].text + Concat(segs[1..])
  }

  // ---------------------------------------------------------------------
  // slice_text_nodes as the source runs it
  // ---------------------------------------------------------------------

  /** `slice_text_nodes`: collects the clamped cut points, sorts them and
      emits one segment per pair of consecutive cuts with its label set. */
  method SliceTextNodes(text: string, ranges: seq<Range>) returns (segments: seq<Segment>)
    ensures segments == Segments(text, ranges)
  {
    var cutPoints: set<nat> := {0, |text|};
    for k := 0 to |ranges|
      invariant cutPoints == CutPoints(|text|, ranges[..k])
    {
      CutPointsStep(|text|, ranges, k);
      cutPoints := cutPoints + {Clamp(ranges[k].start, |text|), Clamp(ranges[k].end, |text|)};
    }
    assert ranges[..|ranges|] == ranges;
    var cuts := Ascending(cutPoints, |text| + 1);
    segments := [];
    var i := 0;
    while i + 1 < |cuts|
      invariant segments + SegmentsFrom(text, ranges, cuts, i) == Segments(text, ranges)
      decreases |cuts| - i
    {
      var s, e := cuts[i], cuts[i + 1];
      ghost var rest := SegmentsFrom(text, ranges, cuts, i + 1);
      if s != e {
        ghost var before := segments;
        segments := segments + [SegmentOf(text, ranges, s, e)];
        assert SegmentsFrom(text, ranges, cuts, i) == [SegmentOf(text, ranges, s, e)] + rest;
        assert before + ([SegmentOf(text, ranges, s, e)] + rest) == segments + rest;
      } else {
        assert SegmentsFrom(text, ranges, cuts, i) == rest;
      }
      i := i + 1;
    }
  }

  // ---------------------------------------------------------------------
  // The cut list
  // ---------------------------------------------------------------------

  /** One more range adds its two clamped bounds. */
  lemma CutPointsStep(n: nat, rs: seq<Range>, k: nat)
    requires k < |rs|
    ensures CutPoints(n, rs[..k + 1]) == CutPoints(n, rs[..k]) + {Clamp(rs[k].start, n), Clamp(rs[k].end, n)}
  {
    assert rs[..k + 1][..k] == rs[..k];
  }

  /** The cut points are 0, the text length and the clamped bounds of the
      ranges, and nothing else. */
  lemma {:induction false} CutPointsSpec(n: nat, rs: seq<Range>)
    ensures forall x :: x in CutPoints(n, rs) <==>
      x == 0 || x == n || exists r :: r in rs && (x == Clamp(r.start, n) || x == Clamp(r.end, n))
    decreases |rs|
  {
    if rs != [] {
      var front := rs[..|rs| - 1];
      CutPointsSpec(n, front);
      assert rs == front + [rs[|rs| - 1]];
      forall r ensures r in rs <==> r in front || r == rs[|rs| - 1] {
      }
    }
  }

  /** `Ascending` lists the members below `m` in strictly increasing order. */
  lemma {:induction false} AscendingSpec(S: set<nat>, m: nat)
    ensures Increasing(Ascending(S, m))
    ensures forall x :: x in Ascending(S, m) <==> x in S && x < m
  {
    if m > 0 {
      var prev := Ascending(S, m - 1);
      var r := Ascending(S, m);
      AscendingSpec(S, m - 1);
      forall i, j | 0 <= i < j < |r| ensures r[i] < r[j] {
        if j >= |prev| {
          assert r[i] == prev[i] && prev[i] in prev;
        }
      }
    }
  }

  /** `sorted(cut_points)` starts at 0, ends at the text length, increases
      strictly and holds every clamped range bound. */
  lemma CutsValid(n: nat, rs: seq<Range>)
    ensures CutsFor(Cuts(n, rs), n, rs) && Steps(Cuts(n, rs))
    ensures forall x :: x in Cuts(n, rs) <==> x in CutPoints(n, rs)
  {
    var S := CutPoints(n, rs);
    var cuts := Cuts(n, rs);
    CutPointsSpec(n, rs);
    AscendingSpec(S, n + 1);
    assert 0 in cuts && n in cuts;
    assert cuts[|cuts| - 1] in cuts;
  }

  /** Between two consecutive cuts lies no other cut. */
  lemma CutsBetween(cuts: seq<nat>, j: nat, x: nat)
    requires Increasing(cuts) && j + 1 < |cuts| && x in cuts
    ensures x <= cuts[j] || cuts[j + 1] <= x
  {
    var m :| 0 <= m < |cuts| && cuts[m] == x;
    if m < j {
      assert cuts[m] < cuts[j];
    } else if m > j + 1 {
      assert cuts[j + 1] < cuts[m];
    }
  }

  // ---------------------------------------------------------------------
  // Segments: partition
  // ---------------------------------------------------------------------

  /** Over an increasing cut list, the segments are exactly the spans
      between consecutive cuts, one each. */
  lemma {:induction false} SegmentsFromSpec(text: string, rs: seq<Range>, cuts: seq<nat>, i: nat)
    requires Steps(cuts) && i < |cuts|
    ensures |SegmentsFrom(text, rs, cuts, i)| == |cuts| - 1 - i
    ensures forall k :: 0 <= k < |cuts| - 1 - i ==>
      SegmentsFrom(text, rs, cuts, i)[k] == SegmentOf(text, rs, cuts[i + k], cuts[i + k + 1])
    decreases |cuts| - i
  {
    if i + 1 < |cuts| {
      assert cuts[i] < cuts[i + 1];
      SegmentsFromSpec(text, rs, cuts, i + 1);
      var rest := SegmentsFrom(text, rs, cuts, i + 1);
      var all := [SegmentOf(text, rs, cuts[i], cuts[i + 1])] + rest;
      assert SegmentsFrom(text, rs, cuts, i) == all;
      forall k | 0 < k < |cuts| - 1 - i
        ensures all[k] == SegmentOf(text, rs, cuts[i + k], cuts[i + k + 1])
      {
        assert all[k] == rest[k - 1];
        assert i + 1 + (k - 1) == i + k;
      }
    }
  }

  lemma ConcatCons(x: Segment, rest: seq<Segment>)
    ensures Concat([x] + rest) == x.text + Concat(rest)
  {
    assert ([x] + rest)[1..] == rest;
  }

  /** The segments, concatenated, spell the text from cut `i` to the end. */
  lemma {:induction false} SegmentsFromConcat(text: string, rs: seq<Range>, cuts: seq<nat>, i: nat)
    requires Steps(cuts) && i < |cuts| && cuts[|cuts| - 1] == |text|
    requires forall k :: 0 <= k < |cuts| ==> cuts[k] <= |text|
    ensures Concat(SegmentsFrom(text, rs, cuts, i)) == text[cuts[i]..]
    decreases |cuts| - i
  {
    if i + 1 < |cuts| {
      var s, e := cuts[i], cuts[i + 1];
      assert s < e;
      SegmentsFromConcat(text, rs, cuts, i + 1);
      ConcatCons(SegmentOf(text, rs, s, e), SegmentsFrom(text, rs, cuts, i + 1));
      assert text[s..] == text[s..e] + text[e..];
    }
  }

  /** Each segment is non-empty, lies inside the text and holds its own
      slice of it. */
  lemma SegmentsInText(text: string, rs: seq<Range>, k: nat)
    requires k < |Segments(text, rs)|
    ensures var seg := Segments(text, rs)[k];
      seg.start < seg.end <= |text| && seg.text == text[seg.start..seg.end]
  {
    var cuts := Cuts(|text|, rs);
    CutsValid(|text|, rs);
    SegmentsFromSpec(text, rs, cuts, 0);
    assert Segments(text, rs)[k] == SegmentOf(text, rs, cuts[k], cuts[k + 1]);
    assert cuts[k] < cuts[k + 1] <= |text|;
  }

  /** The segments are contiguous: each starts where the previous ends. */
  lemma SegmentsContiguous(text: string, rs: seq<Range>, k: nat)
    requires k + 1 < |Segments(text, rs)|
    ensures Segments(text, rs)[k].end == Segments(text, rs)[k + 1].start
  {
    var cuts := Cuts(|text|, rs);
    CutsValid(|text|, rs);
    SegmentsFromSpec(text, rs, cuts, 0);
    assert Segments(text, rs)[k] == SegmentOf(text, rs, cuts[k], cuts[k + 1]);
    assert Segments(text, rs)[k + 1] == SegmentOf(text, rs, cuts[k + 1], cuts[k + 2]);
  }

  /** The segments run from 0 to the text length; there are none exactly
      when the text is empty. */
  lemma SegmentsSpan(text: string, rs: seq<Range>)
    ensures Segments(text, rs) == [] <==> text == []
    ensures Segments(text, rs) != [] ==>
      Segments(text, rs)[0].start == 0 && Segments(text, rs)[|Segments(text, rs)| - 1].end == |text|
  {
    var cuts := Cuts(|text|, rs);
    CutsValid(|text|, rs);
    SegmentsFromSpec(text, rs, cuts, 0);
    var segs := Segments(text, rs);
    if |cuts| > 1 {
      assert segs[0] == SegmentOf(text, rs, cuts[0], cuts[1]);
      assert segs[|segs| - 1] == SegmentOf(text, rs, cuts[|cuts| - 2], cuts[|cuts| - 1]);
      assert cuts[0] < cuts[1];
    }
  }

  /** The segment texts, concatenated, spell the text. */
  lemma SegmentsConcat(text: string, rs: seq<Range>)
    ensures Concat(Segments(text, rs)) == text
  {
    var cuts := Cuts(|text|, rs);
    CutsValid(|text|, rs);
    SegmentsFromConcat(text, rs, cuts, 0);
  }

  /** Every segment boundary is a cut point and every cut point is a segment
      boundary: no clamped range bound falls strictly inside a segment. */
  lemma SegmentsRespectRanges(text: string, rs: seq<Range>, k: nat, r: Range)
    requires k < |Segments(text, rs)| && r in rs
    ensures var seg := Segments(text, rs)[k];
      !(seg.start < Clamp(r.start, |text|) < seg.end) && !(seg.start < Clamp(r.end, |text|) < seg.end)
  {
    var cuts := Cuts(|text|, rs);
    CutsValid(|text|, rs);
    SegmentsFromSpec(text, rs, cuts, 0);
    var segs := Segments(text, rs);
    assert |segs| == |cuts| - 1;
    assert segs[k] == SegmentOf(text, rs, cuts[k], cuts[k + 1]);
    var a, b := Clamp(r.start, |text|), Clamp(r.end, |text|);
    assert a in cuts && b in cuts;
    CutsBetween(cuts, k, a);
    CutsBetween(cuts, k, b);
  }

  // ---------------------------------------------------------------------
  // Segments: labels
  // ---------------------------------------------------------------------

  /** The label comprehension: a label is collected exactly when some range
      carrying it covers the segment. */
  lemma {:induction false} CoverLabelsSpec(rs: seq<Range>, s: int, e: int)
    ensures forall x :: x in CoverLabels(rs, s, e) <==> exists r :: r in rs && Covers(r, s, e) && r.rend == x
    decreases |rs|
  {
    if rs != [] {
      var front := rs[..|rs| - 1];
      CoverLabelsSpec(front, s, e);
      assert rs == front + [rs[|rs| - 1]];
      forall r ensures r in rs <==> r in front || r == rs[|rs| - 1] {
      }
    }
  }

  /** A label is at position `p` exactly when some range carrying it
      contains `p`. */
  lemma {:induction false} PointLabelsSpec(rs: seq<Range>, p: int)
    ensures forall x :: x in PointLabels(rs, p) <==> exists r :: r in rs && Contains(r, p) && r.rend == x
    decreases |rs|
  {
    if rs != [] {
      var front := rs[..|rs| - 1];
      PointLabelsSpec(front, p);
      assert rs == front + [rs[|rs| - 1]];
      forall r ensures r in rs <==> r in front || r == rs[|rs| - 1] {
      }
    }
  }

  /** Between consecutive cuts, a range covers the whole span exactly when
      it contains any one position of it. */
  lemma CoverIffContains(r: Range, cuts: seq<nat>, n: nat, j: nat, p: nat)
    requires Increasing(cuts) && j + 1 < |cuts| && cuts[j + 1] <= n
    requires Clamp(r.start, n) in cuts && Clamp(r.end, n) in cuts
    requires cuts[j] <= p < cuts[j + 1]
    ensures Covers(r, cuts[j], cuts[j + 1]) <==> Contains(r, p)
  {
    if Contains(r, p) {
      CutsBetween(cuts, j, Clamp(r.start, n));
      CutsBetween(cuts, j, Clamp(r.end, n));
    }
  }

  /** The label set of the segment holding position `p` is the set of
      labels of the ranges containing `p`. */
  lemma SegmentLabelsAt(rs: seq<Range>, cuts: seq<nat>, n: nat, j: nat, p: nat)
    requires CutsFor(cuts, n, rs) && j + 1 < |cuts|
    requires cuts[j] <= p < cuts[j + 1]
    ensures SortedUnique(CoverLabels(rs, cuts[j], cuts[j + 1])) == SortedUnique(PointLabels(rs, p))
  {
    assert cuts[j + 1] in cuts;
    CoverLabelsSpec(rs, cuts[j], cuts[j + 1]);
    PointLabelsSpec(rs, p);
    forall r | r in rs ensures Covers(r, cuts[j], cuts[j + 1]) <==> Contains(r, p) {
      CoverIffContains(r, cuts, n, j, p);
    }
    StrictlySortedUnique(SortedUnique(CoverLabels(rs, cuts[j], cuts[j + 1])), SortedUnique(PointLabels(rs, p)));
  }

  /** Each segment's labels are the labels of the ranges that cover it, and
      equally of the ranges that contain any one of its positions. */
  lemma SegmentLabels(text: string, rs: seq<Range>, k: nat, p: nat)
    requires k < |Segments(text, rs)|
    requires Segments(text, rs)[k].start <= p < Segments(text, rs)[k].end
    ensures var seg := Segments(text, rs)[k];
      StrictlySorted(seg.labels)
      && (forall x :: x in seg.labels <==> exists r :: r in rs && Covers(r, seg.start, seg.end) && r.rend == x)
      && seg.labels == SortedUnique(PointLabels(rs, p))
  {
    var cuts := Cuts(|text|, rs);
    CutsValid(|text|, rs);
    SegmentsFromSpec(text, rs, cuts, 0);
    CoverLabelsSpec(rs, cuts[k], cuts[k + 1]);
    SegmentLabelsAt(rs, cuts, |text|, k, p);
  }
}

=== FILE: strings.dfy ===
/** Character classes, trimming, slicing, joining, ordering and decimal text,
    with the approximations of Python's string semantics used by the
    annotation engine (ASCII word characters, ASCII case folding). */
module Strings {

  datatype Option<T> = None | Some(value: T)

  /** `\w` restricted to ASCII: letters, digits and underscore. */
  predicate IsWordChar(c: char) {
    ('a' <= c <= 'z') || ('A' <= c <= 'Z') || ('0' <= c <= '9') || c == '_'
  }

  /** The characters Python counts as whitespace, for `\s` and for
      `str.strip()` alike: tab to carriage return, the four separators
      0x1c-0x1f, space, next line, no-break space and the Unicode spaces
      and line/paragraph separators. */
  predicate IsSpace(c: char) {
    var n := c as int;
    (9 <= n <= 13) || (28 <= n <= 32) || n == 0x85 || n == 0xA0 || n == 0x1680
    || (0x2000 <= n <= 0x200A) || n == 0x2028 || n == 0x2029 || n == 0x202F
    || n == 0x205F || n == 0x3000
  }

  predicate IsDigit(c: char) {
    '0' <= c <= '9'
  }

  function LowerChar(c: char): char {
    if 'A' <= c <= 'Z' then (c as int + 32) as char else c
  }

  function UpperChar(c: char): char {
    if 'a' <= c <= 'z' then (c as int - 32) as char else c
  }

  function Lower(s: string): (r: string)
    ensures |r| == |s|
    ensures forall i :: 0 <= i < |s| ==> r[i] == LowerChar(s[i])
  {
    if s == [] then [] else [LowerChar(s[0])] + Lower(s[1..])
  }

  function Upper(s: string): (r: string)
    ensures |r| == |s|
    ensures forall i :: 0 <= i < |s| ==> r[i] == UpperChar(s[i])
  {
    if s == [] then [] else [UpperChar(s[0])] + Upper(s[1..])
  }

  /** Drops leading whitespace. */
  function TrimLeft(s: string): (r: string)
    ensures |r| <= |s|
  {
    if s != [] && IsSpace(s[0]) then TrimLeft(s[1..]) else s
  }

  /** `TrimLeft` removes a prefix made only of whitespace, and all of it. */
  lemma {:induction false} TrimLeftSpec(s: string)
    ensures TrimLeft(s) == s[|s| - |TrimLeft(s)|..]
    ensures TrimLeft(s) == [] || !IsSpace(TrimLeft(s)[0])
    ensures forall i :: 0 <= i < |s| - |TrimLeft(s)| ==> IsSpace(s[i])
  {
    if s != [] && IsSpace(s[0]) {
      TrimLeftSpec(s[1..]);
    }
  }

  /** Drops trailing whitespace. */
  function TrimRight(s: string): (r: string)
    ensures |r| <= |s|
  {
    if s != [] && IsSpace(s[|s| - 1]) then TrimRight(s[..|s| - 1]) else s
  }

  /** `TrimRight` removes a suffix made only of whitespace, and all of it. */
  lemma {:induction false} TrimRightSpec(s: string)
    ensures TrimRight(s) == s[..|TrimRight(s)|]
    ensures TrimRight(s) == [] || !IsSpace(TrimRight(s)[|TrimRight(s)| - 1])
    ensures forall i :: |TrimRight(s)| <= i < |s| ==> IsSpace(s[i])
  {
    if s != [] && IsSpace(s[|s| - 1]) {
      TrimRightSpec(s[..|s| - 1]);
    }
  }

  /** Python's `str.strip()`. */
  function Strip(s: string): (r: string)
    ensures |r| <= |s|
  {
    TrimRight(TrimLeft(s))
  }

  /** Where the text `str.strip()` keeps begins. */
  function StripStart(s: string): nat {
    |s| - |TrimLeft(s)|
  }

  /** `str.strip()` keeps a contiguous piece of its argument with no
      whitespace at either end, and removes only whitespace. */
  lemma StripSpec(s: string)
    ensures StripStart(s) + |Strip(s)| <= |s|
    ensures Strip(s) == s[StripStart(s)..StripStart(s) + |Strip(s)|]
    ensures Strip(s) == [] || (!IsSpace(Strip(s)[0]) && !IsSpace(Strip(s)[|Strip(s)| - 1]))
    ensures forall i :: 0 <= i < StripStart(s) ==> IsSpace(s[i])
    ensures forall i :: StripStart(s) + |Strip(s)| <= i < |s| ==> IsSpace(s[i])
  {
    var l := TrimLeft(s);
    TrimLeftSpec(s);
    TrimRightSpec(l);
    var a := StripStart(s);
    var r := Strip(s);
    assert r == l[..|r|];
    assert r == s[a..a + |r|];
    forall i | a + |r| <= i < |s| ensures IsSpace(s[i]) {
      assert s[i] == l[i - a];
    }
    if r != [] {
      assert r[0] == l[0];
    }
  }

  lemma {:induction false} TrimLeftNoop(s: string)
    requires s == [] || !IsSpace(s[0])
    ensures TrimLeft(s) == s
  {
  }

  lemma {:induction false} TrimRightNoop(s: string)
    requires s == [] || !IsSpace(s[|s| - 1])
    ensures TrimRight(s) == s
  {
  }

  /** Text without whitespace at either end is its own strip. */
  lemma StripNoop(s: string)
    requires s == [] || (!IsSpace(s[0]) && !IsSpace(s[|s| - 1]))
    ensures Strip(s) == s
  {
    TrimLeftNoop(s);
    TrimRightNoop(s);
  }

  lemma {:induction false} TrimLeftSpace(c: char, s: string)
    requires IsSpace(c)
    ensures TrimLeft([c] + s) == TrimLeft(s)
  {
    assert ([c] + s)[1..] == s;
  }

  lemma {:induction false} TrimRightSpace(s: string, c: char)
    requires IsSpace(c)
    ensures TrimRight(s + [c]) == TrimRight(s)
  {
    assert (s + [c])[..|s|] == s;
  }

  predicate AllSpace(s: string) {
    forall i :: 0 <= i < |s| ==> IsSpace(s[i])
  }

  lemma {:induction false} TrimLeftPad(a: string, s: string)
    requires AllSpace(a)
    ensures TrimLeft(a + s) == TrimLeft(s)
  {
    if a == [] {
      assert a + s == s;
    } else {
      assert (a + s)[0] == a[0];
      assert (a + s)[1..] == a[1..] + s;
      TrimLeftPad(a[1..], s);
    }
  }

  lemma {:induction false} TrimRightPad(s: string, b: string)
    requires AllSpace(b)
    ensures TrimRight(s + b) == TrimRight(s)
  {
    if b == [] {
      assert s + b == s;
    } else {
      assert (s + b)[|s + b| - 1] == b[|b| - 1];
      assert (s + b)[..|s + b| - 1] == s + b[..|b| - 1];
      TrimRightPad(s, b[..|b| - 1]);
    }
  }

  lemma {:induction false} TrimLeftAppend(s: string, b: string)
    ensures TrimLeft(s + b) == if TrimLeft(s) == [] then TrimLeft(b) else TrimLeft(s) + b
  {
    if s != [] {
      assert (s + b)[1..] == s[1..] + b;
      if IsSpace(s[0]) {
        TrimLeftAppend(s[1..], b);
      }
    } else {
      assert s + b == b;
    }
  }

  /** `str.strip()` ignores whitespace padding on either side. */
  lemma StripPadding(a: string, s: string, b: string)
    requires AllSpace(a) && AllSpace(b)
    ensures Strip(a + s + b) == Strip(s)
  {
    assert a + s + b == a + (s + b);
    TrimLeftPad(a, s + b);
    TrimLeftAppend(s, b);
    TrimLeftSpec(b);
    if TrimLeft(s) != [] {
      TrimRightPad(TrimLeft(s), b);
    }
  }

  lemma LowerCharSpace(c: char)
    ensures IsSpace(LowerChar(c)) == IsSpace(c)
  {
  }

  lemma {:induction false} TrimLeftLower(s: string)
    ensures TrimLeft(Lower(s)) == Lower(TrimLeft(s))
  {
    if s != [] {
      LowerCharSpace(s[0]);
      assert Lower(s)[1..] == Lower(s[1..]);
      if IsSpace(s[0]) {
        TrimLeftLower(s[1..]);
      }
    }
  }

  lemma {:induction false} TrimRightLower(s: string)
    ensures TrimRight(Lower(s)) == Lower(TrimRight(s))
  {
    if s != [] {
      LowerCharSpace(s[|s| - 1]);
      assert Lower(s)[..|s| - 1] == Lower(s[..|s| - 1]);
      if IsSpace(s[|s| - 1]) {
        TrimRightLower(s[..|s| - 1]);
      }
    }
  }

  /** Lower-casing and stripping commute. */
  lemma StripLower(s: string)
    ensures Strip(Lower(s)) == Lower(Strip(s))
  {
    TrimLeftLower(s);
    TrimRightLower(TrimLeft(s));
  }

  /** Text without upper-case letters is its own lower-casing. */
  lemma LowerNoop(s: string)
    requires forall i :: 0 <= i < |s| ==> !('A' <= s[i] <= 'Z')
    ensures Lower(s) == s
  {
    assert forall i :: 0 <= i < |s| ==> Lower(s)[i] == s[i];
  }

  /** Lower-casing forgets the original case: of a lower-cased or an
      upper-cased text alike. */
  lemma LowerForgetsCase(s: string)
    ensures Lower(Lower(s)) == Lower(s)
    ensures Lower(Upper(s)) == Lower(s)
  {
    assert forall i :: 0 <= i < |s| ==> Lower(Upper(s))[i] == Lower(s)[i];
  }

  /** Python's slice `s[a:b]` for non-negative bounds: both bounds are
      clamped to the length, and a reversed range is empty. */
  function Slice(s: string, a: int, b: int): (r: string)
    requires 0 <= a && 0 <= b
    ensures a <= b <= |s| ==> r == s[a..b]
    ensures b <= a ==> r == []
    ensures |s| <= a ==> r == []
    ensures a <= |s| <= b ==> r == s[a..]
  {
    var lo := if a < |s| then a else |s|;
    var hi := if b < lo then lo else if b < |s| then b else |s|;
    s[lo..hi]
  }

  /** Adjacent slices compose: `s[a:b] + s[b:c] == s[a:c]` for `a <= b <= c`. */
  lemma SliceConcat(s: string, a: int, b: int, c: int)
    requires 0 <= a <= b <= c
    ensures Slice(s, a, b) + Slice(s, b, c) == Slice(s, a, c)
  {
    if c <= |s| {
      assert s[a..c] == s[a..b] + s[b..c];
    } else if b <= |s| {
      assert s[a..] == s[a..b] + s[b..];
    } else if a <= |s| {
    } else {
    }
  }

  /** `" ".join(xs)` for an arbitrary separator. */
  function Join(sep: string, xs: seq<string>): string {
    if xs == [] then "" else if |xs| == 1 then xs[0] else xs[0] + sep + Join(sep, xs[1..])
  }

  /** Python's `sub in s`. */
  predicate Contains(s: string, sub: string) {
    exists i :: 0 <= i <= |s| - |sub| && OccursAt(s, sub, i)
  }

  predicate OccursAt(s: string, sub: string, i: int) {
    0 <= i <= |s| - |sub| && s[i..i + |sub|] == sub
  }

  lemma {:induction false} ContainsTrans(s: string, mid: string, sub: string)
    requires Contains(s, mid) && Contains(mid, sub)
    ensures Contains(s, sub)
  {
    var i :| 0 <= i <= |s| - |mid| && OccursAt(s, mid, i);
    var j :| 0 <= j <= |mid| - |sub| && OccursAt(mid, sub, j);
    forall k | 0 <= k < |sub| ensures s[i + j..i + j + |sub|][k] == sub[k] {
      assert sub[k] == mid[j + k] == s[i + j + k];
    }
    assert s[i + j..i + j + |sub|] == sub;
    assert OccursAt(s, sub, i + j);
  }

  // ---------------------------------------------------------------------
  // Lexicographic order on strings (Python's `<` on `str`, by code point)
  // ---------------------------------------------------------------------

  predicate LexLess(a: string, b: string) {
    if a == [] then b != []
    else if b == [] then false
    else a[0] < b[0] || (a[0] == b[0] && LexLess(a[1..], b[1..]))
  }

  lemma {:induction false} LexLessIrreflexive(a: string)
    ensures !LexLess(a, a)
  {
    if a != [] {
      LexLessIrreflexive(a[1..]);
    }
  }

  lemma {:induction false} LexLessTransitive(a: string, b: string, c: string)
    requires LexLess(a, b) && LexLess(b, c)
    ensures LexLess(a, c)
  {
    if a != [] && b != [] && c != [] && a[0] == b[0] && b[0] == c[0] {
      LexLessTransitive(a[1..], b[1..], c[1..]);
    }
  }

  lemma {:induction false} LexLessTotal(a: string, b: string)
    ensures a == b || LexLess(a, b) || LexLess(b, a)
  {
    if a != [] && b != [] && a[0] == b[0] {
      LexLessTotal(a[1..], b[1..]);
      if a[1..] == b[1..] {
        assert a == [a[0]] + a[1..] && b == [b[0]] + b[1..];
      }
    }
  }

  lemma {:induction false} LexLessAsymmetric(a: string, b: string)
    requires LexLess(a, b)
    ensures !LexLess(b, a)
  {
    if LexLess(b, a) {
      LexLessTransitive(a, b, a);
      LexLessIrreflexive(a);
    }
  }

  predicate StrictlySorted(xs: seq<string>) {
    forall i, j :: 0 <= i < j < |xs| ==> LexLess(xs[i], xs[j])
  }

  /** Inserts `x` into a strictly sorted list unless it is already there. */
  function InsertString(xs: seq<string>, x: string): (r: seq<string>)
    requires StrictlySorted(xs)
    ensures StrictlySorted(r)
    ensures forall y :: y in r <==> y in xs || y == x
  {
    if xs == [] then [x]
    else if x == xs[0] then xs
    else if LexLess(x, xs[0]) then
      assert forall j :: 0 < j < |xs| ==> LexLess(x, xs[j]) by {
        forall j | 0 < j < |xs| ensures LexLess(x, xs[j]) {
          LexLessTransitive(x, xs[0], xs[j]);
        }
      }
      [x] + xs
    else
      LexLessTotal(x, xs[0]);
      var tail := InsertString(xs[1..], x);
      assert forall y :: y in tail ==> LexLess(xs[0], y) by {
        forall y | y in tail ensures LexLess(xs[0], y) {
          if y != x {
            var j :| 0 <= j < |xs[1..]| && xs[1..][j] == y;
            assert xs[j + 1] == y;
          }
        }
      }
      [xs[0]] + tail
  }

  /** Python's `sorted(set(xs))`: the elements of `xs`, each once, in
      increasing lexicographic order. */
  function SortedUnique(xs: seq<string>): (r: seq<string>)
    ensures StrictlySorted(r)
    ensures forall y :: y in r <==> y in xs
  {
    if xs == [] then [] else InsertString(SortedUnique(xs[..|xs| - 1]), xs[|xs| - 1])
  }

  /** A strictly sorted list is determined by its elements, so
      `SortedUnique` is exactly `sorted` applied to the set of labels. */
  lemma {:induction false} StrictlySortedUnique(a: seq<string>, b: seq<string>)
    requires StrictlySorted(a) && StrictlySorted(b)
    requires forall y :: y in a <==> y in b
    ensures a == b
  {
    assert a != [] ==> a[0] in a;
    assert b != [] ==> b[0] in b;
    if a != [] && b != [] {
      var k :| 0 <= k < |b| && b[k] == a[0];
      var m :| 0 <= m < |a| && a[m] == b[0];
      if k != 0 && m != 0 {
        LexLessAsymmetric(b[0], a[0]);
      }
      assert a[0] == b[0];
      forall y ensures y in a[1..] <==> y in b[1..] {
        if y in a[1..] {
          var i :| 0 <= i < |a[1..]| && a[1..][i] == y;
          assert LexLess(a[0], a[i + 1]);
          assert y in b;
          var k :| 0 <= k < |b| && b[k] == y;
          if k == 0 { LexLessIrreflexive(a[0]); }
          assert b[1..][k - 1] == y;
        }
        if y in b[1..] {
          var i :| 0 <= i < |b[1..]| && b[1..][i] == y;
          assert LexLess(b[0], b[i + 1]);
          assert y in a;
          var k :| 0 <= k < |a| && a[k] == y;
          if k == 0 { LexLessIrreflexive(b[0]); }
          assert a[1..][k - 1] == y;
        }
      }
      StrictlySortedUnique(a[1..], b[1..]);
      assert a == [a[0]] + a[1..] && b == [b[0]] + b[1..];
    }
  }

  // ---------------------------------------------------------------------
  // Decimal integers (Python's `int(s)` on sign-and-digits text)
  // ---------------------------------------------------------------------

  predicate AllDigits(s: string) {
    forall i :: 0 <= i < |s| ==> IsDigit(s[i])
  }

  function DigitValue(c: char): nat
    requires IsDigit(c)
  {
    c as int - '0' as int
  }

  function DigitChar(d: nat): (c: char)
    requires d < 10
    ensures IsDigit(c) && DigitValue(c) == d
  {
    ('0' as int + d) as char
  }

  /** The value of a run of decimal digits, most significant first. */
  function DigitsValue(s: string): nat
    requires AllDigits(s)
  {
    if s == [] then 0 else DigitsValue(s[..|s| - 1]) * 10 + DigitValue(s[|s| - 1])
  }

  /** The shortest decimal text of a natural number. */
  function FormatNat(n: nat): (r: string)
    ensures |r| > 0 && AllDigits(r)
    decreases n
  {
    if n < 10 then [DigitChar(n)] else FormatNat(n / 10) + [DigitChar(n % 10)]
  }

  lemma {:induction false} DigitsValueFormatNat(n: nat)
    ensures DigitsValue(FormatNat(n)) == n
    decreases n
  {
    if n >= 10 {
      var s := FormatNat(n);
      assert s[..|s| - 1] == FormatNat(n / 10);
      DigitsValueFormatNat(n / 10);
    }
  }

  /** Python's `str(n)` for an integer. */
  function FormatInt(n: int): (r: string)
    ensures |r| > 0
  {
    if n < 0 then "-" + FormatNat(-n) else FormatNat(n)
  }
}

=== FILE: styling.dfy ===
/** Inline TEI content and its styling: `append_text` (page2tei.py:169-180)
    and `build_styled_nodes` (page2tei.py:183-213). */
module Styling {
  import opened Strings
  import opened CustomParser
  import opened Segmentation

  /** Element content as the ordered list of its text runs and child
      elements: an element's `text` is a leading `Text`, a child's `tail` is
      the `Text` right after it. */
  datatype Node = Text(text: string) | Elem(tag: string, attrs: map<string, string>, content: seq<Node>)

  /** The content of an element whose `text` is set to `s` (`None` and `""`
      both give no run). */
  function Literal(s: string): seq<Node> {
    if s == "" then [] else [Text(s)]
  }

  /** `<hi rend="...">s</hi>`. */
  function Hi(rend: string, s: string): Node {
    Elem("hi", map["rend" := rend], Literal(s))
  }

  /** The character data of a content list, in document order. */
  function FlatText(ns: seq<Node>): string
    decreases ns, 1
  {
    if ns == [] then "" else FlatText(ns[..|ns| - 1]) + NodeText(ns[|ns| - 1])
  }

  function NodeText(n: Node): string
    decreases n, 0
  {
    match n
    case Text(t) => t
    case Elem(_, _, cs) => FlatText(cs)
  }

  /** The child elements of a content list (`list(parent)`), in order. */
  function Children(ns: seq<Node>): seq<Node> {
    if ns == [] then [] else Children(ns[..|ns| - 1]) + (if ns[|ns| - 1].Elem? then [ns[|ns| - 1]] else [])
  }

  /** No empty text run and no two text runs side by side: every run of
      character data is one `text` or one `tail`. */
  predicate Normalized(ns: seq<Node>) {
    (forall i :: 0 <= i < |ns| && ns[i].Text? ==> ns[i].text != "")
    && (forall i :: 0 <= i < |ns| - 1 ==> !(ns[i].Text? && ns[i + 1].Text?))
  }

  function Repeat(x: string, n: nat): seq<string> {
    seq(n, _ => x)
  }

  /** The `rend` in force at each character of a content list: `""` for
      character data directly in it, the element's `rend` for the
      characters inside a child element. */
  function Rends(ns: seq<Node>): seq<string> {
    if ns == [] then [] else Rends(ns[..|ns| - 1]) + NodeRends(ns[|ns| - 1])
  }

  function NodeRends(n: Node): seq<string> {
    match n
    case Text(t) => Repeat("", |t|)
    case Elem(_, attrs, cs) => Repeat(Get(attrs, "rend", ""), |FlatText(cs)|)
  }

  // ---------------------------------------------------------------------
  // append_text
  // ---------------------------------------------------------------------

  /** `append_text`: nothing for `""`; otherwise the text joins the
      trailing run (the last child's `tail`, or the element's own `text`
      when it has no child), or starts one. */
  function AppendText(content: seq<Node>, s: string): (r: seq<Node>)
    ensures |content| <= |r| <= |content| + 1
    ensures content != [] ==> r[..|content| - 1] == content[..|content| - 1]
    ensures s != "" ==>
      r != [] && r[|r| - 1].Text? && |s| <= |r[|r| - 1].text|
      && r[|r| - 1].text[|r[|r| - 1].text| - |s|..] == s
  {
    if s == "" then content
    else if content != [] && content[|content| - 1].Text? then
      content[..|content| - 1] + [Text(content[|content| - 1].text + s)]
    else content + [Text(s)]
  }

  lemma Snoc(ns: seq<Node>, n: Node)
    ensures FlatText(ns + [n]) == FlatText(ns) + NodeText(n)
    ensures Rends(ns + [n]) == Rends(ns) + NodeRends(n)
    ensures Children(ns + [n]) == Children(ns) + (if n.Elem? then [n] else [])
  {
    assert (ns + [n])[..|ns|] == ns;
  }

  /** `append_text` adds exactly `s` to the character data, and nothing
      for `""`. */
  lemma AppendTextFlat(content: seq<Node>, s: string)
    ensures s == "" ==> AppendText(content, s) == content
    ensures FlatText(AppendText(content, s)) == FlatText(content) + s
  {
    if s != "" {
      if content != [] && content[|content| - 1].Text? {
        var front, t := content[..|content| - 1], content[|content| - 1].text;
        assert content == front + [Text(t)];
        Snoc(front, Text(t));
        Snoc(front, Text(t + s));
      } else {
        Snoc(content, Text(s));
      }
    }
  }

  /** `append_text` never adds a child element. */
  lemma AppendTextChildren(content: seq<Node>, s: string)
    ensures Children(AppendText(content, s)) == Children(content)
  {
    if s != "" {
      if content != [] && content[|content| - 1].Text? {
        var front, t := content[..|content| - 1], content[|content| - 1].text;
        assert content == front + [Text(t)];
        Snoc(front, Text(t));
        Snoc(front, Text(t + s));
      } else {
        Snoc(content, Text(s));
      }
    }
  }

  /** The characters `append_text` adds are unstyled. */
  lemma AppendTextRends(content: seq<Node>, s: string)
    ensures Rends(AppendText(content, s)) == Rends(content) + Repeat("", |s|)
  {
    if s != "" {
      if content != [] && content[|content| - 1].Text? {
        var front, t := content[..|content| - 1], content[|content| - 1].text;
        assert content == front + [Text(t)];
        Snoc(front, Text(t));
        Snoc(front, Text(t + s));
        assert Repeat("", |t|) + Repeat("", |s|) == Repeat("", |t + s|);
      } else {
        Snoc(content, Text(s));
      }
    }
  }

  /** `append_text` keeps content free of empty and adjacent text runs. */
  lemma AppendTextNormalized(content: seq<Node>, s: string)
    requires Normalized(content)
    ensures Normalized(AppendText(content, s))
  {
  }

  // ---------------------------------------------------------------------
  // build_styled_nodes
  // ---------------------------------------------------------------------

  /** The flags among `fs` whose value is `"true"`, in the order of `fs`;
      an absent flag counts as `"false"`. */
  function TrueFlags(attrs: map<string, string>, fs: seq<string>): seq<string> {
    if fs == [] then []
    else (if Get(attrs, fs[0], "false") == "true" then [fs[0]] else []) + TrueFlags(attrs, fs[1..])
  }

  function Flag(attrs: map<string, string>, f: string): seq<string> {
    if Get(attrs, f, "false") == "true" then [f] else []
  }

  /** The five flag tests of `build_styled_nodes`, in their order. */
  lemma StyleFlagTests(attrs: map<string, string>)
    ensures TrueFlags(attrs, StyleFlags) == Flag(attrs, "bold") + (Flag(attrs, "italic")
      + (Flag(attrs, "underline") + (Flag(attrs, "superscript") + Flag(attrs, "subscript"))))
  {
    var f4: seq<string> := ["subscript"];
    var f3: seq<string> := ["superscript"] + f4;
    var f2: seq<string> := ["underline"] + f3;
    var f1: seq<string> := ["italic"] + f2;
    TrueFlagsCons(attrs, "subscript", []);
    assert f4 == ["subscript"] + [];
    assert Flag(attrs, "subscript") + [] == Flag(attrs, "subscript");
    TrueFlagsCons(attrs, "superscript", f4);
    TrueFlagsCons(attrs, "underline", f3);
    TrueFlagsCons(attrs, "italic", f2);
    TrueFlagsCons(attrs, "bold", f1);
    assert StyleFlags == ["bold"] + f1;
  }

  lemma TrueFlagsCons(attrs: map<string, string>, f: string, fs: seq<string>)
    ensures TrueFlags(attrs, [f] + fs) == Flag(attrs, f) + TrueFlags(attrs, fs)
  {
    assert ([f] + fs)[1..] == fs;
  }

  /** The span of a style op labelled with its true flags joined in the
      fixed order. */
  function RangeOf(op: Op): Range {
    Range(op.offset, op.End(), Join(" ", TrueFlags(op.attrs, StyleFlags)))
  }

  /** The styling range of one op: none when no flag is true. */
  function OpRange(op: Op): seq<Range> {
    if TrueFlags(op.attrs, StyleFlags) == [] then [] else [RangeOf(op)]
  }

  /** The `ranges` list of `build_styled_nodes`. */
  function StyleRanges(ops: seq<Op>): seq<Range> {
    if ops == [] then [] else StyleRanges(ops[..|ops| - 1]) + OpRange(ops[|ops| - 1])
  }

  /** One segment's contribution: plain text, or one `hi` element. */
  function SegmentNode(content: seq<Node>, seg: Segment): seq<Node> {
    if seg.labels == [] then AppendText(content, seg.text)
    else content + [Hi(Join(" ", seg.labels), seg.text)]
  }

  function SegmentNodes(content: seq<Node>, segs: seq<Segment>): seq<Node>
    decreases |segs|
  {
    if segs == [] then content else SegmentNodes(SegmentNode(content, segs[0]), segs[1..])
  }

  /** The specification of `build_styled_nodes`: `content` after `text`
      has been added to it with the styling of `ops`. */
  function StyledInto(content: seq<Node>, text: string, ops: seq<Op>): seq<Node> {
    var rs := StyleRanges(ops);
    if rs == [] then AppendText(content, text) else SegmentNodes(content, Segments(text, rs))
  }

  /** `build_styled_nodes` over the content of its parent element. */
  method BuildStyledNodes(content: seq<Node>, text: string, styleOps: seq<Op>) returns (r: seq<Node>)
    ensures r == StyledInto(content, text, styleOps)
  {
    var ranges: seq<Range> := [];
    for k := 0 to |styleOps|
      invariant ranges == StyleRanges(styleOps[..k])
    {
      assert styleOps[..k + 1][..k] == styleOps[..k];
      var op := styleOps[k];
      var rend := TrueFlags(op.attrs, StyleFlags);
      assert StyleRanges(styleOps[..k + 1]) == StyleRanges(styleOps[..k]) + OpRange(op);
      if rend != [] {
        ranges := ranges + [Range(op.offset, op.End(), Join(" ", rend))];
      }
    }
    assert styleOps[..|styleOps|] == styleOps;
    if ranges == [] {
      r := AppendText(content, text);
      return;
    }
    var segments := SliceTextNodes(text, ranges);
    r := content;
    for k := 0 to |segments|
      invariant SegmentNodes(r, segments[k..]) == SegmentNodes(content, segments)
    {
      var seg := segments[k];
      assert segments[k..][1..] == segments[k + 1..];
      if seg.labels == [] {
        r := AppendText(r, seg.text);
      } else {
        r := r + [Hi(Join(" ", seg.labels), seg.text)];
      }
    }
  }

  // ---------------------------------------------------------------------
  // Properties of build_styled_nodes
  // ---------------------------------------------------------------------

  /** The rend of position `p` under the ranges `rs`: the sorted labels of
      the ranges containing it, space-joined (`""` when there is none). */
  function RendAt(rs: seq<Range>, p: int): string {
    Join(" ", SortedUnique(PointLabels(rs, p)))
  }

  /** The `hi` elements for the labelled segments, in order. */
  function HiNodes(segs: seq<Segment>): seq<Node> {
    if segs == [] then []
    else (if segs[0].labels == [] then [] else [Hi(Join(" ", segs[0].labels), segs[0].text)]) + HiNodes(segs[1..])
  }

  /** The rend of each character of the segments, in order. */
  function SegRends(segs: seq<Segment>): seq<string> {
    if segs == [] then [] else Repeat(Join(" ", segs[0].labels), |segs[0].text|) + SegRends(segs[1..])
  }

  /** A flag is reported exactly when it is among `fs` and set to `"true"`. */
  lemma {:induction false} TrueFlagsSpec(attrs: map<string, string>, fs: seq<string>)
    ensures forall x :: x in TrueFlags(attrs, fs) <==> x in fs && Get(attrs, x, "false") == "true"
  {
    if fs != [] {
      TrueFlagsSpec(attrs, fs[1..]);
      assert fs == [fs[0]] + fs[1..];
    }
  }

  /** Each style op with a true flag gives one range over its span labelled
      with its flags; an op without one gives none. */
  lemma {:induction false} StyleRangesSpec(ops: seq<Op>)
    ensures forall r :: r in StyleRanges(ops) <==>
      (exists op :: op in ops && TrueFlags(op.attrs, StyleFlags) != [] && r == RangeOf(op))
    ensures |StyleRanges(ops)| <= |ops|
  {
    if ops != [] {
      var front, last := ops[..|ops| - 1], ops[|ops| - 1];
      StyleRangesSpec(front);
      assert ops == front + [last];
      assert StyleRanges(ops) == StyleRanges(front) + OpRange(last);
      forall op ensures op in ops <==> op in front || op == last {
      }
    }
  }

  /** Ops with no true flag give no range. */
  lemma {:induction false} NoFlagsNoRanges(ops: seq<Op>)
    requires forall op :: op in ops ==> TrueFlags(op.attrs, StyleFlags) == []
    ensures StyleRanges(ops) == []
    decreases |ops|
  {
    if ops != [] {
      assert ops[|ops| - 1] in ops;
      NoFlagsNoRanges(ops[..|ops| - 1]);
    }
  }

  /** Ops with no true flag are ignored; when none has one, the whole text
      is appended plain. */
  lemma StyledPlain(content: seq<Node>, text: string, ops: seq<Op>)
    requires forall op :: op in ops ==> TrueFlags(op.attrs, StyleFlags) == []
    ensures StyledInto(content, text, ops) == AppendText(content, text)
  {
    NoFlagsNoRanges(ops);
  }

  lemma LiteralText(s: string)
    ensures FlatText(Literal(s)) == s
  {
    if s != "" {
      assert [Text(s)] == [] + [Text(s)];
    }
  }

  lemma {:induction false} SegmentNodesFlat(content: seq<Node>, segs: seq<Segment>)
    ensures FlatText(SegmentNodes(content, segs)) == FlatText(content) + Concat(segs)
    decreases |segs|
  {
    if segs != [] {
      var seg := segs[0];
      if seg.labels == [] {
        AppendTextFlat(content, seg.text);
      } else {
        Snoc(content, Hi(Join(" ", seg.labels), seg.text));
        LiteralText(seg.text);
      }
      SegmentNodesFlat(SegmentNode(content, seg), segs[1..]);
    }
  }

  /** `build_styled_nodes` adds exactly `text` to the character data. */
  lemma StyledText(content: seq<Node>, text: string, ops: seq<Op>)
    ensures FlatText(StyledInto(content, text, ops)) == FlatText(content) + text
  {
    var rs := StyleRanges(ops);
    if rs == [] {
      AppendTextFlat(content, text);
    } else {
      SegmentNodesFlat(content, Segments(text, rs));
      SegmentsConcat(text, rs);
    }
  }

  lemma {:induction false} SegmentNodesNormalized(content: seq<Node>, segs: seq<Segment>)
    requires Normalized(content)
    ensures Normalized(SegmentNodes(content, segs))
    decreases |segs|
  {
    if segs != [] {
      if segs[0].labels == [] {
        AppendTextNormalized(content, segs[0].text);
      }
      SegmentNodesNormalized(SegmentNode(content, segs[0]), segs[1..]);
    }
  }

  /** `build_styled_nodes` keeps content free of empty and adjacent text
      runs. */
  lemma StyledNormalized(content: seq<Node>, text: string, ops: seq<Op>)
    requires Normalized(content)
    ensures Normalized(StyledInto(content, text, ops))
  {
    var rs := StyleRanges(ops);
    if rs == [] {
      AppendTextNormalized(content, text);
    } else {
      SegmentNodesNormalized(content, Segments(text, rs));
    }
  }

  lemma {:induction false} SegmentNodesChildren(content: seq<Node>, segs: seq<Segment>)
    ensures Children(SegmentNodes(content, segs)) == Children(content) + HiNodes(segs)
    decreases |segs|
  {
    if segs != [] {
      var seg := segs[0];
      if seg.labels == [] {
        AppendTextChildren(content, seg.text);
      } else {
        Snoc(content, Hi(Join(" ", seg.labels), seg.text));
      }
      SegmentNodesChildren(SegmentNode(content, seg), segs[1..]);
    }
  }

  /** Over no ranges every segment is unlabelled. */
  lemma {:induction false} UnlabelledHiNodes(segs: seq<Segment>)
    requires forall k :: 0 <= k < |segs| ==> segs[k].labels == []
    ensures HiNodes(segs) == []
  {
    if segs != [] {
      UnlabelledHiNodes(segs[1..]);
    }
  }

  /** The elements `build_styled_nodes` adds are exactly one `hi` per
      labelled segment, holding the segment's text, in segment order. */
  lemma StyledChildren(content: seq<Node>, text: string, ops: seq<Op>)
    ensures Children(StyledInto(content, text, ops)) == Children(content) + HiNodes(Segments(text, StyleRanges(ops)))
  {
    var rs := StyleRanges(ops);
    var segs := Segments(text, rs);
    if rs == [] {
      AppendTextChildren(content, text);
      forall k | 0 <= k < |segs| ensures segs[k].labels == [] {
        SegmentsInText(text, rs, k);
        SegmentLabels(text, rs, k, segs[k].start);
      }
      UnlabelledHiNodes(segs);
    } else {
      SegmentNodesChildren(content, segs);
    }
  }

  lemma {:induction false} SegmentNodesRends(content: seq<Node>, segs: seq<Segment>)
    ensures Rends(SegmentNodes(content, segs)) == Rends(content) + SegRends(segs)
    decreases |segs|
  {
    if segs != [] {
      var seg := segs[0];
      if seg.labels == [] {
        AppendTextRends(content, seg.text);
      } else {
        Snoc(content, Hi(Join(" ", seg.labels), seg.text));
        LiteralText(seg.text);
      }
      SegmentNodesRends(SegmentNode(content, seg), segs[1..]);
    }
  }

  lemma SegRendsCons(seg: Segment, segs: seq<Segment>)
    ensures SegRends([seg] + segs) == Repeat(Join(" ", seg.labels), |seg.text|) + SegRends(segs)
  {
    assert ([seg] + segs)[1..] == segs;
  }

  lemma RendsThen(f: int -> string, s: nat, e: nat, n: nat, head: seq<string>, tail: seq<string>)
    requires s <= e <= n && |head| == e - s && |tail| == n - e
    requires forall q :: 0 <= q < e - s ==> head[q] == f(s + q)
    requires forall q :: 0 <= q < n - e ==> tail[q] == f(e + q)
    ensures forall q :: 0 <= q < n - s ==> (head + tail)[q] == f(s + q)
  {
    forall q | 0 <= q < n - s ensures (head + tail)[q] == f(s + q) {
      if q >= e - s {
        assert (head + tail)[q] == tail[q - (e - s)];
      }
    }
  }

  /** `f` gives each position between two consecutive cuts the rend of
      the segment between them. */
  predicate RendsBySegment(text: string, rs: seq<Range>, cuts: seq<nat>, f: int -> string) {
    forall j, p :: 0 <= j < |cuts| - 1 && cuts[j] <= p < cuts[j + 1] ==>
      f(p) == Join(" ", SegmentOf(text, rs, cuts[j], cuts[j + 1]).labels)
  }

  /** Over a valid cut list, the rend of each character of the segments
      from cut `i` on is the rend `f` gives its position. */
  lemma {:induction false} SegRendsFrom(text: string, rs: seq<Range>, cuts: seq<nat>, i: nat, f: int -> string)
    requires Steps(cuts) && i < |cuts| && cuts[|cuts| - 1] == |text|
    requires forall k :: 0 <= k < |cuts| ==> cuts[k] <= |text|
    requires RendsBySegment(text, rs, cuts, f)
    ensures |SegRends(SegmentsFrom(text, rs, cuts, i))| == |text| - cuts[i]
    ensures forall q :: 0 <= q < |text| - cuts[i] ==> SegRends(SegmentsFrom(text, rs, cuts, i))[q] == f(cuts[i] + q)
    decreases |cuts| - i
  {
    if i + 1 < |cuts| {
      var s, e := cuts[i], cuts[i + 1];
      assert s < e <= |text|;
      SegRendsFrom(text, rs, cuts, i + 1, f);
      var seg := SegmentOf(text, rs, s, e);
      var rest := SegmentsFrom(text, rs, cuts, i + 1);
      assert SegmentsFrom(text, rs, cuts, i) == [seg] + rest;
      assert |seg.text| == e - s;
      SegRendsCons(seg, rest);
      var head := Repeat(Join(" ", seg.labels), e - s);
      assert forall q :: 0 <= q < e - s ==> head[q] == f(s + q);
      RendsThen(f, s, e, |text|, head, SegRends(rest));
    }
  }

  /** Over some ranges, the rend of each character of the segments is the
      rend of the ranges containing it. */
  lemma SegmentsRends(text: string, rs: seq<Range>)
    ensures SegRends(Segments(text, rs)) == seq(|text|, p => RendAt(rs, p))
  {
    var cuts := Cuts(|text|, rs);
    var f := p => RendAt(rs, p);
    CutsValid(|text|, rs);
    forall j, p | 0 <= j < |cuts| - 1 && cuts[j] <= p < cuts[j + 1]
      ensures f(p) == Join(" ", SegmentOf(text, rs, cuts[j], cuts[j + 1]).labels)
    {
      SegmentLabelsAt(rs, cuts, |text|, j, p);
    }
    SegRendsFrom(text, rs, cuts, 0, f);
    assert cuts[0] == 0;
  }

  /** With no range every character is unstyled. */
  lemma PlainRends(n: nat)
    ensures Repeat("", n) == seq(n, p => RendAt([], p))
  {
    assert SortedUnique([]) == [];
  }

  /** `build_styled_nodes` marks each character `p` of `text` with the
      sorted, space-joined labels of the style ranges containing `p`, and
      leaves the rends of the existing content as they were. */
  lemma StyledRends(content: seq<Node>, text: string, ops: seq<Op>)
    ensures Rends(StyledInto(content, text, ops)) == Rends(content) + seq(|text|, p => RendAt(StyleRanges(ops), p))
  {
    var rs := StyleRanges(ops);
    if rs == [] {
      AppendTextRends(content, text);
      PlainRends(|text|);
    } else {
      SegmentNodesRends(content, Segments(text, rs));
      SegmentsRends(text, rs);
    }
  }

  /** Each character of a content list has one rend. */
  lemma {:induction false} RendsLength(ns: seq<Node>)
    ensures |Rends(ns)| == |FlatText(ns)|
  {
    if ns != [] {
      RendsLength(ns[..|ns| - 1]);
    }
  }
}
